=== FILE: README.md ===
# Infrared radiometer tape decoder — a Dafny model

This project models the core of `Data4to6_new.py`, the reader for archival `.TAP` tapes of the
THIR infrared radiometer flown on Nimbus 4, 5 and 6. The model covers:

- **Framing.** The tape is a run of blocks. Each block has a 32-bit length header and a footer
  that repeats the length. A set sign bit marks a corrupt block, and zero headers are padding.
- **Byte validity (Nimbus 4).** Each byte has a parity bit and a check bit.
- **Word assembly.** A Nimbus 4 word is 36 bits read from six six-bit bytes. Nimbus 5 and 6 read
  two 36-bit words from nine eight-bit bytes, and the source has three copies of that reader.
- **Record layouts.** The groups of bytes that make up the orbit document, each data record and
  each swath, and how a record's bytes are cut into swaths.
- **Field decoding.** Scaling, range checks that turn a field into the -999 sentinel, nadir
  angles with a sign bit, flag bits, anchor coordinates and brightness samples.
- **Geolocation.** Each sample's latitude and longitude come from Lagrange interpolation through
  a window of five anchor points. This includes the dateline shift and the final wrap and clamp
  passes.
- **Whole-file products of `Fields`.** The channel, the swath dimensions, the time limits, the
  time grid and each swath's row in it, sentinel padding of a line to the grid width, and the
  change of coordinate frame.

Apart from the cases listed under "Left out" (among them Python's recursion limit and memory
exhaustion), every exception the source can raise on a given input is modelled as an `Err`
value of the `Common.Crash` datatype, when the decoder is run with the source's own fill test
(`Records.FillTest.AsWritten`). This covers:

- a missing first header;
- an index past the end of a word list;
- an array of negative size;
- the minimum of an empty array;
- a date outside the `datetime` range, both for the orbit document's stamps and for the swath
  time limits;
- subtracting the fallback date tuple.

Arithmetic is over unbounded integers and exact reals. The 32-bit truncation in the nadir-angle
decoder is written out explicitly.

Modules, in dependency order:

- `Common`, `Bits` and `PySeq` hold shared vocabulary: Python's slicing and indexing rules and
  base-b digit arithmetic.
- `Framing` and `FrameLemmas` model the block scanner and its round trip.
- `Parity` models the Nimbus 4 byte check.
- `WordsA` and `WordsB` model word assembly.
- `LayoutA` and `LayoutB` model the record and swath layouts.
- `Interp` models geolocation.
- `Records` models the orbit document, data record and swath fields.
- `Fields` models the whole-file products.
- `Decoder` ties framing, layout and records together for both tape generations.

Where the source's documentation and its code disagree, the model follows the code:

- **Parity rule.** The docstring of `parity` says that an even count of set data bits requires
  the parity bit to be clear. The code requires it to be set. `Parity.CodeContradictsDocs` proves
  that the two rules are exact negations of each other.
- **Fill test.** The documented fill test fills a swath whose population is 0 or at least 600.
  The code tests `(pop != 0) & (pop < 600)`, so a negative population is decoded, and decoding
  it raises (see Findings). The decoder takes the fill test as a parameter. With `AsWritten` it
  raises as the source does. With `Intended` it fills such a swath. `Decoder.DecodeTestsAgree`
  proves that the two give the same result on every tape the source decodes.
- **Zero padding.** Only the Nimbus 5/6 orbit document is padded with zero bytes to a multiple of
  nine. A short nine-byte group in a data record or swath reads as two sentinels.
- **Longitude wrap.** The wrap passes use strict comparisons, so the exact values 375 and -15 are
  kept as they are.
- **Crashes.** The source does not always produce a sentinel-filled record. Some inputs make it
  raise, and the model (with the source's fill test) returns the corresponding `Err`.

## Model

| member | source | states |
|---|---|---|
| Framing.Int32At | Data4to6_new.py:59 | A header read yields a signed 32-bit value exactly when four bytes remain. Otherwise the read is empty. |
| Framing.Mask31 | Data4to6_new.py:60 | Clearing the sign bit gives a length in [0, 2^31). It equals the raw value when that is non-negative, and the raw value plus 2^31 otherwise. |
| Framing.GetHeader | Data4to6_new.py:57-69 | Reading never moves backwards. A header that does not end the tape has a length below 2^31 and consumes at least its own four bytes. |
| Framing.HeaderEmpty | Data4to6_new.py:67-68 | An empty header read ends the tape and has no length. |
| Framing.HeaderNonZero | Data4to6_new.py:59-62 | A non-zero header's length is the masked value. The block is skipped exactly when the raw sign bit was set. |
| Framing.HeaderZero | Data4to6_new.py:63-66 | Two zero headers in a row end the tape. A single zero header is replaced by the header that follows it. |
| Framing.ReadBlock | Data4to6_new.py:80 | A block read returns exactly the requested number of bytes, or every byte left at the end of the tape. |
| Framing.Frame | Data4to6_new.py:26-33 | The scan fails exactly when the first header read finds no bytes. |
| Framing.ReadTurn | Data4to6_new.py:34-42 | A loop turn either ends the tape (exactly when the header read says so) or reads a block and moves strictly forward. |
| FrameLemmas.LittleBytesValue | Data4to6_new.py:59 | Writing a value as n little-endian bytes and reading them back gives the value. |
| FrameLemmas.Int32RoundTrip | Data4to6_new.py:59 | A signed 32-bit value written as a header reads back as itself. |
| FrameLemmas.SignedUnsigned | Data4to6_new.py:80 | Storing signed bytes and reading them back as int8 gives the same bytes. |
| FrameLemmas.HeaderAt | Data4to6_new.py:57-62 | An encoded non-zero header reads back as its masked length, with skip set exactly for a negative header, and the read ends right after it. |
| FrameLemmas.BlockStep | Data4to6_new.py:35-39 | A block written as header, bytes and footer reads back as its length, corrupt flag, bytes and footer. |
| FrameLemmas.ScanAtEnd | Data4to6_new.py:63-66 | The end mark of two zero headers stops the read loop. |
| FrameLemmas.TurnRead | Data4to6_new.py:35-41 | A block that reads back makes exactly the expected turn of the loop. |
| FrameLemmas.LaidOf | Data4to6_new.py:34-42 | An encoded run of blocks lies on the tape block by block, followed by the end mark. |
| FrameLemmas.RunEncoded | Data4to6_new.py:34-42 | Blocks laid out on the tape read back turn by turn, then the loop ends. |
| FrameLemmas.ScanRun | Data4to6_new.py:34-42 | The read loop (`Framing.ScanBlocks`) keeps exactly the blocks not flagged corrupt, in order, and warns once per footer that disagrees with its header. |
| FrameLemmas.ScanEncoded | Data4to6_new.py:34-42 | Scanning an encoded run gives the kept blocks and the warning count. |
| FrameLemmas.FrameEncoded | Data4to6_new.py:26-43 | A recorded tape is read back as its first block (the orbit document), exactly its uncorrupted data blocks in order, and one warning per mismatched footer. Footers never change what is kept. |
| FrameLemmas.FrameOf | Data4to6_new.py:26-33 | When the first block reads back, it is the orbit document, and the rest of the scan supplies the data blocks and warnings. |
| Parity.ParityOf | Data4to6_new.py:108-120 | The per-byte loop marks a byte good exactly when its low seven bits hold an odd number of set bits. |
| Parity.ParityAll | Data4to6_new.py:107-121 | One flag per byte, and each flag is that byte's verdict. |
| Parity.OddSeven | Data4to6_new.py:111-119 | The coded parity rule is the same as "the low seven bits have odd weight". |
| Parity.CodeContradictsDocs | Data4to6_new.py:103-119 | The coded rule is the exact negation of the rule the docstring states. |
| Parity.GoodIsParityAndSign | Data4to6_new.py:82 | The `> 0` gate combined with parity is the same as parity plus a clear sign bit, because zero never passes parity. |
| Parity.FlipVerdict | Data4to6_new.py:114-119 | Adding or removing the parity bit's weight flips the verdict and keeps the data bits. |
| Parity.FlipParity | Data4to6_new.py:114-119 | Flipping a byte's parity bit flips its verdict and leaves its six data bits unchanged. |
| Parity.EncodeChunk | Data4to6_new.py:108-120 | Every six-bit chunk has a recorder byte that passes the check and carries the chunk. |
| Parity.ZipGoodness | Data4to6_new.py:80-83 | Each byte is paired with its goodness, which holds exactly when the byte is non-negative and has odd seven-bit weight. |
| WordsA.ReadWord | Data4to6_new.py:265-274 | A word is the sentinel exactly when some byte is bad. Otherwise it is the big-endian base-64 value of the data bits, below 64^n. |
| WordsA.AccumulateGood | Data4to6_new.py:270-273 | With all bytes good, the loop shifts in six data bits per byte. |
| WordsA.AccumulateBad | Data4to6_new.py:267-269 | Any bad byte makes the loop return the sentinel. |
| WordsA.ReadWordIsWord | Data4to6_new.py:251-274 | Six bytes or fewer always read as a 36-bit value or the sentinel. |
| WordsA.WordRoundTrip | Data4to6_new.py:265-274 | The bytes the recorder writes for a word read back as that word. |
| WordsA.Halves | Data4to6_new.py:389-396 | The sentinel splits into two sentinels. A word splits into an 18-bit low half and a high half that recombine into the word. |
| WordsA.HalvesJoin | Data4to6_new.py:394-395 | Joining two 18-bit halves and splitting the result gives the halves back. |
| WordsA.HalvesAreWords | Data4to6_new.py:389-396 | Halves of a word value are half-word values or the sentinel. |
| WordsB.Split72 | Data4to6_new.py:311-327 | Nine bytes split into two 36-bit words whose 72-bit join is the bytes' big-endian value. Any other length gives two sentinels. |
| WordsB.OrbitCopyAgrees | Data4to6_new.py:311-327 | The orbit document's pair reader (`WordsB.ReadPairOrbit`) is the reference split. |
| WordsB.RecordCopyAgrees | Data4to6_new.py:503-524 | The data record's pair reader (`WordsB.ReadPairRecord`) is the reference split. It starts its second word from the low nibble of byte 4, which is where the first loop leaves its index. |
| WordsB.SwathCopyAgrees | Data4to6_new.py:843-864 | The swath's pair reader (`WordsB.ReadPairSwath`) is the reference split, even though it shifts byte 4 in a second time. |
| WordsB.PairUnique | Data4to6_new.py:320-326 | Two words below 2^36 are determined by their 72-bit join. |
| WordsB.PairRoundTrip | Data4to6_new.py:315-326 | The nine bytes the recorder writes for two words read back as those words. |
| WordsB.PadNine | Data4to6_new.py:291-292 | Padding keeps the bytes and appends fewer than nine zero bytes, reaching a multiple of nine. |
| WordsB.PairWordsAt | Data4to6_new.py:293-296 | Group i's two words sit at positions 2i and 2i+1. |
| WordsB.OrbitDocWordsBLayout | Data4to6_new.py:290-297 | The orbit document has two words per started nine-byte group. Each pair is the reference split of its zero-padded group. |
| LayoutA.GroupWord | Data4to6_new.py:249 | The word of a six-byte group is a word value or the sentinel. A group past the end reads as 0. |
| LayoutA.OrbitDocWords | Data4to6_new.py:247-250 | One word per complete six-byte group. |
| LayoutA.OrbitDocWordAt | Data4to6_new.py:248-249 | Word i of the orbit document reads back as recorded. |
| LayoutA.OrbitDocRoundTrip | Data4to6_new.py:239-250 | The orbit document reads back every word recorded for it. |
| LayoutA.RunsAreWords | Data4to6_new.py:373-379 | Half-word and full-word runs of word values hold only word values or sentinels. |
| LayoutA.RecordLayoutPlaces | Data4to6_new.py:373-380 | The first 14 record words are the halves of groups 0-6, high half first, and word 7+j is group j. The swath marker is the end of the last group read, 6*(7+max(L,0)); when L <= 0 (the sentinel -999 included) no anchor group is read and the marker is 42. |
| LayoutA.RecordWords | Data4to6_new.py:364-380 | A record has 14+max(L,0) words, all word values or sentinels, and its swaths start at byte 6*(7+max(L,0)). |
| LayoutA.SwathLayoutPlaces | Data4to6_new.py:600-611 | Swath words 0-3 are the halves of groups 0 and 1, word 4 is group 2 whole, and each later pair is the halves of one group. |
| LayoutA.SwathWords | Data4to6_new.py:592-611 | A swath has 5 + 2*(n-3) words for n bytes (the loop runs to the byte count), all word values or sentinels. |
| LayoutA.SwathTailZeros | Data4to6_new.py:607-610 | Every pair the loop reads from beyond the slice is a pair of zeros. |
| LayoutA.SwathSlices | Data4to6_new.py:435-439 | There is one slice per swath per record. |
| LayoutA.SwathTiling | Data4to6_new.py:436-438 | When the bytes suffice, the swath slices are disjoint, B*6 bytes each, and together exactly the first S*B*6 bytes. |
| LayoutB.QuadRunSnoc | Data4to6_new.py:820-824 | A quad run grows by one group's four half words per turn. |
| LayoutB.PairRunSnoc | Data4to6_new.py:470-472 | A pair run grows by one group's two words per turn. |
| LayoutB.NeededBound | Data4to6_new.py:469-473 | The number of turns the loop makes is the least number that reaches the target word count. |
| LayoutB.RecordWordsLoop | Data4to6_new.py:455-474 | The while loop of `Data_Rec2.make_words` computes the record layout. |
| LayoutB.RecordPairCount | Data4to6_new.py:468-473 | The loop makes max(L,0)/2 turns, one group per two anchor points rounded down, so a record has 15 + 2*(max(L,0)/2) words: at least 14+L and at most 15+max(L,0). |
| LayoutB.RecordLayoutBPlaces | Data4to6_new.py:455-474 | Words 0-11 are the quads of groups 0-2. Words 12-13 are the halves of group 3's first word, and word 14 is its second word. Later pairs come from groups 4 onward. The marker is 9*(4+max(L,0)/2). |
| LayoutB.RecordWordsB | Data4to6_new.py:445-474 | A record has 15 + 2*(max(L,0)/2) words, all word values or sentinels, and its swaths start at byte 9*(4+max(L,0)/2); for L <= 0 that is 15 words and byte 36. |
| LayoutB.SwathWordsLoop | Data4to6_new.py:818-826 | The while loop shared by both swath kinds computes the swath layout. |
| LayoutB.SwathLayoutBLength | Data4to6_new.py:819-825 | A swath reaches its target word count (5 + 2L + population) and overshoots it by fewer than four words. |
| LayoutB.SwathLayoutBPlaces | Data4to6_new.py:818-826 | The head is kept, and each later quad comes from group 2+j. |
| LayoutB.RecordPair | Data4to6_new.py:470 | Group i of a record is read as the reference split of its nine bytes, and yields word values or sentinels. |
| LayoutB.SwathPair | Data4to6_new.py:820 | Group i of a swath is read as the reference split of its nine bytes, and yields word values or sentinels. |
| LayoutB.QuadsAreWords | Data4to6_new.py:820-824 | Quad and pair runs of word values hold only word values or sentinels. |
| LayoutB.Swath2Words | Data4to6_new.py:806-826 | A `Swath_Data2` has at least seven words, all word values or sentinels. |
| LayoutB.SecondHalf | Data4to6_new.py:871-872 | The shifted view drops the first len/2 - 4 bytes, and nothing when that count is not positive. |
| LayoutB.Swath3Words | Data4to6_new.py:869-889 | A `Swath_Data3` has at least five words, all word values or sentinels. |
| LayoutB.SwathSlicesB | Data4to6_new.py:537-542 | There is one slice per swath pair, S/2 in all. |
| LayoutB.SwathTilingB | Data4to6_new.py:538-541 | When the bytes suffice, the slices are disjoint, B*9 bytes each, and together exactly the first (S/2)*B*9 bytes. |
| PySeq.ClampBound | Data4to6_new.py:438 | A slice bound is resolved as Python does: clamped to the length, and counted from the end when negative. |
| PySeq.Slice | Data4to6_new.py:438 | Python's `s[lo:hi]` is the plain subsequence when the bounds are in range, and never longer than s. |
| PySeq.Slice2 | Data4to6_new.py:571-572 | `s[lo:hi:2]` holds every other element of the slice, starting with its first. |
| PySeq.Get | Data4to6_new.py:737-739 | numpy indexing succeeds exactly for -n <= i < n, and agrees with plain indexing on 0 <= i < n. |
| PySeq.Gather | Data4to6_new.py:737-739 | Fancy indexing with in-range indices returns the indexed elements in order. |
| PySeq.WindowsTile | Data4to6_new.py:436-438 | Consecutive fixed-width windows of a long enough sequence join back into its prefix. |
| Interp.MinDist | Data4to6_new.py:764 | `min(abs(array - value))` is a lower bound of every distance and is attained. |
| Interp.Nearest | Data4to6_new.py:754-766 | The index found is the first index at which the array is closest to the value. |
| Interp.FindNearestIndex | Data4to6_new.py:761-766 | The while loop as written stops at that first closest index. |
| Interp.NearestUnique | Data4to6_new.py:763-765 | Only one index is closest and before every other closest index. |
| Interp.WindowStart | Data4to6_new.py:769-773 | The window starts at index-2, at 0, or low enough that it ends below the anchor count. |
| Interp.SurroundingN | Data4to6_new.py:767-774 | The two shifting loops as written produce five consecutive indices. |
| Interp.WindowInside | Data4to6_new.py:767-774 | With at least five anchors, the window (`Interp.Window`) lies inside them and contains the index. Away from the ends, it is centred on the index. |
| Interp.Factor | Data4to6_new.py:800 | A factor is 1 at the basis node and 0 at its own node. |
| Interp.BasisAtOwnNode | Data4to6_new.py:792-801 | A basis polynomial is 1 at its own node. |
| Interp.BasisAtOtherNode | Data4to6_new.py:792-801 | A basis polynomial is 0 at every other node. |
| Interp.TermsAtNode | Data4to6_new.py:787-791 | Evaluated at node k with distinct nodes, the partial sum is ys[k] once term k is included, and 0 before that. |
| Interp.InterpolateAtNode | Data4to6_new.py:775-791 | With distinct nodes, the interpolating polynomial (`Interp.Interpolate`) passes through every data point. |
| Interp.Dateline | Data4to6_new.py:740-741 | Each longitude is kept or moved up by 360. When the window's ends are more than 180 apart, exactly those below 180 move. Otherwise nothing changes. |
| Interp.WrapLonCases | Data4to6_new.py:745-749 | The four longitude passes (`Interp.WrapLon`): in-range longitudes and the exact limits 375 and -15 pass unchanged. Overshoots within 15 degrees fold back by 360. Anything further out becomes the sentinel. |
| Interp.ClampLatCases | Data4to6_new.py:750-752 | The two latitude passes (`Interp.ClampLat`): latitudes in [0, 180] are kept and all others become the sentinel. |
| Interp.SeqMin | Data4to6_new.py:731 | The minimum is an element of the array and is below every element. |
| Interp.SeqMax | Data4to6_new.py:731 | The maximum is an element of the array and is above every element. |
| Interp.LinspaceEnds | Data4to6_new.py:731 | The query angles start at the smallest anchor angle, end at the largest, and stay between them. |
| Interp.Points | Data4to6_new.py:734-743 | Pair k is what one turn of the loop (`Interp.Point`) computes at query angle k: the window around the nearest anchor, the dateline rule, and the two interpolations. The list fails exactly when some turn fails, and only with an index outside an anchor array. |
| Interp.FullCoords | Data4to6_new.py:729-753 | There are `pop` latitudes and longitudes. Sample k is the interpolation at the k-th of `pop` angles evenly spaced from the smallest to the largest anchor angle, with the latitude clamped and the longitude wrapped. Latitudes are in [0, 180] or the sentinel, and longitudes are in [0, 360], one of the two kept limits, or the sentinel. No anchors is an empty-min error, and a negative population is a negative-size error. |
| Interp.AnchorNearest | Data4to6_new.py:754-766 | At an anchor's own angle, the nearest index found is an anchor at that angle. |
| Interp.PointAtAnchor | Data4to6_new.py:734-743 | With distinct anchor angles, a sample at an anchor's angle gets exactly that anchor's latitude, and its longitude moved up by 360 only when its window crosses the dateline and it lies below 180. |
| Interp.WindowPointAtNode | Data4to6_new.py:740-743 | At one of its distinct nodes, a window's interpolation gives that node's latitude and its longitude after the dateline rule. |
| Interp.SampleAnglesEnds | Data4to6_new.py:731 | The first query angle is the smallest anchor angle, and the last is the largest. |
| Interp.SampleOnAnchor | Data4to6_new.py:729-753 | With five or more distinct anchors, geolocation succeeds, and a sample whose angle is an anchor's angle reports that anchor's latitude, up to the final clamp. |
| Interp.FirstSampleOnAnchor | Data4to6_new.py:712-714 | With distinct anchor angles, the first data point lies on the anchor with the smallest nadir angle, as the docstring assumes. |
| Interp.LastSampleOnAnchor | Data4to6_new.py:712-714 | With two samples or more and distinct anchor angles, the last data point lies on the anchor with the largest nadir angle. |
| Interp.PointsDefined | Data4to6_new.py:734-743 | When every window fits, no query angle fails. |
| Interp.FullCoordsDefined | Data4to6_new.py:729-753 | With at least five anchors and anchor arrays that long, geolocation succeeds for every non-negative population. |
| Records.Scale | Data4to6_new.py:194-197 | A scaled word is the sentinel exactly when the word is. Otherwise it is non-negative, and multiplying back by the factor gives the word. |
| Records.YearLength | Data4to6_new.py:218 | Consecutive year starts are 366 days apart in a leap year and 365 otherwise, and 1970-01-01 is day 719162. |
| Records.MakeStamp | Data4to6_new.py:205-221 | Any sentinel field gives the fallback tuple. Otherwise the stamp is January 1st plus the offsets, and it is a range error exactly when the year is outside 1-9999 or the result is outside the datetime range. |
| Records.StampFields | Data4to6_new.py:218-220 | An in-range stamp's day number is the year's first day plus nday - 1, and its time of day is h:m:s. |
| Records.ParseOrbitDoc | Data4to6_new.py:182-204 | Fields are read in source order. Too few words is an index error before or between the stamps. The start and end are the stamps of words 2-5 and 6-9, and the mirror rate is word 10 in 512ths. A fallback stamp makes the total time raise, and that happens only when a date word is the sentinel. No document is produced when any of date words 2-9 is the sentinel. |
| Records.TotalTimeSpan | Data4to6_new.py:204 | The total time is the day and clock difference and does not depend on the year. |
| Records.Int32Of | Data4to6_new.py:421 | The int32 cast keeps values already in the signed 32-bit range. |
| Records.NadirRaw | Data4to6_new.py:415-425 | A raw angle is within ±4000 sixty-fourths, or the sentinel times 64. |
| Records.Nadir | Data4to6_new.py:409-426 | An angle is within 62.5 degrees of nadir. It is the sentinel exactly when the word is the sentinel or its signed magnitude exceeds 4000. |
| Records.Nadirs | Data4to6_new.py:415-426 | There is one angle per word, each decoded on its own. |
| Records.NadirRoundTrip | Data4to6_new.py:417-421 | Every angle the recorder can write (magnitude, with bit 35 for negative) reads back as a/64 degrees. |
| Records.RecordOf | Data4to6_new.py:338-362 | Attitude errors are in eighths of a degree. Every word from 14 on is a nadir angle, and the swaths are the ones decoded from the record's bytes. |
| Records.Delete | Data4to6_new.py:648-651 | `del s[i]` removes exactly element i and shifts the rest down. |
| Records.Flags | Data4to6_new.py:634-652 | Nine flags are kept, namely bits 0-5, 7, 8 and 11 of the thirteen. |
| Records.FlagsMeaning | Data4to6_new.py:641-647 | Flag k is bit FlagBits[k] of the word, or the sentinel for a sentinel word. |
| Records.AnchorLat | Data4to6_new.py:659-669 | A latitude is kept exactly when the word is in [0, 180*64], and then equals the word in 64ths. Otherwise it is the sentinel. |
| Records.AnchorLon | Data4to6_new.py:676-684 | A longitude is kept exactly when the word is in [0, 360*64], and then equals the word in 64ths. Otherwise it is the sentinel. |
| Records.Sample | Data4to6_new.py:695-701 | A sample is kept exactly when the word is in [0, 400*8], and then equals the word in eighths. Otherwise it is the sentinel. |
| Records.AnchorLats | Data4to6_new.py:659-669 | There is one latitude per word, each decoded on its own. |
| Records.AnchorLons | Data4to6_new.py:676-684 | There is one longitude per word, each decoded on its own. |
| Records.GetData | Data4to6_new.py:685-702 | Exactly `pop` samples are taken from the front of the words. There are none when fewer words remain, and a negative population is a negative-size error. |
| Records.FillTestsDiffer | Data4to6_new.py:561 | The source's fill test and the intended one disagree exactly on negative populations. |
| Records.FilledSwath | Data4to6_new.py:577-591 | A filled swath has population 0, sentinel seconds and subsatellite point, nine sentinel flags, one sentinel anchor latitude and longitude per locator, and no samples or coordinates. It raises exactly when the locator count is negative. |
| Records.DecodedSwath | Data4to6_new.py:556-576 | A decoded swath has its seconds from word 0 in 512ths, keeps word 1 as its population, and has its subsatellite latitude and longitude from words 2 and 3 in 64ths. Its nine flags come from word 4. Its samples are `get_data` of the words after the anchors. Its anchor latitudes come from words 5, 7, 9, … and its anchor longitudes from words 6, 8, 10, …, one per locator, and its interpolated coordinates are exactly `get_full_coords` of the nadir angles and those anchors at its population. It has no samples or exactly as many as its population. A negative population raises. |
| Records.DecodedOk | Data4to6_new.py:556-576 | With five or more anchors, a full set of anchor words and a population that is not negative, the decoding branch succeeds. |
| Records.DecodedFirstSample | Data4to6_new.py:571-576 | With five or more distinct nadir angles and a positive population, a decoded swath's first latitude is the latitude word of the smallest-angle anchor, in 64ths, up to the final clamp. |
| Records.SwathAsWritten | Data4to6_new.py:555-591 | The source's constructor, which fills or decodes according to its own fill test. A negative population raises, and a constructed swath has a population in [0, 600). |
| Records.SentinelPopulationRaises | Data4to6_new.py:560-573 | A sentinel population passes the source's fill test and raises a negative-size error. |
| Records.ParseSwath | Data4to6_new.py:555-591 | A swath with the intended test has a population in [0, 600) and that many coordinates. It is filled exactly when its population word is not a count from 1 to 599, and never makes an array of negative size. |
| Records.ParseSwaths | Data4to6_new.py:427-439 | There is one swath per word list, in order, each built under the chosen fill test. The record fails exactly when some swath fails. Under the source's test, any negative population makes it fail. Every population kept is in [0, 600). |
| Records.FillTestsAgree | Data4to6_new.py:561 | When the source's test builds every swath of a record, the intended test gives the same swaths. When no population is negative, the two agree outright. |
| Records.SwathAnchorPlaces | Data4to6_new.py:571-572 | Anchor k's latitude is word 5+2k and its longitude word 6+2k. |
| Fields.ChannelOf | Data4to6_new.py:975-981 | The channel is unknown exactly when the reference word is neither 115 nor 67. |
| Fields.ChannelRoundTrip | Data4to6_new.py:976-980 | Channel names and reference words are inverse to each other. |
| Fields.WidthsLength | Data4to6_new.py:940-944 | There is one width per swath of the file. |
| Fields.SwathDims | Data4to6_new.py:939-946 | The width is the largest swath population and the count is the number of swaths. A file without swaths is an empty-max error. |
| Fields.IntMax | Data4to6_new.py:945 | The maximum is an element and bounds every element. |
| Fields.TBaseIsRecordTime | Data4to6_new.py:996-1005 | The base time (`Fields.TBase`) is the record's own stamp with its seconds taken out. |
| Fields.RecordTimes | Data4to6_new.py:986-988 | There is one time per swath, and it is absent exactly when the swath's seconds are the sentinel. |
| Fields.SwathTimes | Data4to6_new.py:984-990 | There is one time per swath of the file, in file order. |
| Fields.Present | Data4to6_new.py:987-988 | The present times are exactly the values of the present entries. |
| Fields.TimeLims | Data4to6_new.py:982-995 | The limits are the smallest and largest present times. No present time is an empty-min error. A present time outside the datetime range is an overflow error, so the limits are always in range. |
| Fields.Corrected | Data4to6_new.py:967-968 | A time strictly between the two window bounds moves 12.5 s earlier. Any other time is unchanged. |
| Fields.GridEnds | Data4to6_new.py:951-955 | Both ends move 12.5 s earlier exactly when the whole seconds of the ends lie inside the window. |
| Fields.Ceil | Data4to6_new.py:959 | The ceiling is the smallest whole number not below x. |
| Fields.Arange | Data4to6_new.py:959 | `np.arange` gives lo + k*step, every point below the stop, and the next point would not be. |
| Fields.ArangeCovers | Data4to6_new.py:959 | A range that starts below its stop is non-empty, and its last point is within one step of the stop. |
| Fields.GridCovers | Data4to6_new.py:956-959 | The grid starts at the first (corrected) time and reaches the last. |
| Fields.Rows | Data4to6_new.py:960-973 | Each timed swath's row is the first grid index closest to its corrected time, and an untimed swath has no row. An empty grid fails exactly when some swath is timed. |
| Fields.TDims | Data4to6_new.py:947-974 | There is one row entry per swath of the file. |
| Fields.MakeFit | Data4to6_new.py:1086-1089 | The line is kept as a prefix and padded with the sentinel to the grid width. A wider line is left whole. |
| Fields.LatFrame | Data4to6_new.py:1082 | The sentinel is kept, and [0, 180] maps to [-90, 90] by subtracting 90. |
| Fields.LonFrameRange | Data4to6_new.py:1083-1084 | The longitude frame change (`Fields.LonFrame`) keeps the sentinel. A longitude in [0, 360] comes out in (-180, 180] as its negation, up to a whole turn. |
| Fields.FrameLine | Data4to6_new.py:1082-1084 | The frame change is applied to every entry of a line. |
| Decoder.OrbitWords | Data4to6_new.py:155-163 | Nimbus 4 has one orbit word per six bytes. Nimbus 5/6 have two words per started nine-byte group. |
| Decoder.RecordLayout | Data4to6_new.py:338-363 | A record has at least 14 words and one word list per swath the generation reads, each with at least five words. |
| Decoder.DecodeRecord | Data4to6_new.py:330-363 | A decoded record has the generation's number of swaths, each with a population in [0, 600). Under the source's fill test, a record with a negative population in any swath raises. |
| Decoder.DecodeRecords | Data4to6_new.py:34-42 | There is one record per kept block, each decoded on its own. The file fails exactly when some record fails, and then with the error of the first record that fails, as the loop raises at its first failing record. |
| Decoder.Decode | Data4to6_new.py:26-43 | A tape without a first header is an error. Otherwise the orbit document is parsed from the first block, and there is one record per kept data block, decoded on its own, with the scan's warning count. Each record has the generation's number of swaths. |
| Decoder.RecordTestsAgree | Data4to6_new.py:330-363 | A record the source's fill test decodes comes out the same under the intended test. |
| Decoder.RecordsTestsAgree | Data4to6_new.py:34-42 | A list of records the source's fill test decodes comes out the same under the intended test. |
| Decoder.DecodeTestsAgree | Data4to6_new.py:26-43 | On every tape the source decodes, the intended fill test gives the same result. It only turns the source's raise on a negative population into a filled swath. |
| Decoder.ShortOrbitBlock | Data4to6_new.py:182-187 | An orbit block too short for the start time's fields stops the decoder with an index error. |

## Left out

- Framing.GetHeader: Python's recursion limit is not modelled. `get_header` calls itself once per
  zero header, so a run of about a thousand zero headers makes the source raise a RuntimeError,
  while the model keeps reading and returns the next header or the end of the tape.
- Memory exhaustion is not modelled. A locator count or population near 2^36 makes the source's
  `range` and `np.zeros` allocations raise MemoryError, and the model builds the sequences anyway.
- Framing.Int32At: reads headers little-endian. `np.fromfile` with `dtype=np.int32` uses the host's
  byte order, and the model fixes it to the little-endian order of the usual x86 hosts.
- File I/O, `print` and `warnings.warn` are not modelled. The tape is a byte sequence. Footer
  mismatches are counted rather than printed.
- The year is a parameter. `main.py`'s file-name parsing and variant dispatch are not part of
  this model: the variant is a parameter too.
- `geoloc2`, `get_initial` and `totally_zen` are not modelled. They compute view geometry through
  pyorbital, a foreign library. `find_tle.py` is not part of this model.
- The `Fields.__init__` grid writes (`set_temps`, `set_errors`, `set_rest`, `set_small_arrays`,
  `set_big_arrays`) are not modelled as array stores. A swath without a time has row `None`. The
  source writes such swaths into row -1, which Python resolves to the last grid row; that
  overwrite is not modelled. The per-line padding and frame change these methods apply are
  modelled as `Fields.MakeFit` and `Fields.FrameLine`.
- Floating-point rounding is not modelled. Scaled values, interpolation, `linspace` and `arange`
  use exact reals, so results that round differently in IEEE arithmetic can differ. In
  particular, the step count of `arange` is exact.
- Fields.GridEnds: microseconds are not modelled. Times are whole seconds plus exact fractions,
  and only the whole-second comparison of `tdims` is reproduced.
- Fields.Grid: requires a positive mirror rotation rate. The source's scan separation is
  `360/mirror_rot`. A decoded rate of zero is the float 0.0, so the separation is `inf` with
  only a RuntimeWarning, and `np.arange(t0, t1 + inf, inf)` then raises ValueError. The sentinel
  rate -999 is an integer, so Python 2 gives `360/-999 == -1`: a descending step, which makes the
  grid empty whenever the end time is at least a second after the start, and raises no error.
- Fields.TDims: takes the grid as an argument rather than rebuilding it from the time limits.
- Records.ParseOrbitDoc: `mirror_rot` for the sentinel is kept as -999. The Python 2 integer
  division `360/-999` that `tdims` would then perform is not modelled.
- numpy's element-wise comparison of a one-element header array is modelled by its truth value
  only. Deprecation behaviour of array truthiness is not modelled.
- The source decodes each record as soon as its block is read. The model frames the whole tape
  first and then decodes. A record that raises stops both with the same error, but the model does
  not track warnings printed before the failure.

## Findings

| source | as written | input that shows it | evidently intended | confidence | as-written member | corrected member |
|---|---|---|---|---|---|---|
| Data4to6_new.py:561 | `if (self.data_pop != 0) & (self.data_pop < 600)` decodes a swath whose population word is the sentinel -999 (any bad byte in its first group), and `get_data` then calls `np.zeros(-999)` (Data4to6_new.py:694), which raises | a swath whose population word is -999 | only populations from 1 to 599 are decoded; anything else, the sentinel included, is filled | not executed | Records.SentinelPopulationRaises | Records.ParseSwath |

=== FILE: bits.dfy ===
/** Integer bit arithmetic by division and remainder: powers, the big-endian
    value of a digit sequence, the shift-and-or accumulator loops of the word
    assemblers, and the inverse digit expansion used for round trips. */
module Bits {

  function Pow(b: nat, n: nat): (r: nat)
    ensures b > 0 ==> r > 0
  {
    if n == 0 then 1 else b * Pow(b, n - 1)
  }

  lemma {:induction false} PowAdd(b: nat, m: nat, n: nat)
    ensures Pow(b, m + n) == Pow(b, m) * Pow(b, n)
  {
    if n > 0 {
      PowAdd(b, m, n - 1);
      var x, y := Pow(b, m), Pow(b, n - 1);
      assert Pow(b, m + n) == b * (x * y);
      assert Pow(b, n) == b * y;
      Swap(b, x, y);
    }
  }

  lemma Swap(b: int, x: int, y: int)
    ensures b * (x * y) == x * (b * y)
  {
  }

  /** The big-endian value of a digit sequence in the given base. */
  function Value(ds: seq<int>, base: nat): int
  {
    if ds == [] then 0 else Value(ds[..|ds| - 1], base) * base + ds[|ds| - 1]
  }

  /** The accumulator loop `for d in ds: acc = (acc << k) | d`, with the shift
      written as a multiplication by the base. The `|` is an addition because
      the shifted accumulator has no bits where the digit has them. */
  function ShiftIn(acc: int, ds: seq<int>, base: nat): int
    decreases |ds|
  {
    if ds == [] then acc else ShiftIn(acc * base + ds[0], ds[1..], base)
  }

  predicate IsDigits(ds: seq<int>, base: nat)
  {
    forall i :: 0 <= i < |ds| ==> 0 <= ds[i] < base
  }

  lemma {:induction false} ValueConcat(xs: seq<int>, ys: seq<int>, base: nat)
    ensures Value(xs + ys, base) == Value(xs, base) * Pow(base, |ys|) + Value(ys, base)
  {
    if ys == [] {
      assert xs + ys == xs;
    } else {
      var ys' := ys[..|ys| - 1];
      var y := ys[|ys| - 1];
      assert (xs + ys)[..|xs + ys| - 1] == xs + ys';
      ValueConcat(xs, ys', base);
      calc {
        Value(xs + ys, base);
        Value(xs + ys', base) * base + y;
        (Value(xs, base) * Pow(base, |ys'|) + Value(ys', base)) * base + y;
        Value(xs, base) * (Pow(base, |ys'|) * base) + (Value(ys', base) * base + y);
        Value(xs, base) * Pow(base, |ys|) + Value(ys, base);
      }
    }
  }

  /** The accumulator loop computes the start value shifted past every digit,
      plus the big-endian value of the digits. */
  lemma {:induction false} ShiftInValue(acc: int, ds: seq<int>, base: nat)
    ensures ShiftIn(acc, ds, base) == acc * Pow(base, |ds|) + Value(ds, base)
    decreases |ds|
  {
    if ds != [] {
      var d, rest := ds[0], ds[1..];
      var p := Pow(base, |rest|);
      ShiftInValue(acc * base + d, rest, base);
      ValueConcat([d], rest, base);
      assert [d] + rest == ds;
      assert Value([d], base) == d by {
        assert [d][..0] == [];
      }
      assert Pow(base, |ds|) == base * p;
      assert ShiftIn(acc, ds, base) == (acc * base + d) * p + Value(rest, base);
      Distrib(acc, base, d, p);
    }
  }

  lemma Distrib(a: int, b: int, c: int, p: int)
    ensures (a * b + c) * p == a * (b * p) + c * p
  {
  }

  lemma {:induction false} ValueBounds(ds: seq<int>, base: nat)
    requires base > 0
    requires IsDigits(ds, base)
    ensures 0 <= Value(ds, base) < Pow(base, |ds|)
  {
    if ds != [] {
      var ds' := ds[..|ds| - 1];
      ValueBounds(ds', base);
      var v := Value(ds', base);
      var p := Pow(base, |ds'|);
      var d := ds[|ds| - 1];
      assert Pow(base, |ds|) == base * p;
      assert v <= p - 1;
      MulLe(v, p - 1, base);
      assert v * base + d <= (p - 1) * base + base - 1;
      assert (p - 1) * base + base == p * base;
      assert 0 <= v * base by { MulNonneg(v, base); }
    }
  }

  /** The n lowest base-`base` digits of v, most significant first. */
  function Digits(v: nat, n: nat, base: nat): (ds: seq<int>)
    requires base > 1
    ensures |ds| == n
    ensures IsDigits(ds, base)
    decreases n
  {
    if n == 0 then [] else
      var q: nat := v / base;
      Digits(q, n - 1, base) + [v % base]
  }

  /** Expanding a value that fits in n digits and reading it back gives it back. */
  lemma {:induction false} DigitsValue(v: nat, n: nat, base: nat)
    requires base > 1
    requires v < Pow(base, n)
    ensures Value(Digits(v, n, base), base) == v
    decreases n
  {
    if n > 0 {
      var q: nat := v / base;
      var ds := Digits(v, n, base);
      assert ds == Digits(q, n - 1, base) + [v % base];
      assert ds[..n - 1] == Digits(q, n - 1, base);
      DivBelowPow(v, n, base);
      DigitsValue(q, n - 1, base);
      assert Value(ds, base) == q * base + v % base;
      DivMod(v, base);
    }
  }

  lemma DigitsOf(ds: seq<int>, v: nat, n: nat, base: nat)
    requires base > 1 && v < Pow(base, n) && ds == Digits(v, n, base)
    ensures Value(ds, base) == v
  {
    DigitsValue(v, n, base);
  }

  lemma DivMod(x: int, d: int)
    requires d > 0
    ensures (x / d) * d + x % d == x
  {
  }

  lemma DivBelowPow(v: nat, n: nat, base: nat)
    requires base > 1 && n > 0
    requires v < Pow(base, n)
    ensures v / base < Pow(base, n - 1)
  {
    assert Pow(base, n) == base * Pow(base, n - 1);
  }

  /** Division and remainder by d of a number written as q * d + r. */
  lemma DivModOf(x: int, d: int, q: int, r: int)
    requires d > 0 && 0 <= r < d && x == q * d + r
    ensures x / d == q && x % d == r
  {
    var q', r' := x / d, x % d;
    assert x == q' * d + r' && 0 <= r' < d;
    assert (q - q') * d == r' - r;
    if q > q' {
      MulLe(1, q - q', d);
      assert false;
    } else if q < q' {
      MulLe(1, q' - q, d);
      assert false;
    }
  }

  /** A value below d*m has a quotient by d below m. */
  lemma DivBelow(v: int, d: int, m: int)
    requires d > 0 && 0 <= v < d * m
    ensures 0 <= v / d < m
  {
    DivMod(v, d);
    if v / d >= m {
      MulLe(m, v / d, d);
    }
  }

  lemma MulLe(a: int, b: int, c: int)
    requires a <= b && c >= 0
    ensures a * c <= b * c
  {
    assert b * c - a * c == (b - a) * c;
    MulNonneg(b - a, c);
  }

  lemma MulNonneg(a: int, c: int)
    requires a >= 0 && c >= 0
    ensures a * c >= 0
  {
  }

  /** Bit k of x in two's complement (Dafny's division rounds down for a
      positive divisor, so this is also right for negative x). */
  function Bit(x: int, k: nat): (r: int)
    ensures r == 0 || r == 1
  {
    (x / Pow(2, k)) % 2
  }
}

=== FILE: common.dfy ===
/** Shared vocabulary of the tape decoder: the failure-carrying datatypes, the
    sentinel values the decoder writes for "undecodable", and the byte type. */
module Common {

  /** The reserved word value for an undecodable or out-of-range field. */
  const Missing: int := -999

  /** The same sentinel after a field has been scaled to a real value. */
  const MissingReal: real := -999.0

  /** 2^36: one past the largest value of a 36-bit tape word. */
  const WordLimit: int := 0x10_0000_0000

  /** 2^18: one past the largest value of an 18-bit half word. */
  const HalfLimit: int := 0x4_0000

  /** The values a word assembler can produce: the sentinel or a 36-bit value. */
  predicate IsWord(w: int)
  {
    w == Missing || 0 <= w < WordLimit
  }

  /** A byte as the decoder reads it from the tape: a signed 8-bit integer. */
  type Int8 = b: int | -128 <= b < 128

  /** A byte of the tape file as stored on disk. */
  type Byte = b: int | 0 <= b < 256

  /** Reinterpret a stored byte as the signed value numpy's int8 reader gives. */
  function Signed(b: Byte): (r: Int8)
    ensures r % 256 == b
    ensures r < 0 <==> b >= 128
  {
    if b >= 128 then b - 256 else b
  }

  /** Reinterpret every byte of a stored block. */
  function SignedAll(bs: seq<Byte>): (r: seq<Int8>)
    ensures |r| == |bs|
    ensures forall i :: 0 <= i < |bs| ==> r[i] == Signed(bs[i])
  {
    if bs == [] then [] else [Signed(bs[0])] + SignedAll(bs[1..])
  }

  /** The stored byte behind a signed byte: its value modulo 256. */
  function Unsigned(b: Int8): (r: Byte)
    ensures Signed(r) == b
  {
    b % 256
  }

  datatype Option<+T> = None | Some(value: T) {
    predicate IsFailure() { None? }

    function PropagateFailure<U>(): Option<U>
      requires None?
    {
      None
    }

    function Extract(): T
      requires Some?
    {
      value
    }
  }

  /** The ways in which the source program stops with an exception instead of
      returning a decoded value. */
  datatype Crash =
    | EmptyTape          // the first header read returns no bytes
    | ShortOrbitDoc      // fewer than 17 words in the orbit document block
    | NegativeDimension  // an array of negative length is requested
    | BadIndex           // an index outside the array, after negative wrap-around
    | EmptyExtremum      // the minimum or maximum of an empty array is requested
    | DateRange          // a date outside the years 1 .. 9999
    | StampArithmetic    // the fallback date tuple is subtracted from a date

  datatype Result<+T> = Ok(value: T) | Err(error: Crash) {
    predicate IsFailure() { Err? }

    function PropagateFailure<U>(): Result<U>
      requires Err?
    {
      Err(error)
    }

    function Extract(): T
      requires Ok?
    {
      value
    }
  }

  /** `f` applied to each element in order: all results when all are Ok,
      otherwise the first error, like a loop that raises at its first
      failing step. */
  function CollectMap<A, T>(f: A -> Result<T>, xs: seq<A>): (r: Result<seq<T>>)
    ensures r.Ok? ==> |r.value| == |xs| && forall i :: 0 <= i < |xs| ==> f(xs[i]) == Ok(r.value[i])
    ensures r.Err? <==> exists i :: 0 <= i < |xs| && f(xs[i]).Err?
    ensures r.Err? ==> exists i :: 0 <= i < |xs| && f(xs[i]) == Err(r.error) && forall j :: 0 <= j < i ==> f(xs[j]).Ok?
  {
    if xs == [] then Ok([])
    else if f(xs[0]).Err? then Err(f(xs[0]).error)
    else
      var rest := CollectMap(f, xs[1..]);
      if rest.Err? then
        var i :| 0 <= i < |xs[1..]| && f(xs[1..][i]) == Err(rest.error) && forall j :: 0 <= j < i ==> f(xs[1..][j]).Ok?;
        assert xs[i + 1] == xs[1..][i] && forall j :: 0 < j < i + 1 ==> xs[j] == xs[1..][j - 1];
        Err(rest.error)
      else
        assert forall i :: 0 < i < |xs| ==> xs[i] == xs[1..][i - 1];
        Ok([f(xs[0]).value] + rest.value)
  }

  /** Two maps that agree wherever the first succeeds collect the same
      result whenever the first collects without error. */
  lemma CollectMapAgree<A, T>(f: A -> Result<T>, g: A -> Result<T>, xs: seq<A>)
    requires forall i :: 0 <= i < |xs| && f(xs[i]).Ok? ==> g(xs[i]) == f(xs[i])
    ensures CollectMap(f, xs).Ok? ==> CollectMap(g, xs) == CollectMap(f, xs)
  {
    if CollectMap(f, xs).Ok? {
      var a, b := CollectMap(f, xs), CollectMap(g, xs);
      assert b.Ok?;
      assert a.value == b.value;
    }
  }

  function Abs(x: real): (r: real)
    ensures r >= 0.0
    ensures r == x || r == -x
  {
    if x < 0.0 then -x else x
  }

  function Max(a: int, b: int): (r: int)
    ensures r >= a && r >= b
    ensures r == a || r == b
  {
    if a >= b then a else b
  }
}

=== FILE: decoder.dfy ===
/** The whole decoder: frame the tape into blocks, read the first block as
    the orbit document and every kept later block as a data record with its
    swaths. The two tape generations differ in how bytes become words and
    in how a record's swaths are laid out. */
module Decoder {
  import opened Common
  import opened Parity
  import opened PySeq
  import opened Framing
  import opened LayoutA
  import opened WordsB
  import opened LayoutB
  import opened Records

  /** The tape generation, chosen from the file name by the caller: the
      Nimbus 4 tapes (six-bit bytes with parity) or the Nimbus 5 and 6 tapes
      (packed 72-bit pairs). */
  datatype Variant = Nimbus4 | Nimbus56

  datatype Decoded = Decoded(od: OrbitDoc, records: seq<DataRec>, warnings: nat)

  /** `get_orbit_doc(...).make_words`: the orbit document's words. */
  function OrbitWords(v: Variant, block: seq<Int8>): (ws: seq<int>)
    ensures v == Nimbus4 ==> |ws| == |block| / 6
    ensures v == Nimbus56 ==> |ws| == 2 * ((|block| + 8) / 9)
  {
    match v
    case Nimbus4 => OrbitDocWords(ZipGoodness(block))
    case Nimbus56 =>
      OrbitDocWordsBLayout(block);
      OrbitDocWordsB(block)
  }

  /** The number of swaths a record holds for a given `swaths_per_rec`. */
  function SwathsPerRecord(v: Variant, perRec: int): nat
  {
    match v
    case Nimbus4 => Max(perRec, 0)
    case Nimbus56 => 2 * Max(perRec / 2, 0)
  }

  /** A data record's words and the words of each of its swaths, in order:
      the bytes after the record's marker are cut into swath slices, one
      swath per slice for Nimbus 4 and two (a `Swath_Data2` and a
      `Swath_Data3`) per slice for Nimbus 5 and 6. */
  function RecordLayout(v: Variant, block: seq<Int8>, od: OrbitDoc): (r: (seq<int>, seq<seq<int>>))
    ensures |r.0| >= 14
    ensures |r.1| == SwathsPerRecord(v, od.swathsPerRec)
    ensures forall k :: 0 <= k < |r.1| ==> |r.1[k]| >= 5
  {
    match v
    case Nimbus4 =>
      var ts := ZipGoodness(block);
      var (words, marker) := RecordWords(ts, od.locatorNo);
      var slices := SwathSlices(Slice(ts, marker, |ts|), od.swathsPerRec, od.swathBlock);
      (words, seq(|slices|, i requires 0 <= i < |slices| => SwathWords(slices[i])))
    case Nimbus56 =>
      var (words, marker) := RecordWordsB(block, od.locatorNo);
      var slices := SwathSlicesB(Slice(block, marker, |block|), od.swathsPerRec, od.swathBlock);
      (words, seq(2 * |slices|, i requires 0 <= i < 2 * |slices| =>
        if i % 2 == 0 then Swath2Words(slices[i / 2], od.locatorNo) else Swath3Words(slices[i / 2], od.locatorNo)))
  }

  /** `Data_Rec.__init__` and `Data_Rec2.__init__`: the record's fields, its
      nadir angles from word 14 on, and its swaths under the given fill test;
      under the source's test a swath with a negative population raises. */
  function DecodeRecord(v: Variant, test: FillTest, block: seq<Int8>, od: OrbitDoc): (r: Result<DataRec>)
    ensures r.Ok? ==> |r.value.swaths| == SwathsPerRecord(v, od.swathsPerRec)
    ensures r.Ok? ==> forall j :: 0 <= j < |r.value.swaths| ==> 0 <= r.value.swaths[j].dataPop < 600
    ensures test == AsWritten && (exists j :: 0 <= j < |RecordLayout(v, block, od).1| && RecordLayout(v, block, od).1[j][1] < 0) ==> r.Err?
  {
    var (words, swathWords) := RecordLayout(v, block, od);
    var swaths :- ParseSwaths(test, swathWords, od.locatorNo, Nadirs(words[14..]));
    Ok(RecordOf(words, swaths))
  }

  /** Every kept block as a data record, in order; the first that raises
      stops the decoder with its error. */
  function DecodeRecords(v: Variant, test: FillTest, blocks: seq<seq<Int8>>, od: OrbitDoc): (r: Result<seq<DataRec>>)
    ensures r.Ok? ==> |r.value| == |blocks|
    ensures r.Ok? ==> forall i :: 0 <= i < |blocks| ==> Ok(r.value[i]) == DecodeRecord(v, test, blocks[i], od)
    ensures r.Err? <==> exists i :: 0 <= i < |blocks| && DecodeRecord(v, test, blocks[i], od).Err?
    ensures r.Err? ==> exists i :: 0 <= i < |blocks| && DecodeRecord(v, test, blocks[i], od) == Err(r.error) &&
                                   forall j :: 0 <= j < i ==> DecodeRecord(v, test, blocks[j], od).Ok?
  {
    CollectMap(b => DecodeRecord(v, test, b, od), blocks)
  }

  /** `Data.__init__` and `Data2.__init__` for a tape and the year its file
      name gives: the orbit document from the first block, one record per
      kept block decoded on its own, each with the generation's number of
      swaths, and the header/footer warnings counted. With the source's fill
      test, a swath with a negative population stops the decoder. */
  function Decode(v: Variant, test: FillTest, tape: seq<Byte>, year: int): (r: Result<Decoded>)
    ensures Frame(tape).Err? ==> r == Err(EmptyTape)
    ensures r.Ok? ==> Frame(tape).Ok? && |r.value.records| == |Frame(tape).value.dataBlocks|
    ensures r.Ok? ==> r.value.warnings == Frame(tape).value.warnings
    ensures r.Ok? ==> Ok(r.value.od) == ParseOrbitDoc(OrbitWords(v, Frame(tape).value.orbitBlock), year)
    ensures r.Ok? ==> forall i :: 0 <= i < |r.value.records| ==>
              Ok(r.value.records[i]) == DecodeRecord(v, test, Frame(tape).value.dataBlocks[i], r.value.od)
    ensures r.Ok? ==> forall i :: 0 <= i < |r.value.records| ==>
              |r.value.records[i].swaths| == SwathsPerRecord(v, r.value.od.swathsPerRec)
  {
    var framed :- Frame(tape);
    var od :- ParseOrbitDoc(OrbitWords(v, framed.orbitBlock), year);
    var records :- DecodeRecords(v, test, framed.dataBlocks, od);
    Ok(Decoded(od, records, framed.warnings))
  }

  /** A record the source's fill test decodes comes out the same under the
      intended test. */
  lemma RecordTestsAgree(v: Variant, block: seq<Int8>, od: OrbitDoc)
    ensures DecodeRecord(v, AsWritten, block, od).Ok? ==>
              DecodeRecord(v, Intended, block, od) == DecodeRecord(v, AsWritten, block, od)
  {
    var (words, swathWords) := RecordLayout(v, block, od);
    FillTestsAgree(swathWords, od.locatorNo, Nadirs(words[14..]));
  }

  lemma RecordsTestsAgree(v: Variant, blocks: seq<seq<Int8>>, od: OrbitDoc)
    ensures DecodeRecords(v, AsWritten, blocks, od).Ok? ==>
              DecodeRecords(v, Intended, blocks, od) == DecodeRecords(v, AsWritten, blocks, od)
  {
    var written := b => DecodeRecord(v, AsWritten, b, od);
    var intended := b => DecodeRecord(v, Intended, b, od);
    forall i | 0 <= i < |blocks| && written(blocks[i]).Ok?
      ensures intended(blocks[i]) == written(blocks[i])
    {
      RecordTestsAgree(v, blocks[i], od);
    }
    CollectMapAgree(written, intended, blocks);
  }

  /** The intended fill test changes nothing on a tape the source decodes:
      it only turns the source's raise on a negative population into a
      filled swath. */
  lemma DecodeTestsAgree(v: Variant, tape: seq<Byte>, year: int)
    ensures Decode(v, AsWritten, tape, year).Ok? ==> Decode(v, Intended, tape, year) == Decode(v, AsWritten, tape, year)
  {
    if Frame(tape).Ok? {
      var framed := Frame(tape).value;
      var od := ParseOrbitDoc(OrbitWords(v, framed.orbitBlock), year);
      if od.Ok? {
        RecordsTestsAgree(v, framed.dataBlocks, od.value);
      }
    }
  }

  /** An orbit document block too short to hold the start time's fields
      stops the decoder before any record is read. */
  lemma ShortOrbitBlock(v: Variant, test: FillTest, tape: seq<Byte>, year: int)
    requires Frame(tape).Ok?
    requires |Frame(tape).value.orbitBlock| < (if v == Nimbus4 then 36 else 19)
    ensures Decode(v, test, tape, year) == Err(ShortOrbitDoc)
  {
    var block := Frame(tape).value.orbitBlock;
    assert |OrbitWords(v, block)| < 6;
  }
}

=== FILE: fields.dfy ===
/** The whole-file products built from the decoded records: the channel,
    the grid dimensions, each swath's time and its row in the time grid, the
    padding of a swath's samples to the grid width, and the change of frame
    of its coordinates. */
module Fields {
  import opened Common
  import opened Interp
  import opened Records

  datatype Channel = Window | Vapour | Unknown

  /** `get_channel`: the data reference word names the channel. */
  function ChannelOf(dref: int): (c: Channel)
    ensures c == Unknown <==> dref != 115 && dref != 67
  {
    if dref == 115 then Window
    else if dref == 67 then Vapour
    else Unknown
  }

  /** The data reference word of each known channel. */
  function ChannelCode(c: Channel): int
    requires c != Unknown
  {
    if c == Window then 115 else 67
  }

  /** The channel names and the codes are inverse to each other. */
  lemma ChannelRoundTrip(c: Channel, dref: int)
    ensures c != Unknown ==> ChannelOf(ChannelCode(c)) == c
    ensures ChannelOf(dref) != Unknown ==> ChannelCode(ChannelOf(dref)) == dref
  {
  }

  /** Every swath's population, record by record, in file order. */
  function Widths(recs: seq<DataRec>): (ws: seq<int>)
  {
    if recs == [] then []
    else seq(|recs[0].swaths|, j requires 0 <= j < |recs[0].swaths| => recs[0].swaths[j].dataPop) + Widths(recs[1..])
  }

  function SwathCount(recs: seq<DataRec>): nat
  {
    if recs == [] then 0 else |recs[0].swaths| + SwathCount(recs[1..])
  }

  lemma {:induction false} WidthsLength(recs: seq<DataRec>)
    ensures |Widths(recs)| == SwathCount(recs)
  {
    if recs != [] {
      WidthsLength(recs[1..]);
    }
  }

  /** `find_swath_dims`: the widest swath and the number of swaths; a file
      without swaths has no widest one. */
  function SwathDims(recs: seq<DataRec>): (r: Result<(int, nat)>)
    ensures r.Err? <==> SwathCount(recs) == 0
    ensures r.Ok? ==> r.value.1 == SwathCount(recs)
    ensures r.Ok? ==> forall k :: 0 <= k < |Widths(recs)| ==> Widths(recs)[k] <= r.value.0
    ensures r.Ok? ==> r.value.0 in Widths(recs)
  {
    var ws := Widths(recs);
    WidthsLength(recs);
    if ws == [] then Err(EmptyExtremum) else Ok((IntMax(ws), |ws|))
  }

  function IntMax(a: seq<int>): (m: int)
    requires |a| > 0
    ensures forall k :: 0 <= k < |a| ==> a[k] <= m
    ensures m in a
  {
    if |a| == 1 then a[0]
    else
      var rest := IntMax(a[1..]);
      if a[0] >= rest then a[0] else rest
  }

  /** `get_tbase`: the orbit start plus the record's day and clock offsets
      from it, in seconds since 1970-01-01. */
  function TBase(od: OrbitDoc, rec: DataRec): int
  {
    od.start + 86400 * (rec.nday - od.ndayStart) + 3600 * (rec.hour - od.startHour)
      + 60 * (rec.minute - od.startMinute) + (rec.second - od.startSecond)
  }

  /** The base time is the record's own time stamp with its seconds field
      taken out, since each swath repeats those seconds. */
  lemma TBaseIsRecordTime(words: seq<int>, year: int, rec: DataRec)
    requires ParseOrbitDoc(words, year).Ok?
    ensures TBase(ParseOrbitDoc(words, year).value, rec) - rec.second == Seconds(year, rec.nday, rec.hour, rec.minute, 0)
  {
  }

  /** Seconds since 1970-01-01 of each swath of a record, or `None` when the
      swath's seconds are the sentinel. */
  function RecordTimes(od: OrbitDoc, rec: DataRec): (ts: seq<Option<real>>)
    ensures |ts| == |rec.swaths|
    ensures forall j :: 0 <= j < |ts| ==> (ts[j].None? <==> rec.swaths[j].seconds == MissingReal)
  {
    seq(|rec.swaths|, j requires 0 <= j < |rec.swaths| =>
      if rec.swaths[j].seconds != MissingReal
      then Some((TBase(od, rec) as real) + rec.swaths[j].seconds - (rec.second as real))
      else None)
  }

  /** Every swath's time, in file order. */
  function SwathTimes(od: OrbitDoc, recs: seq<DataRec>): (ts: seq<Option<real>>)
    ensures |ts| == SwathCount(recs)
  {
    if recs == [] then [] else RecordTimes(od, recs[0]) + SwathTimes(od, recs[1..])
  }

  /** The times present, in order. */
  function Present(ts: seq<Option<real>>): (r: seq<real>)
    ensures |r| <= |ts|
    ensures forall x :: x in r <==> Some(x) in ts
  {
    if ts == [] then []
    else
      var rest := Present(ts[1..]);
      assert forall o :: o in ts <==> o == ts[0] || o in ts[1..];
      if ts[0].Some? then [ts[0].value] + rest else rest
  }

  /** A time in seconds since 1970-01-01 that a datetime can hold: from
      0001-01-01 up to the end of 9999-12-31. */
  predicate InDateRange(t: real)
  {
    (FirstSecond as real) <= t < ((LastSecond + 1) as real)
  }

  /** `get_time_lims`: the earliest and latest swath time; a file without
      any timed swath has neither, and a time a datetime cannot hold
      overflows when the limits are made datetimes. */
  function TimeLims(ts: seq<Option<real>>): (r: Result<(real, real)>)
    ensures r == Err(EmptyExtremum) <==> forall k :: 0 <= k < |ts| ==> ts[k].None?
    ensures r == Err(DateRange) <==> exists k :: 0 <= k < |ts| && ts[k].Some? && !InDateRange(ts[k].value)
    ensures r.Err? ==> r.error == EmptyExtremum || r.error == DateRange
    ensures r.Ok? ==> Some(r.value.0) in ts && Some(r.value.1) in ts
    ensures r.Ok? ==> forall k :: 0 <= k < |ts| && ts[k].Some? ==> r.value.0 <= ts[k].value <= r.value.1
    ensures r.Ok? ==> InDateRange(r.value.0) && InDateRange(r.value.1)
  {
    var p := Present(ts);
    if p == [] then
      Err(EmptyExtremum)
    else
      forall k | 0 <= k < |ts| && ts[k].Some?
        ensures ts[k].value in p
      {
        assert Some(ts[k].value) in ts;
      }
      var lo, hi := SeqMin(p), SeqMax(p);
      if !InDateRange(lo) || !InDateRange(hi) then
        assert Some(lo) in ts && Some(hi) in ts;
        Err(DateRange)
      else Ok((lo, hi))
  }

  /** The span, strictly between 1972-01-01 and 1975-04-01, in which the
      decoder takes a time to come from a Nimbus 5 file and moves it 12.5
      seconds earlier. */
  const LateFrom: int := 63072000
  const LateUntil: int := 165542400

  /** A swath time with the late-clock correction. */
  function Corrected(t: real): (r: real)
    ensures (LateFrom as real) < t < (LateUntil as real) ==> r == t - 12.5
    ensures !((LateFrom as real) < t < (LateUntil as real)) ==> r == t
  {
    if (LateFrom as real) < t < (LateUntil as real) then t - 12.5 else t
  }

  /** The grid ends with the correction applied to both, when the whole
      file falls in the late years; whole seconds decide, as the timedelta
      comparison in `tdims` sees only days and seconds. */
  function GridEnds(t0: real, t1: real): (r: (real, real))
    ensures t0.Floor > LateFrom && t1.Floor < LateUntil ==> r == (t0 - 12.5, t1 - 12.5)
    ensures !(t0.Floor > LateFrom && t1.Floor < LateUntil) ==> r == (t0, t1)
  {
    if t0.Floor > LateFrom && t1.Floor < LateUntil then (t0 - 12.5, t1 - 12.5) else (t0, t1)
  }

  /** The smallest whole number not below x. */
  function Ceil(x: real): (n: int)
    ensures n as real >= x && (n as real) - 1.0 < x
  {
    -((-x).Floor)
  }

  /** `np.arange(lo, stop, step)` over exact reals: lo, lo + step, ... while
      below stop. */
  function Arange(lo: real, stop: real, step: real): (r: seq<real>)
    requires step > 0.0
    ensures forall k :: 0 <= k < |r| ==> r[k] == lo + (k as real) * step && r[k] < stop
    ensures lo + (|r| as real) * step >= stop
  {
    var n := if stop <= lo then 0 else Ceil((stop - lo) / step);
    ArangeCount(lo, stop, step, n);
    var r := seq(n, k requires 0 <= k < n => lo + (k as real) * step);
    forall k | 0 <= k < n
      ensures r[k] < stop
    {
      ArangeStep(lo, stop, step, n, k);
    }
    r
  }

  lemma ArangeCount(lo: real, stop: real, step: real, n: int)
    requires step > 0.0
    requires n == if stop <= lo then 0 else Ceil((stop - lo) / step)
    ensures n >= 0
    ensures lo + (n as real) * step >= stop
  {
    if stop > lo {
      var q := (stop - lo) / step;
      assert q * step == stop - lo;
      MulLess2(q, n as real, step);
    }
  }

  lemma ArangeStep(lo: real, stop: real, step: real, n: int, k: nat)
    requires step > 0.0
    requires n == if stop <= lo then 0 else Ceil((stop - lo) / step)
    requires k < n
    ensures lo + (k as real) * step < stop
  {
    var q := (stop - lo) / step;
    assert q * step == stop - lo;
    assert (k as real) < q;
    MulLess(k as real, q, step);
  }

  lemma MulLess(a: real, b: real, c: real)
    requires a < b && c > 0.0
    ensures a * c < b * c
  {
  }

  lemma MulLess2(a: real, b: real, c: real)
    requires a <= b && c > 0.0
    ensures a * c <= b * c
  {
  }

  /** A range that starts below its stop is not empty, starts at its start,
      and its last point is within one step of the stop. */
  lemma ArangeCovers(lo: real, stop: real, step: real)
    requires step > 0.0 && lo < stop
    ensures var r := Arange(lo, stop, step);
            |r| > 0 && r[0] == lo && r[|r| - 1] + step >= stop
  {
    var r := Arange(lo, stop, step);
    var n := |r|;
    assert r[n - 1] == lo + ((n - 1) as real) * step;
    assert (n as real) * step == ((n - 1) as real) * step + step;
  }

  /** The time grid of `tdims`: from the first to one step past the last
      swath time, one mirror rotation (360 / rate) apart. */
  function Grid(t0: real, t1: real, mirrorRot: real): (g: seq<real>)
    requires mirrorRot > 0.0
  {
    var (a, b) := GridEnds(t0, t1);
    Arange(a, b + 360.0 / mirrorRot, 360.0 / mirrorRot)
  }

  /** The grid starts at the earliest corrected time and reaches the latest. */
  lemma GridCovers(t0: real, t1: real, mirrorRot: real)
    requires mirrorRot > 0.0 && t0 <= t1
    ensures var g := Grid(t0, t1, mirrorRot);
            |g| > 0 && g[0] == GridEnds(t0, t1).0 && g[|g| - 1] >= GridEnds(t0, t1).1
  {
    var (a, b) := GridEnds(t0, t1);
    var s := 360.0 / mirrorRot;
    ArangeCovers(a, b + s, s);
  }

  /** The row of each swath in the grid (`tdims`' `trueinds`): the first
      grid time closest to its corrected time, and `None` (the source's -1)
      for a swath without a time. An empty grid has no closest time. */
  function Rows(grid: seq<real>, ts: seq<Option<real>>): (r: Result<seq<Option<nat>>>)
    ensures r.Err? <==> grid == [] && exists k :: 0 <= k < |ts| && ts[k].Some?
    ensures r.Err? ==> r.error == EmptyExtremum
    ensures r.Ok? ==> |r.value| == |ts|
    ensures r.Ok? ==> forall k :: 0 <= k < |ts| ==> (r.value[k].None? <==> ts[k].None?)
    ensures r.Ok? ==> forall k :: 0 <= k < |ts| && ts[k].Some? ==>
              IsNearest(grid, Corrected(ts[k].value), r.value[k].value)
  {
    if grid == [] && exists k :: 0 <= k < |ts| && ts[k].Some? then Err(EmptyExtremum)
    else Ok(seq(|ts|, k requires 0 <= k < |ts| => Row(grid, ts[k])))
  }

  /** The row of one swath; a present time needs a non-empty grid. */
  function Row(grid: seq<real>, t: Option<real>): Option<nat>
  {
    if t.Some? && grid != [] then Some(Nearest(grid, Corrected(t.value))) else None
  }

  /** `tdims`: the grid row of every swath of the file, in file order. */
  function TDims(od: OrbitDoc, recs: seq<DataRec>, grid: seq<real>): (r: Result<seq<Option<nat>>>)
    ensures r.Ok? ==> |r.value| == SwathCount(recs)
  {
    Rows(grid, SwathTimes(od, recs))
  }

  /** `make_fit`: a line right-padded with the sentinel to the grid width;
      a line already as wide is left whole. */
  function MakeFit(line: seq<real>, width: int): (r: seq<real>)
    ensures |r| == Max(|line|, width)
    ensures r[..|line|] == line
    ensures forall k :: |line| <= k < |r| ==> r[k] == MissingReal
    decreases width - |line|
  {
    if |line| < width then
      var r := MakeFit(line + [MissingReal], width);
      assert r[..|line|] == r[..|line| + 1][..|line|];
      r
    else line
  }

  /** The latitude frame change of `set_big_arrays`: 90 off every value but
      the sentinel. */
  function LatFrame(x: real): (r: real)
    ensures x == MissingReal ==> r == MissingReal
    ensures 0.0 <= x <= 180.0 ==> -90.0 <= r <= 90.0 && r + 90.0 == x
  {
    if x != MissingReal then x - 90.0 else x
  }

  /** The longitude frame change: every value but the sentinel becomes
      360 - x, and then those above 180 (and still not the sentinel) drop by
      360. */
  function LonFrame(x: real): (r: real)
  {
    var y := if x != MissingReal then 360.0 - x else x;
    if y != MissingReal && y > 180.0 then y - 360.0 else y
  }

  /** A longitude in [0, 360] measured one way comes out in (-180, 180]
      measured the other way: its negation, up to a whole turn. */
  lemma LonFrameRange(x: real)
    ensures x == MissingReal ==> LonFrame(x) == MissingReal
    ensures 0.0 <= x <= 360.0 ==> -180.0 < LonFrame(x) <= 180.0
    ensures 0.0 <= x <= 360.0 ==> LonFrame(x) == -x || LonFrame(x) == 360.0 - x
    ensures 0.0 <= x < 180.0 ==> LonFrame(x) == -x
    ensures 180.0 <= x <= 360.0 ==> LonFrame(x) == 360.0 - x
  {
  }

  /** The frame change applied to a padded line. */
  function FrameLine(line: seq<real>, lat: bool): (r: seq<real>)
    ensures |r| == |line|
    ensures forall k :: 0 <= k < |line| ==> r[k] == if lat then LatFrame(line[k]) else LonFrame(line[k])
  {
    seq(|line|, k requires 0 <= k < |line| => if lat then LatFrame(line[k]) else LonFrame(line[k]))
  }
}

=== FILE: framing.dfy ===
/** The frame scanner: the tape is a sequence of blocks, each introduced by a
    32-bit length header and closed by a footer that repeats the length. The
    header's sign bit marks a corrupt block, zero headers are re-read, and two
    zero headers in a row, or a read that finds no bytes, end the tape.

    The tape is modelled as the sequence of stored file bytes; headers are read
    as little-endian signed 32-bit integers (numpy's native int32 on the
    machines the decoder targets). */
module Framing {
  import opened Common
  import opened Bits

  /** 2^31: the weight of the header's sign bit. */
  const SignBit: int := 0x8000_0000

  /** The little-endian value of stored bytes, least significant first. */
  function LittleEndian(bs: seq<Byte>): (v: nat)
    ensures v < Pow(256, |bs|)
  {
    if bs == [] then 0 else bs[0] + 256 * LittleEndian(bs[1..])
  }

  lemma FourBytes()
    ensures Pow(256, 4) == 2 * SignBit
  {
    assert Pow(256, 2) == 65536;
    assert Pow(256, 4) == 256 * (256 * Pow(256, 2));
  }

  /** Read one signed 32-bit integer at `pos`; `None` when fewer than four
      bytes remain, which is numpy's empty read. */
  function Int32At(tape: seq<Byte>, pos: nat): (r: Option<int>)
    ensures r.Some? <==> pos + 4 <= |tape|
    ensures r.Some? ==> -SignBit <= r.value < SignBit
  {
    if pos + 4 > |tape| then None
    else
      var u := LittleEndian(tape[pos..pos + 4]);
      FourBytes();
      Some(if u >= SignBit then u - 2 * SignBit else u)
  }

  /** `raw & 0x7FFFFFFF` for a signed 32-bit raw header: the sign bit cleared. */
  function Mask31(raw: int): (h: int)
    requires -SignBit <= raw < SignBit
    ensures 0 <= h < SignBit
    ensures raw >= 0 ==> h == raw
    ensures raw < 0 ==> h == raw + SignBit
  {
    if raw < 0 then raw + SignBit else raw
  }

  /** What one header read yields: the block length (`None` for an empty
      read), the end-of-tape flag, the corrupt-block flag, and where reading
      continues. */
  datatype HeaderRead = HeaderRead(length: Option<nat>, eof: bool, skip: bool, next: nat)

  /** Header read. `prev` records that the header just before was zero.
      A zero header is replaced by the next one; if the header before it was
      zero as well, the tape has ended. */
  function GetHeader(tape: seq<Byte>, pos: nat, prev: bool): (r: HeaderRead)
    requires pos <= |tape|
    ensures pos <= r.next <= |tape|
    ensures !r.eof ==> r.length.Some? && r.next >= pos + 4
    ensures r.length.Some? ==> r.length.value < SignBit
    decreases |tape| - pos
  {
    match Int32At(tape, pos)
    case None => HeaderRead(None, true, false, |tape|)
    case Some(raw) =>
      var h := Mask31(raw);
      if h == 0 then
        var inner := GetHeader(tape, pos + 4, true);
        inner.(eof := inner.eof || prev)
      else
        HeaderRead(Some(h), false, h != raw, pos + 4)
  }

  /** An empty header read ends the tape. */
  lemma HeaderEmpty(tape: seq<Byte>, pos: nat, prev: bool)
    requires pos <= |tape| && Int32At(tape, pos).None?
    ensures GetHeader(tape, pos, prev).eof && GetHeader(tape, pos, prev).length.None?
  {
  }

  /** A non-zero header: its length is the raw value with the sign bit
      cleared, and the block is skipped exactly when that bit was set. */
  lemma HeaderNonZero(tape: seq<Byte>, pos: nat, prev: bool)
    requires pos <= |tape| && Int32At(tape, pos).Some?
    requires Mask31(Int32At(tape, pos).value) != 0
    ensures var raw := Int32At(tape, pos).value;
            var r := GetHeader(tape, pos, prev);
            && r.length == Some(Mask31(raw))
            && !r.eof
            && (r.skip <==> raw < 0)
            && r.next == pos + 4
  {
  }

  /** Two zero headers in a row end the tape, whatever comes after them; a
      single zero header is replaced by the header that follows it. */
  lemma HeaderZero(tape: seq<Byte>, pos: nat)
    requires pos <= |tape| && Int32At(tape, pos).Some? && Mask31(Int32At(tape, pos).value) == 0
    ensures Int32At(tape, pos + 4).Some? && Mask31(Int32At(tape, pos + 4).value) == 0 ==>
              GetHeader(tape, pos, false).eof
    ensures Int32At(tape, pos + 4).Some? && Mask31(Int32At(tape, pos + 4).value) != 0 ==>
              GetHeader(tape, pos, false) == GetHeader(tape, pos + 4, false)
  {
  }

  /** Read up to n bytes at pos as signed bytes; a short read at the end of the
      tape returns what is there. */
  function ReadBlock(tape: seq<Byte>, pos: nat, n: nat): (r: seq<Int8>)
    requires pos <= |tape|
    ensures |r| == if pos + n <= |tape| then n else |tape| - pos
  {
    var len := if pos + n <= |tape| then n else |tape| - pos;
    SignedAll(tape[pos..pos + len])
  }

  function BlockEnd(pos: nat, n: nat, size: nat): (r: nat)
    requires pos <= size
    ensures pos <= r <= size
  {
    if pos + n <= size then pos + n else size
  }

  /** The footer check. numpy compares a one-element header with the footer
      element-wise; an empty footer read compares as equal, so only a read
      footer of a different length raises the warning. */
  predicate Mismatch(h: nat, footer: Option<nat>)
  {
    footer.Some? && footer.value != h
  }

  /** The result of scanning a tape: the orbit document block, the data
      blocks to decode in order, and the number of header/footer warnings. */
  datatype Framed = Framed(orbitBlock: seq<Int8>, dataBlocks: seq<seq<Int8>>, warnings: nat)

  /** The read loop: the first block always becomes the orbit document; every
      later block is read with its footer, and kept unless its header carried
      the sign bit. */
  function Frame(tape: seq<Byte>): (r: Result<Framed>)
    ensures r.Err? <==> GetHeader(tape, 0, false).length.None?
  {
    var first := GetHeader(tape, 0, false);
    match first.length
    case None => Err(EmptyTape)
    case Some(h) =>
      var block := ReadBlock(tape, first.next, h);
      var footer := GetHeader(tape, BlockEnd(first.next, h, |tape|), false);
      var w := if Mismatch(h, footer.length) then 1 else 0;
      if first.eof then Ok(Framed(block, [], w))
      else
        var rest := ScanBlocks(tape, footer.next);
        Ok(Framed(block, rest.0, w + rest.1))
  }

  /** One turn of the `while not end` loop: the end of the tape, or a block
      read with its corrupt flag, whether its footer raised the warning, and
      where the next turn starts. */
  datatype Turn = End | Read(block: seq<Int8>, skip: bool, mismatch: bool, next: nat)

  function ReadTurn(tape: seq<Byte>, pos: nat): (t: Turn)
    requires pos <= |tape|
    ensures t.Read? ==> pos < t.next <= |tape|
    ensures t.End? <==> GetHeader(tape, pos, false).eof
  {
    var hd := GetHeader(tape, pos, false);
    if hd.eof then End
    else
      var h := hd.length.value;
      var footer := GetHeader(tape, BlockEnd(hd.next, h, |tape|), false);
      Read(ReadBlock(tape, hd.next, h), hd.skip, Mismatch(h, footer.length), footer.next)
  }

  /** The `while not end` loop from `pos`: the kept blocks and the warnings. */
  function ScanBlocks(tape: seq<Byte>, pos: nat): (r: (seq<seq<Int8>>, nat))
    requires pos <= |tape|
    decreases |tape| - pos
  {
    match ReadTurn(tape, pos)
    case End => ([], 0)
    case Read(block, skip, mismatch, next) =>
      var rest := ScanBlocks(tape, next);
      (if skip then rest.0 else [block] + rest.0, (if mismatch then 1 else 0) + rest.1)
  }
}

=== FILE: framing_lemmas.dfy ===
/** The inverse of the frame scanner: writing blocks to a tape the way the
    recorder does (length header, bytes, footer; two zero headers at the end)
    and proving that scanning that tape gives back the orbit document block,
    every data block whose header was not sign-flagged, in order, and one
    warning per block whose footer disagrees with its header. */
module FrameLemmas {
  import opened Common
  import opened Bits
  import opened Framing

  /** The n lowest base-256 digits of u, least significant first. */
  function LittleBytes(u: nat, n: nat): (bs: seq<Byte>)
    ensures |bs| == n
  {
    if n == 0 then [] else [u % 256] + LittleBytes(u / 256, n - 1)
  }

  lemma {:induction false} LittleBytesValue(u: nat, n: nat)
    requires u < Pow(256, n)
    ensures LittleEndian(LittleBytes(u, n)) == u
  {
    if n > 0 {
      DivBelowPow(u, n, 256);
      LittleBytesValue(u / 256, n - 1);
      assert LittleBytes(u, n)[1..] == LittleBytes(u / 256, n - 1);
      DivMod(u, 256);
    }
  }

  /** Little-endian bytes of a signed 32-bit value. */
  function EncodeInt32(v: int): (bs: seq<Byte>)
    requires -SignBit <= v < SignBit
    ensures |bs| == 4
  {
    LittleBytes(if v < 0 then v + 2 * SignBit else v, 4)
  }

  lemma Int32RoundTrip(tape: seq<Byte>, pos: nat, v: int)
    requires -SignBit <= v < SignBit
    requires pos + 4 <= |tape| && tape[pos..pos + 4] == EncodeInt32(v)
    ensures Int32At(tape, pos) == Some(v)
  {
    FourBytes();
    LittleBytesValue(if v < 0 then v + 2 * SignBit else v, 4);
  }

  /** One block as the recorder writes it: its bytes, whether the recorder
      flagged it corrupt, and the length written in its footer. */
  datatype BlockSpec = BlockSpec(bytes: seq<Int8>, corrupt: bool, footer: nat)

  /** Blocks the scanner can delimit: non-empty (an empty block would write a
      zero header, which reads as padding), lengths below the sign bit. */
  predicate WellFormed(b: BlockSpec)
  {
    0 < |b.bytes| < SignBit && 0 < b.footer < SignBit
  }

  function HeaderWord(b: BlockSpec): int
    requires WellFormed(b)
  {
    if b.corrupt then |b.bytes| - SignBit else |b.bytes|
  }

  function UnsignedAll(bs: seq<Int8>): (r: seq<Byte>)
    ensures |r| == |bs|
    ensures forall i :: 0 <= i < |bs| ==> r[i] == Unsigned(bs[i])
  {
    if bs == [] then [] else [Unsigned(bs[0])] + UnsignedAll(bs[1..])
  }

  function EncodeBlock(b: BlockSpec): (r: seq<Byte>)
    requires WellFormed(b)
    ensures |r| == |b.bytes| + 8
  {
    EncodeInt32(HeaderWord(b)) + UnsignedAll(b.bytes) + EncodeInt32(b.footer)
  }

  /** The blocks in order, followed by the end-of-tape mark. */
  function EncodeRun(bs: seq<BlockSpec>): seq<Byte>
    requires forall i :: 0 <= i < |bs| ==> WellFormed(bs[i])
  {
    if bs == [] then EndMark() else EncodeBlock(bs[0]) + EncodeRun(bs[1..])
  }

  /** The end-of-tape mark: two zero headers. */
  function EndMark(): seq<Byte>
  {
    EncodeInt32(0) + EncodeInt32(0)
  }

  function EncodeTape(first: BlockSpec, rest: seq<BlockSpec>): seq<Byte>
    requires WellFormed(first)
    requires forall i :: 0 <= i < |rest| ==> WellFormed(rest[i])
  {
    EncodeBlock(first) + EncodeRun(rest)
  }

  /** The data blocks the decoder is expected to keep. */
  function Kept(bs: seq<BlockSpec>): seq<seq<Int8>>
  {
    if bs == [] then [] else (if bs[0].corrupt then [] else [bs[0].bytes]) + Kept(bs[1..])
  }

  function Warnings(bs: seq<BlockSpec>): nat
  {
    if bs == [] then 0 else (if bs[0].footer != |bs[0].bytes| then 1 else 0) + Warnings(bs[1..])
  }

  lemma SignedUnsigned(bs: seq<Int8>)
    ensures SignedAll(UnsignedAll(bs)) == bs
  {
  }

  /** What reading one block at pos finds: the header gives its length and
      corrupt flag, the block read returns its bytes, and the footer read
      returns its footer and ends where the next block starts. */
  predicate ReadsBack(tape: seq<Byte>, pos: nat, b: BlockSpec)
  {
    var n := |b.bytes|;
    && pos + 8 + n <= |tape|
    && GetHeader(tape, pos, false) == HeaderRead(Some(n), false, b.corrupt, pos + 4)
    && ReadBlock(tape, pos + 4, n) == b.bytes
    && GetHeader(tape, pos + 4 + n, false).length == Some(b.footer)
    && GetHeader(tape, pos + 4 + n, false).next == pos + 8 + n
  }

  /** An encoded block reads back. */
  lemma BlockStep(tape: seq<Byte>, pos: nat, b: BlockSpec)
    requires WellFormed(b)
    requires pos + 8 + |b.bytes| <= |tape| && tape[pos..pos + 8 + |b.bytes|] == EncodeBlock(b)
    ensures ReadsBack(tape, pos, b)
  {
    var n := |b.bytes|;
    var hw := EncodeInt32(HeaderWord(b));
    var body := UnsignedAll(b.bytes);
    var fw := EncodeInt32(b.footer);
    var x := EncodeBlock(b);
    assert x[0..4] == hw;
    assert x[4..4 + n] == body;
    assert x[4 + n..8 + n] == fw;
    Within(tape, pos, pos + 8 + n, x, 0, 4);
    Within(tape, pos, pos + 8 + n, x, 4, 4 + n);
    Within(tape, pos, pos + 8 + n, x, 4 + n, 8 + n);
    HeaderAt(tape, pos, HeaderWord(b));
    HeaderAt(tape, pos + 4 + n, b.footer);
    SignedUnsigned(b.bytes);
  }

  /** A piece of a stretch of the tape is the same piece of the tape. */
  lemma Within(tape: seq<Byte>, lo: nat, hi: nat, x: seq<Byte>, i: nat, j: nat)
    requires lo <= hi <= |tape| && tape[lo..hi] == x && i <= j <= |x|
    ensures tape[lo + i..lo + j] == x[i..j]
  {
    forall k | 0 <= k < j - i
      ensures tape[lo + i..lo + j][k] == x[i..j][k]
    {
      assert tape[lo + i + k] == tape[lo..hi][i + k];
    }
  }

  lemma SplitAt(tape: seq<Byte>, pos: nat, a: seq<Byte>, b: seq<Byte>)
    requires pos <= |tape| && tape[pos..] == a + b
    ensures pos + |a| <= |tape|
    ensures tape[pos..pos + |a|] == a && tape[pos + |a|..] == b
  {
    assert tape[pos..][..|a|] == a;
    assert tape[pos..][|a|..] == b;
  }

  /** An encoded non-zero header reads back as its length and sign flag. */
  lemma HeaderAt(tape: seq<Byte>, pos: nat, v: int)
    requires -SignBit <= v < SignBit && Mask31(v) != 0
    requires pos + 4 <= |tape| && tape[pos..pos + 4] == EncodeInt32(v)
    ensures GetHeader(tape, pos, false) == HeaderRead(Some(Mask31(v)), false, v < 0, pos + 4)
  {
    Int32RoundTrip(tape, pos, v);
    HeaderNonZero(tape, pos, false);
  }

  /** The end mark stops the scan. */
  lemma ScanAtEnd(tape: seq<Byte>, pos: nat)
    requires pos <= |tape| && tape[pos..] == EndMark()
    ensures ReadTurn(tape, pos) == End
  {
    assert tape[pos..pos + 4] == EncodeInt32(0);
    assert tape[pos + 4..pos + 8] == EncodeInt32(0);
    Int32RoundTrip(tape, pos, 0);
    Int32RoundTrip(tape, pos + 4, 0);
    HeaderZero(tape, pos);
  }

  /** The loop turn an encoded block should produce. */
  function TurnOf(b: BlockSpec, pos: nat): Turn
  {
    Read(b.bytes, b.corrupt, b.footer != |b.bytes|, pos + 8 + |b.bytes|)
  }

  /** A block that reads back makes one turn of the loop. */
  lemma TurnRead(tape: seq<Byte>, pos: nat, b: BlockSpec)
    requires ReadsBack(tape, pos, b)
    ensures ReadTurn(tape, pos) == TurnOf(b, pos)
  {
    assert BlockEnd(pos + 4, |b.bytes|, |tape|) == pos + 4 + |b.bytes|;
  }

  /** What the loop finds from pos: one turn per block, then the end. */
  predicate RunAt(tape: seq<Byte>, pos: nat, bs: seq<BlockSpec>)
    requires pos <= |tape|
    decreases |bs|
  {
    if bs == [] then ReadTurn(tape, pos) == End
    else ReadTurn(tape, pos) == TurnOf(bs[0], pos) && RunAt(tape, pos + 8 + |bs[0].bytes|, bs[1..])
  }

  /** Blocks written one after the other from pos, each as the recorder
      writes it, followed by the end-of-tape mark. */
  predicate Laid(tape: seq<Byte>, pos: nat, bs: seq<BlockSpec>)
    requires pos <= |tape|
    decreases |bs|
  {
    if bs == [] then tape[pos..] == EndMark()
    else
      var next := pos + 8 + |bs[0].bytes|;
      && WellFormed(bs[0])
      && next <= |tape|
      && tape[pos..next] == EncodeBlock(bs[0])
      && Laid(tape, next, bs[1..])
  }

  /** An encoded run is laid out block by block. */
  lemma {:induction false} LaidOf(tape: seq<Byte>, pos: nat, bs: seq<BlockSpec>)
    requires forall i :: 0 <= i < |bs| ==> WellFormed(bs[i])
    requires pos <= |tape| && tape[pos..] == EncodeRun(bs)
    ensures Laid(tape, pos, bs)
    decreases |bs|
  {
    if bs != [] {
      SplitAt(tape, pos, EncodeBlock(bs[0]), EncodeRun(bs[1..]));
      LaidOf(tape, pos + 8 + |bs[0].bytes|, bs[1..]);
    }
  }

  /** Blocks laid out on the tape read back turn by turn. */
  lemma {:induction false} RunEncoded(tape: seq<Byte>, pos: nat, bs: seq<BlockSpec>)
    requires pos <= |tape| && Laid(tape, pos, bs)
    ensures RunAt(tape, pos, bs)
    decreases |bs|
  {
    if bs == [] {
      ScanAtEnd(tape, pos);
    } else {
      var next := pos + 8 + |bs[0].bytes|;
      BlockStep(tape, pos, bs[0]);
      TurnRead(tape, pos, bs[0]);
      RunEncoded(tape, next, bs[1..]);
    }
  }

  /** Scanning a run that reads back turn by turn keeps exactly the blocks not
      flagged corrupt and warns once per footer mismatch. */
  lemma {:induction false} ScanRun(tape: seq<Byte>, pos: nat, bs: seq<BlockSpec>)
    requires pos <= |tape| && RunAt(tape, pos, bs)
    ensures ScanBlocks(tape, pos) == (Kept(bs), Warnings(bs))
    decreases |bs|
  {
    if bs == [] {
      ScanEnd(tape, pos);
    } else {
      ScanRun(tape, pos + 8 + |bs[0].bytes|, bs[1..]);
      ScanTurn(tape, pos, TurnOf(bs[0], pos));
      KeptTurn(bs, pos);
    }
  }

  lemma ScanEnd(tape: seq<Byte>, pos: nat)
    requires pos <= |tape| && ReadTurn(tape, pos) == End
    ensures ScanBlocks(tape, pos) == ([], 0)
  {
  }

  /** The loop's result after one turn that reads a block. */
  lemma ScanTurn(tape: seq<Byte>, pos: nat, t: Turn)
    requires pos <= |tape| && t.Read? && ReadTurn(tape, pos) == t
    ensures ScanBlocks(tape, pos) == Prepend(t, ScanBlocks(tape, t.next))
  {
  }

  /** What a turn that read a block adds in front of the rest of the scan: the
      block unless it was flagged corrupt, and a warning on a footer
      mismatch. */
  function Prepend(t: Turn, rest: (seq<seq<Int8>>, nat)): (seq<seq<Int8>>, nat)
    requires t.Read?
  {
    (if t.skip then rest.0 else [t.block] + rest.0, (if t.mismatch then 1 else 0) + rest.1)
  }

  /** The expected result of a run, one encoded block at a time. */
  lemma KeptTurn(bs: seq<BlockSpec>, pos: nat)
    requires bs != []
    ensures (Kept(bs), Warnings(bs)) == Prepend(TurnOf(bs[0], pos), (Kept(bs[1..]), Warnings(bs[1..])))
  {
    assert [] + Kept(bs[1..]) == Kept(bs[1..]);
  }

  lemma ScanEncoded(tape: seq<Byte>, pos: nat, bs: seq<BlockSpec>)
    requires forall i :: 0 <= i < |bs| ==> WellFormed(bs[i])
    requires pos <= |tape| && tape[pos..] == EncodeRun(bs)
    ensures ScanBlocks(tape, pos) == (Kept(bs), Warnings(bs))
  {
    LaidOf(tape, pos, bs);
    RunEncoded(tape, pos, bs);
    ScanRun(tape, pos, bs);
  }


  /** Scanning a recorded tape returns the first block as the orbit document,
      exactly the data blocks not flagged corrupt, in order, and one warning per
      block whose footer disagrees with its header. Footers never change what
      is kept. */
  lemma FrameEncoded(first: BlockSpec, rest: seq<BlockSpec>)
    requires WellFormed(first)
    requires forall i :: 0 <= i < |rest| ==> WellFormed(rest[i])
    ensures Frame(EncodeTape(first, rest)) == Ok(Framed(first.bytes, Kept(rest), Warnings([first] + rest)))
  {
    var tape := EncodeTape(first, rest);
    assert tape[0..] == EncodeBlock(first) + EncodeRun(rest);
    SplitAt(tape, 0, EncodeBlock(first), EncodeRun(rest));
    BlockStep(tape, 0, first);
    ScanEncoded(tape, 8 + |first.bytes|, rest);
    FrameOf(tape, first, rest);
  }

  /** The decoder's read of a tape whose first block reads back and whose later
      blocks scan as given: that block is the orbit document, and the scan from
      its end gives the rest. */
  lemma FrameOf(tape: seq<Byte>, first: BlockSpec, rest: seq<BlockSpec>)
    requires ReadsBack(tape, 0, first)
    requires ScanBlocks(tape, 8 + |first.bytes|) == (Kept(rest), Warnings(rest))
    ensures Frame(tape) == Ok(Framed(first.bytes, Kept(rest), Warnings([first] + rest)))
  {
    var n := |first.bytes|;
    assert BlockEnd(4, n, |tape|) == 4 + n;
    assert Mismatch(n, GetHeader(tape, 4 + n, false).length) <==> first.footer != n;
    assert ([first] + rest)[1..] == rest;
    KeptTurn([first] + rest, 0);
  }
}

=== FILE: interp.dfy ===
/** The geolocation of a swath's samples from its anchor points: the nadir
    angle of every sample is placed evenly between the smallest and largest
    anchor nadir angle, the anchor nearest to it picks a window of five
    anchors, and the latitude and longitude are the Lagrange interpolation
    through that window. Arithmetic is over exact reals. */
module Interp {
  import opened Common
  import opened PySeq

  /** The smallest distance from v to an element of a nonempty array:
      `min(abs(array - value))`. */
  function MinDist(a: seq<real>, v: real): (m: real)
    requires |a| > 0
    ensures forall k :: 0 <= k < |a| ==> m <= Abs(a[k] - v)
    ensures exists k :: 0 <= k < |a| && m == Abs(a[k] - v)
  {
    if |a| == 1 then Abs(a[0] - v)
    else
      var rest := MinDist(a[1..], v);
      var k :| 0 <= k < |a[1..]| && rest == Abs(a[1..][k] - v);
      assert a[1..][k] == a[k + 1];
      if Abs(a[0] - v) <= rest then Abs(a[0] - v) else rest
  }

  /** The first index, from i on, where the distance reaches m. */
  function FirstAt(a: seq<real>, v: real, m: real, i: nat): (j: nat)
    requires i <= |a|
    requires exists k :: i <= k < |a| && Abs(a[k] - v) == m
    ensures i <= j < |a| && Abs(a[j] - v) == m
    ensures forall k :: i <= k < j ==> Abs(a[k] - v) != m
    decreases |a| - i
  {
    if Abs(a[i] - v) == m then i else FirstAt(a, v, m, i + 1)
  }

  /** i is the smallest index at which the array is closest to v. */
  predicate IsNearest(a: seq<real>, v: real, i: nat)
  {
    i < |a| &&
    (forall k :: 0 <= k < |a| ==> Abs(a[i] - v) <= Abs(a[k] - v)) &&
    (forall k :: 0 <= k < i ==> Abs(a[k] - v) > Abs(a[i] - v))
  }

  /** `find_nearest_index`: the smallest index at which the array is closest
      to v. */
  function Nearest(a: seq<real>, v: real): (i: nat)
    requires |a| > 0
    ensures i < |a|
    ensures IsNearest(a, v, i)
  {
    FirstAt(a, v, MinDist(a, v), 0)
  }

  /** The search loop of `find_nearest_index`: step i forward while the
      distance at i is not the minimum. */
  method FindNearestIndex(a: seq<real>, v: real) returns (i: nat)
    requires |a| > 0
    ensures i == Nearest(a, v)
  {
    var m := MinDist(a, v);
    i := 0;
    while Abs(a[i] - v) != m
      invariant i < |a|
      invariant forall k :: 0 <= k < i ==> Abs(a[k] - v) != m
      invariant exists k :: i <= k < |a| && Abs(a[k] - v) == m
      decreases |a| - i
    {
      i := i + 1;
    }
    NearestUnique(a, v, i);
  }

  /** Only one index is both closest and before every other closest index. */
  lemma NearestUnique(a: seq<real>, v: real, i: nat)
    requires i < |a| && |a| > 0
    requires Abs(a[i] - v) == MinDist(a, v)
    requires forall k :: 0 <= k < i ==> Abs(a[k] - v) != MinDist(a, v)
    ensures i == Nearest(a, v)
  {
    var j := Nearest(a, v);
    assert Abs(a[j] - v) == MinDist(a, v) by {
      var k :| 0 <= k < |a| && MinDist(a, v) == Abs(a[k] - v);
    }
  }

  /** The first of the five indices `surrounding_n(index, 5)` returns: the
      window centred on index, pushed up to start at 0 at the low end and then
      down to end at locators - 1 at the high end. */
  function WindowStart(index: int, locators: int): (s: int)
    ensures s <= locators - 5 || s == index - 2 || s == 0
    ensures s + 4 < locators
  {
    var up := if index - 2 < 0 then 0 else index - 2;
    if up + 4 >= locators then locators - 5 else up
  }

  /** `surrounding_n(index, 5)`: five consecutive indices. */
  function Window(index: int, locators: int): (r: seq<int>)
    ensures |r| == 5
    ensures forall k :: 0 <= k < 5 ==> r[k] == r[0] + k
  {
    var s := WindowStart(index, locators);
    [s, s + 1, s + 2, s + 3, s + 4]
  }

  /** The two loops of `surrounding_n`, as written: shift the range up one at
      a time while its first index is negative, then down one at a time while
      its last index is not below the number of anchors. */
  method SurroundingN(index: int, locators: int) returns (addresses: seq<int>)
    ensures addresses == Window(index, locators)
  {
    var first := index - 2;
    ghost var up := if index - 2 < 0 then 0 else index - 2;
    while first < 0
      invariant first == index - 2 || (index - 2 < 0 && first <= 0)
      decreases -first
    {
      first := first + 1;
    }
    while first + 4 >= locators
      invariant first == up || (first + 4 >= locators - 1 && up + 4 >= locators)
      decreases first + 4 - locators
    {
      first := first - 1;
    }
    addresses := [first, first + 1, first + 2, first + 3, first + 4];
  }

  /** With at least five anchors, the window lies inside the anchors and
      contains the index it was built around; away from the ends it is centred
      on that index. */
  lemma WindowInside(index: int, locators: int)
    requires locators >= 5 && 0 <= index < locators
    ensures forall k :: 0 <= k < 5 ==> 0 <= Window(index, locators)[k] < locators
    ensures Window(index, locators)[0] <= index <= Window(index, locators)[4]
    ensures 2 <= index < locators - 2 ==> Window(index, locators)[2] == index
  {
  }

  /** The factors `(x - xm) / (xi - xm)` for every node xm of xs that differs
      from xi, multiplied together: `lagrange_poly` with xi the node of the
      basis polynomial. Equal nodes are skipped, so no factor divides by 0. */
  function Basis(x: real, xs: seq<real>, xi: real): real
  {
    if xs == [] then 1.0 else Factor(x, xs[0], xi) * Basis(x, xs[1..], xi)
  }

  /** The factor node xm contributes to the basis polynomial of node xi. */
  function Factor(x: real, xm: real, xi: real): (f: real)
    ensures x == xi ==> f == 1.0
    ensures x == xm && xm != xi ==> f == 0.0
  {
    if xm != xi then
      SelfDiv(xi - xm);
      (x - xm) / (xi - xm)
    else 1.0
  }

  lemma SelfDiv(d: real)
    requires d != 0.0
    ensures d / d == 1.0
  {
  }

  /** A basis polynomial is 1 at its own node. */
  lemma {:induction false} BasisAtOwnNode(xs: seq<real>, xi: real)
    ensures Basis(xi, xs, xi) == 1.0
  {
    if xs != [] {
      BasisAtOwnNode(xs[1..], xi);
      assert Factor(xi, xs[0], xi) == 1.0;
    }
  }

  /** A basis polynomial is 0 at every node different from its own. */
  lemma {:induction false} BasisAtOtherNode(xs: seq<real>, xi: real, k: nat)
    requires k < |xs| && xs[k] != xi
    ensures Basis(xs[k], xs, xi) == 0.0
  {
    if k > 0 {
      assert xs[1..][k - 1] == xs[k];
      BasisAtOtherNode(xs[1..], xi, k - 1);
    } else {
      assert Factor(xs[0], xs[0], xi) == 0.0;
    }
  }

  /** The first n terms `ys[i] * lagrange_poly(x, xs, i)` of the sum. */
  function Terms(x: real, xs: seq<real>, ys: seq<real>, n: nat): real
    requires n <= |ys| <= |xs|
  {
    if n == 0 then 0.0 else Terms(x, xs, ys, n - 1) + ys[n - 1] * Basis(x, xs, xs[n - 1])
  }

  /** `interp_lagrange`: the Lagrange polynomial through the points
      (xs[i], ys[i]) at x. */
  function Interpolate(x: real, xs: seq<real>, ys: seq<real>): real
    requires |xs| == |ys|
  {
    Terms(x, xs, ys, |ys|)
  }

  predicate Distinct(xs: seq<real>)
  {
    forall i, j :: 0 <= i < j < |xs| ==> xs[i] != xs[j]
  }

  lemma {:induction false} TermsAtNode(xs: seq<real>, ys: seq<real>, k: nat, n: nat)
    requires Distinct(xs) && n <= |ys| <= |xs| && k < |xs|
    ensures Terms(xs[k], xs, ys, n) == if k < n then ys[k] else 0.0
  {
    if n > 0 {
      TermsAtNode(xs, ys, k, n - 1);
      if n - 1 == k {
        BasisAtOwnNode(xs, xs[k]);
      } else {
        assert xs[k] != xs[n - 1];
        BasisAtOtherNode(xs, xs[n - 1], k);
      }
    }
  }

  /** With distinct nodes the interpolating polynomial passes through every
      data point. */
  lemma InterpolateAtNode(xs: seq<real>, ys: seq<real>, k: nat)
    requires |xs| == |ys| && Distinct(xs) && k < |xs|
    ensures Interpolate(xs[k], xs, ys) == ys[k]
  {
    TermsAtNode(xs, ys, k, |ys|);
  }

  /** The dateline rule: when the window's end longitudes are more than 180
      degrees apart, every longitude below 180 moves up by 360. */
  function Dateline(lons: seq<real>): (r: seq<real>)
    requires |lons| > 0
    ensures |r| == |lons|
    ensures forall k :: 0 <= k < |r| ==> r[k] == lons[k] || r[k] == lons[k] + 360.0
    ensures Abs(lons[0] - lons[|lons| - 1]) > 180.0 ==> forall k :: 0 <= k < |r| && lons[k] >= -180.0 ==> r[k] >= 180.0
    ensures Abs(lons[0] - lons[|lons| - 1]) > 180.0 ==> forall k :: 0 <= k < |r| ==> (r[k] == lons[k] <==> lons[k] >= 180.0)
    ensures Abs(lons[0] - lons[|lons| - 1]) <= 180.0 ==> r == lons
  {
    if Abs(lons[0] - lons[|lons| - 1]) > 180.0 then
      seq(|lons|, k requires 0 <= k < |lons| => if lons[k] < 180.0 then lons[k] + 360.0 else lons[k])
    else lons
  }

  /** The four passes over the interpolated longitudes, in order, with the
      tolerance of 15 degrees. */
  function WrapLon(x: real): real
  {
    var a := if 360.0 < x < 375.0 then x - 360.0 else x;
    var b := if a > 375.0 then MissingReal else a;
    var c := if -15.0 < b < 0.0 then b + 360.0 else b;
    if c < -15.0 then MissingReal else c
  }

  /** What the passes do to each longitude: values in range and the two exact
      limits pass through, overshoots within the tolerance fold back by 360,
      and anything further out becomes the sentinel. */
  lemma WrapLonCases(x: real)
    ensures 0.0 <= x <= 360.0 || x == 375.0 || x == -15.0 ==> WrapLon(x) == x
    ensures 360.0 < x < 375.0 ==> WrapLon(x) == x - 360.0
    ensures -15.0 < x < 0.0 ==> WrapLon(x) == x + 360.0
    ensures x > 375.0 || x < -15.0 ==> WrapLon(x) == MissingReal
    ensures WrapLon(x) == MissingReal || 0.0 <= WrapLon(x) <= 360.0 || WrapLon(x) == 375.0 || WrapLon(x) == -15.0
  {
  }

  /** The two passes over the interpolated latitudes. */
  function ClampLat(x: real): real
  {
    var a := if x > 180.0 then MissingReal else x;
    if a < 0.0 then MissingReal else a
  }

  /** Latitudes inside [0, 180] are kept and all others become the sentinel. */
  lemma ClampLatCases(x: real)
    ensures 0.0 <= x <= 180.0 ==> ClampLat(x) == x
    ensures x < 0.0 || x > 180.0 ==> ClampLat(x) == MissingReal
  {
  }

  /** `np.min` of a nonempty array. */
  function SeqMin(a: seq<real>): (m: real)
    requires |a| > 0
    ensures forall k :: 0 <= k < |a| ==> m <= a[k]
    ensures m in a
  {
    if |a| == 1 then a[0]
    else
      var rest := SeqMin(a[1..]);
      if a[0] <= rest then a[0] else rest
  }

  /** `np.max` of a nonempty array. The same fold over integers is
      `Fields.IntMax`; without traits there is no ordering to share one
      definition between reals and integers. */
  function SeqMax(a: seq<real>): (m: real)
    requires |a| > 0
    ensures forall k :: 0 <= k < |a| ==> a[k] <= m
    ensures m in a
  {
    if |a| == 1 then a[0]
    else
      var rest := SeqMax(a[1..]);
      if a[0] >= rest then a[0] else rest
  }

  /** `np.linspace(lo, hi, n)` over exact reals: n evenly spaced points from
      lo to hi, both included when n >= 2. */
  function Linspace(lo: real, hi: real, n: nat): (r: seq<real>)
    ensures |r| == n
  {
    if n == 1 then [lo]
    else seq(n, k requires 0 <= k < n => lo + (hi - lo) * (k as real) / ((n - 1) as real))
  }

  /** The points start at lo, end at hi, and stay between them. */
  lemma LinspaceEnds(lo: real, hi: real, n: nat)
    requires lo <= hi
    ensures n >= 1 ==> Linspace(lo, hi, n)[0] == lo
    ensures n >= 2 ==> Linspace(lo, hi, n)[n - 1] == hi
    ensures forall k :: 0 <= k < n ==> lo <= Linspace(lo, hi, n)[k] <= hi
  {
    if n >= 2 {
      var r := Linspace(lo, hi, n);
      LinspaceLast(lo, hi, n);
      forall k | 0 <= k < n
        ensures lo <= r[k] <= hi
      {
        LinspaceAt(lo, hi, n, k);
      }
    }
  }

  lemma LinspaceLast(lo: real, hi: real, n: nat)
    requires 2 <= n
    ensures Linspace(lo, hi, n)[n - 1] == hi
  {
    var d, m := hi - lo, (n - 1) as real;
    assert Linspace(lo, hi, n)[n - 1] == lo + d * m / m;
    Cancel(d, m);
  }

  lemma LinspaceAt(lo: real, hi: real, n: nat, k: nat)
    requires lo <= hi && 2 <= n && k < n
    ensures lo <= Linspace(lo, hi, n)[k] <= hi
  {
    var d := hi - lo;
    assert Linspace(lo, hi, n)[k] == lo + d * (k as real) / ((n - 1) as real);
    FractionBelow(d, k, n - 1);
  }

  lemma Cancel(d: real, m: real)
    requires m > 0.0
    ensures d * m / m == d
  {
    assert d * m / m == d * (m / m);
  }

  lemma FractionBelow(d: real, k: nat, m: nat)
    requires d >= 0.0 && k <= m && m > 0
    ensures 0.0 <= d * (k as real) / (m as real) <= d
  {
    var kr, mr := k as real, m as real;
    var g := d * kr / mr;
    assert g * mr == d * kr;
    ScaleAtMost(d, kr, mr);
    ScaleAtMost(d, 0.0, kr);
    assert g * mr <= d * mr && 0.0 * mr <= g * mr;
    CancelAtMost(g, d, mr);
    CancelAtMost(0.0, g, mr);
  }

  /** Scaling by a non-negative factor keeps the order. */
  lemma ScaleAtMost(c: real, a: real, b: real)
    requires c >= 0.0 && a <= b
    ensures c * a <= c * b
  {
    assert c * b - c * a == c * (b - a);
  }

  /** Dividing out a positive factor keeps the order. */
  lemma CancelAtMost(a: real, b: real, c: real)
    requires c > 0.0 && a * c <= b * c
    ensures a <= b
  {
    if a > b {
      ScaleLess(c, b, a);
    }
  }

  /** Scaling by a positive factor keeps the strict order. */
  lemma ScaleLess(c: real, a: real, b: real)
    requires c > 0.0 && a < b
    ensures c * a < c * b
  {
    assert c * b - c * a == c * (b - a);
  }

  /** One sample's coordinates before the final passes: the nearest anchor
      picks the window, the window's nadir angles are the nodes, and the
      latitudes and dateline-shifted longitudes the values. */
  function Point(nads: seq<real>, lats: seq<real>, lons: seq<real>, locators: int, q: real): (r: Result<(real, real)>)
    requires |nads| > 0
  {
    var idx := Window(Nearest(nads, q), locators);
    match (Gather(nads, idx), Gather(lats, idx), Gather(lons, idx))
    case (Some(xs), Some(la), Some(lo)) => Ok(WindowPoint(q, xs, la, lo))
    case _ => Err(BadIndex)
  }

  /** The nadir angle of each of the pop samples: evenly spaced from the
      smallest anchor angle to the largest. */
  function SampleAngles(nads: seq<real>, pop: nat): seq<real>
    requires |nads| > 0
  {
    Linspace(SeqMin(nads), SeqMax(nads), pop)
  }

  /** The latitude and longitude at angle q from one window's nadir angles,
      latitudes and longitudes, the longitudes after the dateline rule. */
  function WindowPoint(q: real, xs: seq<real>, la: seq<real>, lo: seq<real>): (real, real)
    requires |xs| == |la| == |lo| > 0
  {
    (Interpolate(q, xs, la), Interpolate(q, xs, Dateline(lo)))
  }

  /** la and lo are the latitude and longitude `get_full_coords` reports for
      a sample at angle q: the window's interpolation, latitudes outside
      [0, 180] and longitudes beyond the tolerance made the sentinel. */
  predicate SampleIs(nads: seq<real>, lats: seq<real>, lons: seq<real>, locators: int, q: real, la: real, lo: real)
  {
    |nads| > 0 &&
    var p := Point(nads, lats, lons, locators, q);
    p.Ok? && la == ClampLat(p.value.0) && lo == WrapLon(p.value.1)
  }

  /** Every sample's coordinates, in order; a failing sample fails them
      all. */
  function Points(nads: seq<real>, lats: seq<real>, lons: seq<real>, locators: int, qs: seq<real>): (r: Result<seq<(real, real)>>)
    requires |nads| > 0
    ensures r.Ok? ==> |r.value| == |qs|
    ensures r.Ok? ==> forall k :: 0 <= k < |qs| ==> Point(nads, lats, lons, locators, qs[k]) == Ok(r.value[k])
    ensures r.Err? <==> exists k :: 0 <= k < |qs| && Point(nads, lats, lons, locators, qs[k]).Err?
    ensures r.Err? ==> r.error == BadIndex
  {
    if exists k :: 0 <= k < |qs| && Point(nads, lats, lons, locators, qs[k]).Err? then Err(BadIndex)
    else Ok(seq(|qs|, k requires 0 <= k < |qs| => Point(nads, lats, lons, locators, qs[k]).value))
  }

  /** `get_full_coords` with a tolerance of 15 degrees: the latitude and
      longitude of each of the `pop` samples of a swath. */
  function FullCoords(nads: seq<real>, lats: seq<real>, lons: seq<real>, locators: int, pop: int): (r: Result<(seq<real>, seq<real>)>)
    ensures nads == [] ==> r == Err(EmptyExtremum)
    ensures nads != [] && pop < 0 ==> r == Err(NegativeDimension)
    ensures r.Ok? ==> |r.value.0| == pop && |r.value.1| == pop
    ensures r.Ok? ==> forall k :: 0 <= k < pop ==> r.value.0[k] == MissingReal || 0.0 <= r.value.0[k] <= 180.0
    ensures r.Ok? ==> forall k :: 0 <= k < pop ==>
              var x := r.value.1[k];
              x == MissingReal || 0.0 <= x <= 360.0 || x == 375.0 || x == -15.0
    ensures r.Ok? ==> nads != [] && pop >= 0 && forall k :: 0 <= k < pop ==>
              SampleIs(nads, lats, lons, locators, SampleAngles(nads, pop)[k], r.value.0[k], r.value.1[k])
  {
    if nads == [] then Err(EmptyExtremum)
    else if pop < 0 then Err(NegativeDimension)
    else
      var qs := SampleAngles(nads, pop);
      match Points(nads, lats, lons, locators, qs)
      case Err(e) => Err(e)
      case Ok(ps) =>
        var la := seq(|ps|, k requires 0 <= k < |ps| => ClampLat(ps[k].0));
        var lo := seq(|ps|, k requires 0 <= k < |ps| => WrapLon(ps[k].1));
        forall k | 0 <= k < |ps|
          ensures la[k] == MissingReal || 0.0 <= la[k] <= 180.0
          ensures lo[k] == MissingReal || 0.0 <= lo[k] <= 360.0 || lo[k] == 375.0 || lo[k] == -15.0
        {
          WrapLonCases(ps[k].1);
        }
        Ok((la, lo))
  }

  /** When every window fits (at least five anchors, and every anchor array
      at least that long), the interpolation never fails. */
  lemma {:induction false} PointsDefined(nads: seq<real>, lats: seq<real>, lons: seq<real>, locators: int, qs: seq<real>)
    requires |nads| > 0 && locators >= 5
    requires |nads| >= locators && |lats| >= locators && |lons| >= locators
    ensures Points(nads, lats, lons, locators, qs).Ok?
  {
    if qs != [] {
      var idx := Window(Nearest(nads, qs[0]), locators);
      assert forall k :: 0 <= k < 5 ==> 0 <= idx[k] < locators;
      PointsDefined(nads, lats, lons, locators, qs[1..]);
    }
  }

  lemma FullCoordsDefined(nads: seq<real>, lats: seq<real>, lons: seq<real>, locators: int, pop: nat)
    requires |nads| > 0 && locators >= 5
    requires |nads| >= locators && |lats| >= locators && |lons| >= locators
    ensures FullCoords(nads, lats, lons, locators, pop).Ok?
  {
    PointsDefined(nads, lats, lons, locators, SampleAngles(nads, pop));
  }

  /** At a sample angle that is itself an anchor angle, the window is built
      around that anchor and the interpolation passes through it: the
      latitude is the anchor's own, and the longitude is the anchor's, moved
      up by 360 when its window crosses the dateline and it lies below 180. */
  lemma PointAtAnchor(nads: seq<real>, lats: seq<real>, lons: seq<real>, locators: int, q: real)
    requires locators >= 5 && |nads| == locators && |lats| >= locators && |lons| >= locators
    requires Distinct(nads) && q in nads
    ensures var i := Nearest(nads, q);
            var s := WindowStart(i, locators);
            var p := Point(nads, lats, lons, locators, q);
            nads[i] == q && 0 <= s <= i < s + 5 <= locators &&
            p.Ok? && p.value.0 == lats[i] &&
            p.value.1 == if Abs(lons[s] - lons[s + 4]) > 180.0 && lons[i] < 180.0 then lons[i] + 360.0 else lons[i]
  {
    var i := Nearest(nads, q);
    AnchorNearest(nads, q);
    WindowInside(i, locators);
    var s, idx := WindowStart(i, locators), Window(i, locators);
    GatherRun(nads, idx, s);
    GatherRun(lats, idx, s);
    GatherRun(lons, idx, s);
    PointGathered(nads, lats, lons, locators, q);
    WindowAtNode(nads, lats, lons, Gather(nads, idx).value, Gather(lats, idx).value, Gather(lons, idx).value, s, i, q);
  }

  /** When the window's three gathers succeed, the sample's coordinates
      are the window's interpolation through them. */
  lemma PointGathered(nads: seq<real>, lats: seq<real>, lons: seq<real>, locators: int, q: real)
    requires |nads| > 0
    requires var idx := Window(Nearest(nads, q), locators);
             Gather(nads, idx).Some? && Gather(lats, idx).Some? && Gather(lons, idx).Some?
    ensures var idx := Window(Nearest(nads, q), locators);
            Point(nads, lats, lons, locators, q) ==
              Ok(WindowPoint(q, Gather(nads, idx).value, Gather(lats, idx).value, Gather(lons, idx).value))
  {
  }

  /** A window of distinct anchors through anchor i, at i's own angle, gives
      i's latitude and its longitude after the dateline rule. */
  lemma WindowAtNode(nads: seq<real>, lats: seq<real>, lons: seq<real>, xs: seq<real>, la: seq<real>, lo: seq<real>, s: int, i: int, q: real)
    requires 0 <= s <= i < s + 5 && s + 5 <= |nads| && s + 5 <= |lats| && s + 5 <= |lons|
    requires Distinct(nads) && nads[i] == q
    requires |xs| == 5 && |la| == 5 && |lo| == 5
    requires forall k :: 0 <= k < 5 ==> xs[k] == nads[s + k]
    requires forall k :: 0 <= k < 5 ==> la[k] == lats[s + k]
    requires forall k :: 0 <= k < 5 ==> lo[k] == lons[s + k]
    ensures WindowPoint(q, xs, la, lo).0 == lats[i]
    ensures WindowPoint(q, xs, la, lo).1 ==
              if Abs(lons[s] - lons[s + 4]) > 180.0 && lons[i] < 180.0 then lons[i] + 360.0 else lons[i]
  {
    RunDistinct(nads, xs, s);
    assert xs[i - s] == q && la[i - s] == lats[i] && lo[0] == lons[s] && lo[4] == lons[s + 4] && lo[i - s] == lons[i];
    WindowPointAtNode(q, xs, la, lo, i - s);
  }

  /** Gathering through a run of consecutive indices inside the array
      takes the elements of that run. */
  lemma GatherRun(a: seq<real>, idx: seq<int>, s: int)
    requires 0 <= s && s + |idx| <= |a|
    requires forall k :: 0 <= k < |idx| ==> idx[k] == s + k
    ensures Gather(a, idx).Some?
    ensures forall k :: 0 <= k < |idx| ==> Gather(a, idx).value[k] == a[s + k]
  {
    assert forall k :: 0 <= k < |idx| ==> 0 <= idx[k] < |a|;
  }

  /** A run of distinct anchors is distinct. */
  lemma RunDistinct(a: seq<real>, xs: seq<real>, s: int)
    requires Distinct(a) && 0 <= s && s + |xs| <= |a|
    requires forall k :: 0 <= k < |xs| ==> xs[k] == a[s + k]
    ensures Distinct(xs)
  {
    forall x, y | 0 <= x < y < |xs|
      ensures xs[x] != xs[y]
    {
      assert xs[x] == a[s + x] && xs[y] == a[s + y];
    }
  }

  /** At one of its distinct nodes, a window's interpolation gives that
      node's latitude and its longitude after the dateline rule. */
  lemma WindowPointAtNode(q: real, xs: seq<real>, la: seq<real>, lo: seq<real>, j: nat)
    requires |xs| == |la| == |lo| && j < |xs| && Distinct(xs) && xs[j] == q
    ensures WindowPoint(q, xs, la, lo).0 == la[j]
    ensures WindowPoint(q, xs, la, lo).1 ==
              if Abs(lo[0] - lo[|lo| - 1]) > 180.0 && lo[j] < 180.0 then lo[j] + 360.0 else lo[j]
  {
    InterpolateAtNode(xs, la, j);
    InterpolateAtNode(xs, Dateline(lo), j);
  }

  /** The nearest anchor to an anchor angle is at that angle. */
  lemma AnchorNearest(nads: seq<real>, q: real)
    requires q in nads
    ensures nads[Nearest(nads, q)] == q
  {
    var i := Nearest(nads, q);
    var j :| 0 <= j < |nads| && nads[j] == q;
    assert Abs(nads[i] - q) <= Abs(nads[j] - q);
  }

  /** The first sample lies on the anchor with the smallest nadir angle, as
      `get_full_coords` assumes of the mirror's sweep. */
  lemma FirstSampleOnAnchor(nads: seq<real>, lats: seq<real>, lons: seq<real>, locators: int, pop: nat)
    requires locators >= 5 && |nads| == locators && |lats| >= locators && |lons| >= locators
    requires Distinct(nads) && pop >= 1
    ensures var r := FullCoords(nads, lats, lons, locators, pop);
            var i := Nearest(nads, SeqMin(nads));
            r.Ok? && nads[i] == SeqMin(nads) && r.value.0[0] == ClampLat(lats[i])
  {
    SampleAnglesEnds(nads, pop);
    SampleOnAnchor(nads, lats, lons, locators, pop, 0, SeqMin(nads));
  }

  /** With two samples or more, the last lies on the anchor with the largest
      nadir angle. */
  lemma LastSampleOnAnchor(nads: seq<real>, lats: seq<real>, lons: seq<real>, locators: int, pop: nat)
    requires locators >= 5 && |nads| == locators && |lats| >= locators && |lons| >= locators
    requires Distinct(nads) && pop >= 2
    ensures var r := FullCoords(nads, lats, lons, locators, pop);
            var j := Nearest(nads, SeqMax(nads));
            r.Ok? && nads[j] == SeqMax(nads) && r.value.0[pop - 1] == ClampLat(lats[j])
  {
    SampleAnglesEnds(nads, pop);
    SampleOnAnchor(nads, lats, lons, locators, pop, pop - 1, SeqMax(nads));
  }

  /** A sample whose angle is an anchor's angle has that anchor's latitude,
      up to the final clamp. */
  lemma SampleOnAnchor(nads: seq<real>, lats: seq<real>, lons: seq<real>, locators: int, pop: nat, k: nat, q: real)
    requires locators >= 5 && |nads| == locators && |lats| >= locators && |lons| >= locators
    requires Distinct(nads) && k < pop && q == SampleAngles(nads, pop)[k] && q in nads
    ensures var r := FullCoords(nads, lats, lons, locators, pop);
            r.Ok? && nads[Nearest(nads, q)] == q && r.value.0[k] == ClampLat(lats[Nearest(nads, q)])
  {
    FullCoordsDefined(nads, lats, lons, locators, pop);
    PointAtAnchor(nads, lats, lons, locators, q);
  }

  /** The first sample angle is the smallest anchor angle and the last the
      largest. */
  lemma SampleAnglesEnds(nads: seq<real>, pop: nat)
    requires |nads| > 0 && pop >= 1
    ensures SampleAngles(nads, pop)[0] == SeqMin(nads) && SeqMin(nads) in nads
    ensures pop >= 2 ==> SampleAngles(nads, pop)[pop - 1] == SeqMax(nads) && SeqMax(nads) in nads
  {
    LinspaceEnds(SeqMin(nads), SeqMax(nads), pop);
  }
}

=== FILE: layouta.dfy ===
/** Positional layout of the first tape generation: which six-byte groups of a
    block become which words of the orbit document, of a data record and of a
    swath, where the swaths of a record start, and how a record's remaining
    bytes are cut into swaths.

    The layouts are stated over `group: nat -> int`, the word read from each
    six-byte group, because where a word goes does not depend on how it is
    read; the block readers instantiate `group` with `GroupWord`. */
module LayoutA {
  import opened Common
  import opened Bits
  import opened Parity
  import opened PySeq
  import opened WordsA

  /** The word read from the i-th six-byte group, `bytes[6i:6i+6]`; groups
      past the end of the block are empty and read as 0. */
  function GroupWord(ts: seq<Tagged>, i: nat): (w: int)
    ensures IsWord(w)
    ensures 6 * i >= |ts| ==> w == 0
  {
    var g := Slice(ts, 6 * i, 6 * i + 6);
    ReadWordIsWord(g);
    ReadWord(g)
  }

  /** Word k of a run of half-word pairs starting at group lo: the high half
      (`wordD`) of group lo + k/2 when k is even, its low half when k is odd. */
  function HalfAt(group: nat -> int, lo: nat, k: nat): int
  {
    var h := Halves(group(lo + k / 2));
    if k % 2 == 0 then h.0 else h.1
  }

  /** Half-word pairs of groups lo .. hi-1, in order. */
  function HalfRun(group: nat -> int, lo: nat, hi: int): (r: seq<int>)
    ensures |r| == 2 * Max(hi - lo, 0)
  {
    seq(2 * Max(hi - lo, 0), k requires k >= 0 => HalfAt(group, lo, k))
  }

  /** Full words of groups lo .. hi-1, in order. */
  function FullRun(group: nat -> int, lo: nat, hi: int): (r: seq<int>)
    ensures |r| == Max(hi - lo, 0)
  {
    seq(Max(hi - lo, 0), j requires j >= 0 => group(lo + j))
  }

  /** Half words of word values are half-word values, or the sentinel. */
  lemma RunsAreWords(group: nat -> int, lo: nat, hi: int)
    requires forall i :: IsWord(group(i))
    ensures forall k :: 0 <= k < |HalfRun(group, lo, hi)| ==> IsWord(HalfRun(group, lo, hi)[k])
    ensures forall k :: 0 <= k < |FullRun(group, lo, hi)| ==> IsWord(FullRun(group, lo, hi)[k])
  {
    forall k | 0 <= k < |HalfRun(group, lo, hi)|
      ensures IsWord(HalfRun(group, lo, hi)[k])
    {
      HalvesAreWords(group(lo + k / 2));
    }
  }

  /** `Orbit_Doc.make_words`: one word per complete six-byte group. */
  function OrbitDocWords(ts: seq<Tagged>): (ws: seq<int>)
    ensures |ws| == |ts| / 6
    ensures forall i :: 0 <= i < |ws| ==> IsWord(ws[i])
  {
    seq(|ts| / 6, i requires 0 <= i < |ts| / 6 => GroupWord(ts, i))
  }

  /** The six bytes recorded for one word. */
  function WordBytes(v: nat): (bs: seq<Int8>)
    requires v < WordLimit
    ensures |bs| == 6
  {
    SixBytes();
    EncodeWord(v, 6)
  }

  /** The bytes recorded for a list of words, six per word. */
  function EncodeWords(ws: seq<nat>): (bs: seq<Int8>)
    requires forall i :: 0 <= i < |ws| ==> ws[i] < WordLimit
  {
    Flatten(seq(|ws|, i requires 0 <= i < |ws| => WordBytes(ws[i])))
  }

  lemma ZipSlice(bs: seq<Int8>, lo: nat, hi: nat)
    requires lo <= hi <= |bs|
    ensures ZipGoodness(bs)[lo..hi] == ZipGoodness(bs[lo..hi])
  {
  }

  /** Word i of the orbit document reads back as recorded. */
  lemma OrbitDocWordAt(ws: seq<nat>, i: nat)
    requires forall k :: 0 <= k < |ws| ==> ws[k] < WordLimit
    requires i < |ws|
    ensures |EncodeWords(ws)| == 6 * |ws|
    ensures GroupWord(ZipGoodness(EncodeWords(ws)), i) == ws[i]
  {
    var parts := seq(|ws|, k requires 0 <= k < |ws| => WordBytes(ws[k]));
    var bs := EncodeWords(ws);
    FlattenPart(parts, 6, i);
    assert bs[6 * i..6 * i + 6] == WordBytes(ws[i]);
    ZipSlice(bs, 6 * i, 6 * i + 6);
    SixBytes();
    WordRoundTrip(ws[i], 6);
  }

  /** The orbit document reads back every word that was recorded for it. */
  lemma OrbitDocRoundTrip(ws: seq<nat>)
    requires forall i :: 0 <= i < |ws| ==> ws[i] < WordLimit
    ensures OrbitDocWords(ZipGoodness(EncodeWords(ws))) == ws
  {
    var ts := ZipGoodness(EncodeWords(ws));
    var r := OrbitDocWords(ts);
    if ws != [] {
      OrbitDocWordAt(ws, 0);
    }
    forall i | 0 <= i < |ws|
      ensures r[i] == ws[i]
    {
      OrbitDocWordAt(ws, i);
    }
  }

  /** `Data_Rec.make_words` for any group reader: seven groups split into
      halves, then one full word per anchor point, and the marker `6*i+6`
      computed from the loop variable as the loops leave it. */
  function RecordLayout(group: nat -> int, locators: int): (r: (seq<int>, int))
    ensures |r.0| == 14 + Max(locators, 0)
  {
    var words := HalfRun(group, 0, 7) + FullRun(group, 7, 7 + locators);
    var last := if locators > 0 then 6 + locators else 6;
    (words, 6 * last + 6)
  }

  /** The record's words sit at the groups they are read from, and the marker
      is the end of the last group read: seven groups for the halves, then one
      group per anchor point. */
  lemma RecordLayoutPlaces(group: nat -> int, locators: int)
    ensures var (words, marker) := RecordLayout(group, locators);
            && marker == 6 * (7 + Max(locators, 0))
            && (forall j :: 0 <= j < 7 ==> words[2 * j] == Halves(group(j)).0 && words[2 * j + 1] == Halves(group(j)).1)
            && (forall j :: 7 <= j < 7 + locators ==> words[7 + j] == group(j))
  {
    var words := RecordLayout(group, locators).0;
    forall j | 0 <= j < 7
      ensures words[2 * j] == Halves(group(j)).0 && words[2 * j + 1] == Halves(group(j)).1
    {
      assert words[2 * j] == HalfAt(group, 0, 2 * j);
      assert words[2 * j + 1] == HalfAt(group, 0, 2 * j + 1);
    }
  }

  /** The data record's words and swath marker for a block. */
  function RecordWords(ts: seq<Tagged>, locators: int): (r: (seq<int>, int))
    ensures |r.0| == 14 + Max(locators, 0)
    ensures r.1 == 6 * (7 + Max(locators, 0))
    ensures forall k :: 0 <= k < |r.0| ==> IsWord(r.0[k])
  {
    var group := (i: nat) => GroupWord(ts, i);
    RecordLayoutPlaces(group, locators);
    RunsAreWords(group, 0, 7);
    RunsAreWords(group, 7, 7 + locators);
    RecordLayout(group, locators)
  }

  /** `Swath_Data.make_words` for any group reader: two groups split into
      halves, one full word, then a half-word pair for every group from 3 up
      to the number of bytes (not groups) in the slice. */
  function SwathLayout(group: nat -> int, n: int): (ws: seq<int>)
    ensures |ws| == 5 + 2 * Max(n - 3, 0)
  {
    HalfRun(group, 0, 2) + [group(2)] + HalfRun(group, 3, n)
  }

  /** Where each word of a swath comes from: the seconds and the data
      population are the halves of group 0, the flags are group 2 whole, and
      every later pair is the halves of one group. */
  lemma SwathLayoutPlaces(group: nat -> int, n: int)
    ensures var ws := SwathLayout(group, n);
            && ws[0] == Halves(group(0)).0
            && ws[1] == Halves(group(0)).1
            && ws[2] == Halves(group(1)).0
            && ws[3] == Halves(group(1)).1
            && ws[4] == group(2)
            && forall j :: 0 <= j < n - 3 ==> ws[5 + 2 * j] == Halves(group(3 + j)).0 && ws[6 + 2 * j] == Halves(group(3 + j)).1
  {
    var ws := SwathLayout(group, n);
    assert ws[0] == HalfAt(group, 0, 0) && ws[1] == HalfAt(group, 0, 1);
    assert ws[2] == HalfAt(group, 0, 2) && ws[3] == HalfAt(group, 0, 3);
    forall j | 0 <= j < n - 3
      ensures ws[5 + 2 * j] == Halves(group(3 + j)).0 && ws[6 + 2 * j] == Halves(group(3 + j)).1
    {
      assert ws[5 + 2 * j] == HalfAt(group, 3, 2 * j);
      assert ws[6 + 2 * j] == HalfAt(group, 3, 2 * j + 1);
    }
  }

  /** A swath's words. */
  function SwathWords(ts: seq<Tagged>): (ws: seq<int>)
    ensures |ws| == 5 + 2 * Max(|ts| - 3, 0)
    ensures forall k :: 0 <= k < |ws| ==> IsWord(ws[k])
  {
    var group := (i: nat) => GroupWord(ts, i);
    RunsAreWords(group, 0, 2);
    RunsAreWords(group, 3, |ts|);
    SwathLayout(group, |ts|)
  }

  /** The pair loop runs to the number of bytes, not of groups, so every
      pair read from beyond the slice is a pair of zeros. */
  lemma SwathTailZeros(ts: seq<Tagged>)
    ensures forall j :: 0 <= j < |ts| - 3 && 6 * (3 + j) >= |ts| ==>
              SwathWords(ts)[5 + 2 * j] == 0 && SwathWords(ts)[6 + 2 * j] == 0
  {
    var group := (i: nat) => GroupWord(ts, i);
    SwathLayoutPlaces(group, |ts|);
  }

  /** `Data_Rec.set_swaths`: slice i of a record's swath bytes is
      `bytes[i*B*6 : i*B*6 + B*6]` for B the swath block length in words. */
  function SwathSlices(ts: seq<Tagged>, swaths: int, block: int): (r: seq<seq<Tagged>>)
    ensures |r| == Max(swaths, 0)
  {
    Windows(ts, swaths, block * 6)
  }

  /** When the bytes suffice, the swath slices are consecutive and disjoint:
      B*6 bytes each, and together exactly the first S*B*6 bytes. */
  lemma SwathTiling(ts: seq<Tagged>, swaths: nat, block: nat)
    requires swaths * (block * 6) <= |ts|
    ensures forall i :: 0 <= i < swaths ==> |SwathSlices(ts, swaths, block)[i]| == block * 6
    ensures Flatten(SwathSlices(ts, swaths, block)) == ts[..swaths * (block * 6)]
  {
    WindowsAll(ts, swaths, block * 6);
    WindowsTile(ts, swaths, block * 6);
  }
}

=== FILE: layoutb.dfy ===
/** Positional layout of the second tape generation: which nine-byte groups
    of a block become which words of a data record and of the two kinds of
    swath, how many groups the reading loops consume, where the swaths of a
    record start, and how a record's remaining bytes are cut into swaths.

    As for the first generation, the layouts are stated over `pair: nat ->
    (int, int)`, the two words read from each nine-byte group; the block
    readers instantiate it with the record's or the swath's copy of the pair
    reader. */
module LayoutB {
  import opened Common
  import opened Bits
  import opened PySeq
  import opened WordsA
  import opened WordsB

  /** The four half words of a pair in the order `read_half_words` hands
      them to the word lists: high and low half of the first word, then of
      the second. */
  function Quad(p: (int, int)): (q: seq<int>)
    ensures |q| == 4
  {
    [Halves(p.0).0, Halves(p.0).1, Halves(p.1).0, Halves(p.1).1]
  }

  /** The quads of groups lo .. hi-1, in order. */
  function QuadRun(pair: nat -> (int, int), lo: nat, hi: int): (r: seq<int>)
    ensures |r| == 4 * Max(hi - lo, 0)
  {
    seq(4 * Max(hi - lo, 0), k requires k >= 0 => Quad(pair(lo + k / 4))[k % 4])
  }

  /** Both full words of groups lo .. hi-1, in order. */
  function PairRun(pair: nat -> (int, int), lo: nat, hi: int): (r: seq<int>)
    ensures |r| == 2 * Max(hi - lo, 0)
  {
    seq(2 * Max(hi - lo, 0), k requires k >= 0 => if k % 2 == 0 then pair(lo + k / 2).0 else pair(lo + k / 2).1)
  }

  lemma QuadRunSnoc(pair: nat -> (int, int), lo: nat, hi: nat)
    requires lo <= hi
    ensures QuadRun(pair, lo, hi + 1) == QuadRun(pair, lo, hi) + Quad(pair(hi))
  {
    var a := QuadRun(pair, lo, hi + 1);
    var b := QuadRun(pair, lo, hi) + Quad(pair(hi));
    forall k | 0 <= k < |a|
      ensures a[k] == b[k]
    {
      if k >= 4 * (hi - lo) {
        assert lo + k / 4 == hi;
      }
    }
  }

  lemma PairRunSnoc(pair: nat -> (int, int), lo: nat, hi: nat)
    requires lo <= hi
    ensures PairRun(pair, lo, hi + 1) == PairRun(pair, lo, hi) + [pair(hi).0, pair(hi).1]
  {
    var a := PairRun(pair, lo, hi + 1);
    var b := PairRun(pair, lo, hi) + [pair(hi).0, pair(hi).1];
    forall k | 0 <= k < |a|
      ensures a[k] == b[k]
    {
      if k >= 2 * (hi - lo) {
        assert lo + k / 2 == hi;
      }
    }
  }

  /** How many turns a loop that starts with n0 words and adds `step` words
      per turn makes before it has at least t words. */
  function Needed(n0: int, step: nat, t: int): (k: nat)
    requires step > 0
  {
    if t <= n0 then 0 else (t - n0 + step - 1) / step
  }

  /** Needed is the least number of turns that reaches t. */
  lemma NeededBound(n0: int, step: nat, t: int, k: nat)
    requires step > 0
    ensures n0 + step * k >= t <==> k >= Needed(n0, step, t)
  {
    var q := Needed(n0, step, t);
    if t > n0 {
      var x := t - n0 + step - 1;
      DivMod(x, step);
      assert q * step + x % step == x;
      if k >= q {
        MulLe(q, k, step);
      } else {
        MulLe(k, q - 1, step);
      }
    } else {
      MulNonneg(k, step);
    }
  }

  /** `Data_Rec2.make_words` for any pair reader: three groups split into
      quads, the halves of the fourth group's first word and its second word
      whole, then both words of one group per turn while there are fewer
      than 14 + L words; the marker is the end of the last group read. */
  function RecordLayoutB(pair: nat -> (int, int), locators: int): (r: (seq<int>, int))
  {
    var k := Needed(15, 2, 14 + locators);
    (QuadRun(pair, 0, 3) + [Halves(pair(3).0).0, Halves(pair(3).0).1, pair(3).1] + PairRun(pair, 4, 4 + k),
     9 * (4 + k))
  }

  /** The loop of `Data_Rec2.make_words` as written. */
  method RecordWordsLoop(pair: nat -> (int, int), locators: int) returns (words: seq<int>, marker: int)
    ensures (words, marker) == RecordLayoutB(pair, locators)
  {
    var head := QuadRun(pair, 0, 3) + [Halves(pair(3).0).0, Halves(pair(3).0).1, pair(3).1];
    var need := Needed(15, 2, 14 + locators);
    words := head;
    var i := 4;
    while |words| < 14 + locators
      invariant 4 <= i <= 4 + need
      invariant words == head + PairRun(pair, 4, i)
      decreases 14 + locators - |words|
    {
      NeededBound(15, 2, 14 + locators, i - 4);
      PairRunSnoc(pair, 4, i);
      words := words + [pair(i).0, pair(i).1];
      i := i + 1;
    }
    NeededBound(15, 2, 14 + locators, i - 4);
    marker := 9 * i;
  }

  /** The record loop reads one group per two anchor points (rounded down),
      max(L, 0)/2 groups, so the record has 15 + 2*(max(L, 0)/2) words: at
      least 14 + L and at most 15 + max(L, 0). */
  lemma RecordPairCount(locators: int)
    ensures Needed(15, 2, 14 + locators) == Max(locators, 0) / 2
    ensures 14 + locators <= 15 + 2 * (Max(locators, 0) / 2) <= 15 + Max(locators, 0)
  {
  }

  /** Where each word of a record comes from. */
  lemma RecordLayoutBPlaces(pair: nat -> (int, int), locators: int)
    ensures var (words, marker) := RecordLayoutB(pair, locators);
            var k := Max(locators, 0) / 2;
            && |words| == 15 + 2 * k
            && marker == 9 * (4 + k)
            && (forall j :: 0 <= j < 3 ==> words[4 * j..4 * j + 4] == Quad(pair(j)))
            && words[12] == Halves(pair(3).0).0 && words[13] == Halves(pair(3).0).1
            && words[14] == pair(3).1
            && (forall j :: 0 <= j < k ==> words[15 + 2 * j] == pair(4 + j).0 && words[16 + 2 * j] == pair(4 + j).1)
  {
    RecordPairCount(locators);
    var words := RecordLayoutB(pair, locators).0;
    var k := Max(locators, 0) / 2;
    forall j | 0 <= j < 3
      ensures words[4 * j..4 * j + 4] == Quad(pair(j))
    {
      forall m | 0 <= m < 4
        ensures words[4 * j + m] == Quad(pair(j))[m]
      {
        assert (4 * j + m) / 4 == j && (4 * j + m) % 4 == m;
      }
    }
    forall j | 0 <= j < k
      ensures words[15 + 2 * j] == pair(4 + j).0 && words[16 + 2 * j] == pair(4 + j).1
    {
      assert words[15 + 2 * j] == PairRun(pair, 4, 4 + k)[2 * j];
      assert words[16 + 2 * j] == PairRun(pair, 4, 4 + k)[2 * j + 1];
    }
  }

  /** The first seven words of `Swath_Data2.make_words`: the quad of group 0,
      the first word of group 1 whole and the halves of its second word. */
  function SwathHead2(pair: nat -> (int, int)): (ws: seq<int>)
    ensures |ws| == 7
  {
    Quad(pair(0)) + [pair(1).0, Halves(pair(1).1).0, Halves(pair(1).1).1]
  }

  /** The first five words of `Swath_Data3.make_words`: the halves of the
      second word of group 0, the halves of the first word of group 1 and
      its second word whole. */
  function SwathHead3(pair: nat -> (int, int)): (ws: seq<int>)
    ensures |ws| == 5
  {
    [Halves(pair(0).1).0, Halves(pair(0).1).1, Halves(pair(1).0).0, Halves(pair(1).0).1, pair(1).1]
  }

  /** The word count the swath loops run to: five, two per anchor point,
      and the data population, which is word 1 of the head. */
  function SwathTarget(head: seq<int>, locators: int): int
    requires |head| >= 2
  {
    5 + 2 * locators + head[1]
  }

  /** The swath loop for any pair reader: after the head, one quad per
      group from group 2 on, while there are fewer words than the target. */
  function SwathLayoutB(pair: nat -> (int, int), head: seq<int>, locators: int): (ws: seq<int>)
    requires |head| >= 2
  {
    head + QuadRun(pair, 2, 2 + Needed(|head|, 4, SwathTarget(head, locators)))
  }

  /** The loop shared by `Swath_Data2.make_words` and
      `Swath_Data3.make_words`, as written. */
  method SwathWordsLoop(pair: nat -> (int, int), head: seq<int>, locators: int) returns (words: seq<int>)
    requires |head| >= 2
    ensures words == SwathLayoutB(pair, head, locators)
  {
    var need := Needed(|head|, 4, SwathTarget(head, locators));
    words := head;
    var i := 2;
    while |words| < 5 + 2 * locators + words[1]
      invariant 2 <= i <= 2 + need
      invariant words == head + QuadRun(pair, 2, i)
      decreases SwathTarget(head, locators) - |words|
    {
      NeededBound(|head|, 4, SwathTarget(head, locators), i - 2);
      QuadRunSnoc(pair, 2, i);
      words := words + Quad(pair(i));
      i := i + 1;
    }
    NeededBound(|head|, 4, SwathTarget(head, locators), i - 2);
  }

  /** A swath has at least as many words as its target, and fewer than four
      more: the loop stops at the first quad that reaches the target. */
  lemma SwathLayoutBLength(pair: nat -> (int, int), head: seq<int>, locators: int)
    requires |head| >= 2
    ensures var ws := SwathLayoutB(pair, head, locators);
            var t := SwathTarget(head, locators);
            && |ws| >= t
            && (|ws| > |head| ==> |ws| < t + 4)
            && |ws| % 4 == |head| % 4
  {
    var t := SwathTarget(head, locators);
    var k := Needed(|head|, 4, t);
    NeededBound(|head|, 4, t, k);
    if k > 0 {
      NeededBound(|head|, 4, t, k - 1);
    }
  }

  /** Where each word after the head comes from: the quad of group 2 + j. */
  lemma SwathLayoutBPlaces(pair: nat -> (int, int), head: seq<int>, locators: int)
    requires |head| >= 2
    ensures var ws := SwathLayoutB(pair, head, locators);
            && ws[..|head|] == head
            && forall j :: 0 <= j < (|ws| - |head|) / 4 ==>
                 ws[|head| + 4 * j..|head| + 4 * j + 4] == Quad(pair(2 + j))
  {
    var ws := SwathLayoutB(pair, head, locators);
    var n := |head|;
    var run := QuadRun(pair, 2, 2 + Needed(n, 4, SwathTarget(head, locators)));
    forall j | 0 <= j < (|ws| - n) / 4
      ensures ws[n + 4 * j..n + 4 * j + 4] == Quad(pair(2 + j))
    {
      var q := Quad(pair(2 + j));
      forall m | 0 <= m < 4
        ensures ws[n + 4 * j + m] == q[m]
      {
        assert ws[n + 4 * j + m] == run[4 * j + m];
        assert (4 * j + m) / 4 == j && (4 * j + m) % 4 == m;
      }
    }
  }

  /** The pair read from the i-th nine-byte group of a record or swath
      block, `bytes[9i:9i+9]`; a short group reads as two sentinels. */
  function RecordPair(bs: seq<Int8>, i: nat): (p: (int, int))
    ensures IsWord(p.0) && IsWord(p.1)
    ensures p == Split72(Slice(bs, 9 * i, 9 * i + 9))
  {
    var g := Slice(bs, 9 * i, 9 * i + 9);
    RecordCopyAgrees(g);
    ReadPairRecord(g)
  }

  function SwathPair(bs: seq<Int8>, i: nat): (p: (int, int))
    ensures IsWord(p.0) && IsWord(p.1)
    ensures p == Split72(Slice(bs, 9 * i, 9 * i + 9))
  {
    var g := Slice(bs, 9 * i, 9 * i + 9);
    SwathCopyAgrees(g);
    ReadPairSwath(g)
  }

  /** Quads and pair runs of words hold words. */
  lemma QuadsAreWords(pair: nat -> (int, int), lo: nat, hi: int)
    requires forall i :: IsWord(pair(i).0) && IsWord(pair(i).1)
    ensures forall k :: 0 <= k < |QuadRun(pair, lo, hi)| ==> IsWord(QuadRun(pair, lo, hi)[k])
    ensures forall k :: 0 <= k < |PairRun(pair, lo, hi)| ==> IsWord(PairRun(pair, lo, hi)[k])
  {
    forall k | 0 <= k < |QuadRun(pair, lo, hi)|
      ensures IsWord(QuadRun(pair, lo, hi)[k])
    {
      var p := pair(lo + k / 4);
      HalvesAreWords(p.0);
      HalvesAreWords(p.1);
    }
  }

  lemma QuadIsWords(p: (int, int))
    requires IsWord(p.0) && IsWord(p.1)
    ensures forall k :: 0 <= k < 4 ==> IsWord(Quad(p)[k])
  {
    HalvesAreWords(p.0);
    HalvesAreWords(p.1);
  }

  /** The data record's words and swath marker for a block. */
  function RecordWordsB(bs: seq<Int8>, locators: int): (r: (seq<int>, int))
    ensures |r.0| == 15 + 2 * (Max(locators, 0) / 2)
    ensures r.1 == 9 * (4 + Max(locators, 0) / 2)
    ensures forall k :: 0 <= k < |r.0| ==> IsWord(r.0[k])
  {
    var pair := (i: nat) => RecordPair(bs, i);
    RecordPairCount(locators);
    QuadsAreWords(pair, 0, 3);
    QuadsAreWords(pair, 4, 4 + Max(locators, 0) / 2);
    HalvesAreWords(pair(3).0);
    RecordLayoutB(pair, locators)
  }

  /** A swath loop run from word-valued groups after a word-valued head
      holds only word values or sentinels. */
  lemma LayoutWords(pair: nat -> (int, int), head: seq<int>, locators: int)
    requires |head| >= 2
    requires forall k :: 0 <= k < |head| ==> IsWord(head[k])
    requires forall i :: IsWord(pair(i).0) && IsWord(pair(i).1)
    ensures forall k :: 0 <= k < |SwathLayoutB(pair, head, locators)| ==> IsWord(SwathLayoutB(pair, head, locators)[k])
  {
    QuadsAreWords(pair, 2, 2 + Needed(|head|, 4, SwathTarget(head, locators)));
  }

  lemma Head2Words(pair: nat -> (int, int))
    requires forall i :: IsWord(pair(i).0) && IsWord(pair(i).1)
    ensures forall k :: 0 <= k < |SwathHead2(pair)| ==> IsWord(SwathHead2(pair)[k])
  {
    QuadIsWords(pair(0));
    HalvesAreWords(pair(1).1);
  }

  lemma Head3Words(pair: nat -> (int, int))
    requires forall i :: IsWord(pair(i).0) && IsWord(pair(i).1)
    ensures forall k :: 0 <= k < |SwathHead3(pair)| ==> IsWord(SwathHead3(pair)[k])
  {
    HalvesAreWords(pair(0).1);
    HalvesAreWords(pair(1).0);
  }

  /** `Swath_Data2`'s words for a swath block. */
  function Swath2Words(bs: seq<Int8>, locators: int): (ws: seq<int>)
    ensures |ws| >= 7
    ensures forall k :: 0 <= k < |ws| ==> IsWord(ws[k])
  {
    var pair := (i: nat) => SwathPair(bs, i);
    Head2Words(pair);
    LayoutWords(pair, SwathHead2(pair), locators);
    SwathLayoutB(pair, SwathHead2(pair), locators)
  }

  /** `np.delete(bytes, np.arange(len/2 - 4))`: the first len/2 - 4 bytes
      dropped, none when that count is not positive. */
  function SecondHalf(bs: seq<Int8>): (r: seq<Int8>)
    ensures |bs| >= 8 ==> |r| == |bs| - (|bs| / 2 - 4)
    ensures |bs| < 10 ==> r == bs
    ensures r == bs[|bs| - |r|..]
  {
    bs[Max(|bs| / 2 - 4, 0)..]
  }

  /** `Swath_Data3`'s words for a swath block: read from the block with its
      first len/2 - 4 bytes dropped. */
  function Swath3Words(bs: seq<Int8>, locators: int): (ws: seq<int>)
    ensures |ws| >= 5
    ensures forall k :: 0 <= k < |ws| ==> IsWord(ws[k])
  {
    var pair := (i: nat) => SwathPair(SecondHalf(bs), i);
    Head3Words(pair);
    LayoutWords(pair, SwathHead3(pair), locators);
    SwathLayoutB(pair, SwathHead3(pair), locators)
  }

  /** `Data_Rec2.set_swaths`: S/2 slices of B*9 bytes, each read once as
      each kind of swath. */
  function SwathSlicesB(bs: seq<Int8>, swaths: int, block: int): (r: seq<seq<Int8>>)
    ensures |r| == Max(swaths / 2, 0)
  {
    Windows(bs, swaths / 2, block * 9)
  }

  /** When the bytes suffice, the swath slices are consecutive and disjoint:
      B*9 bytes each, and together exactly the first (S/2)*B*9 bytes. */
  lemma SwathTilingB(bs: seq<Int8>, pairs: nat, block: nat)
    requires pairs * (block * 9) <= |bs|
    ensures forall i :: 0 <= i < pairs ==> |SwathSlicesB(bs, 2 * pairs, block)[i]| == block * 9
    ensures Flatten(SwathSlicesB(bs, 2 * pairs, block)) == bs[..pairs * (block * 9)]
  {
    assert (2 * pairs) / 2 == pairs;
    WindowsAll(bs, pairs, block * 9);
    WindowsTile(bs, pairs, block * 9);
  }
}

=== FILE: parity.dfy ===
/** Byte validity for the first tape generation. Each stored byte carries six
    data bits (0-5), a parity bit (6) and a check bit (7, the sign bit of the
    signed byte). A byte is good when its parity bit is as the parity rule
    requires and it is strictly positive. */
module Parity {
  import opened Common
  import opened Bits

  /** The number of set bits among bits 0 .. n-1 of b (two's complement). */
  function PopCount(b: int, n: nat): (r: nat)
    ensures r <= n
  {
    if n == 0 then 0 else PopCount(b, n - 1) + Bit(b, n - 1)
  }

  /** The parity rule as the decoder applies it: an even number of set data
      bits requires the parity bit to be set, an odd number requires it clear. */
  predicate ParityOk(b: int)
  {
    if PopCount(b, 6) % 2 == 0 then Bit(b, 6) != 0 else Bit(b, 6) == 0
  }

  /** The parity rule as the decoder's own documentation words it: an even
      number of set data bits requires the parity bit to be clear. */
  predicate DocumentedParityOk(b: int)
  {
    if PopCount(b, 6) % 2 == 0 then Bit(b, 6) == 0 else Bit(b, 6) != 0
  }

  /** The per-byte loop of the parity check: count the set data bits one at a
      time, then compare the parity bit with the count. */
  method ParityOf(b: Int8) returns (good: bool)
    ensures good <==> PopCount(b, 7) % 2 == 1
  {
    var bits := 0;
    var bit := 0;
    while bit < 6
      invariant 0 <= bit <= 6
      invariant bits == PopCount(b, bit)
    {
      if Bit(b, bit) != 0 {
        bits := bits + 1;
      }
      bit := bit + 1;
    }
    good := true;
    if bits % 2 == 0 {
      if Bit(b, 6) == 0 {
        good := false;
      }
    } else {
      if Bit(b, 6) != 0 {
        good := false;
      }
    }
    OddSeven(b);
  }

  /** The parity check over a whole block, one flag per byte. */
  method ParityAll(bs: seq<Int8>) returns (flags: seq<bool>)
    ensures |flags| == |bs|
    ensures forall i :: 0 <= i < |bs| ==> (flags[i] <==> PopCount(bs[i], 7) % 2 == 1)
  {
    flags := [];
    var i := 0;
    while i < |bs|
      invariant 0 <= i <= |bs|
      invariant |flags| == i
      invariant forall k :: 0 <= k < i ==> (flags[k] <==> PopCount(bs[k], 7) % 2 == 1)
    {
      var good := ParityOf(bs[i]);
      flags := flags + [good];
      i := i + 1;
    }
  }

  /** As coded, a byte passes parity exactly when its low seven bits hold an
      odd number of set bits. */
  lemma OddSeven(b: int)
    ensures ParityOk(b) <==> PopCount(b, 7) % 2 == 1
  {
    assert PopCount(b, 7) == PopCount(b, 6) + Bit(b, 6);
  }

  /** The coded rule is the exact negation of the documented one. */
  lemma CodeContradictsDocs(b: int)
    ensures ParityOk(b) <==> !DocumentedParityOk(b)
  {
  }

  /** The check the decoder attaches to every byte of the first generation. */
  predicate Good(b: Int8)
  {
    b > 0 && ParityOk(b)
  }

  lemma PopCountZero(n: nat)
    ensures PopCount(0, n) == 0
  {
    if n > 0 {
      PopCountZero(n - 1);
    }
  }

  /** Zero always fails parity, so the `> 0` gate only adds the sign bit. */
  lemma {:induction false} GoodIsParityAndSign(b: Int8)
    ensures Good(b) <==> ParityOk(b) && b >= 0
  {
    if b == 0 {
      PopCountZero(6);
      assert Bit(0, 6) == 0;
    }
  }

  /** The six data bits of a byte: `b & 0b111111`. */
  function Low6(b: int): (r: int)
    ensures 0 <= r < 64
  {
    b % 64
  }

  /** The six data bits of x, counted one by one. */
  function SixBits(x: int): (r: int)
  {
    x % 2 + (x / 2) % 2 + (x / 4) % 2 + (x / 8) % 2 + (x / 16) % 2 + (x / 32) % 2
  }

  lemma {:induction false} PopSix(x: int)
    ensures PopCount(x, 6) == SixBits(x)
  {
    assert Pow(2, 0) == 1 && Pow(2, 1) == 2 && Pow(2, 2) == 4;
    assert Pow(2, 3) == 8 && Pow(2, 4) == 16 && Pow(2, 5) == 32;
    assert PopCount(x, 1) == x % 2;
    assert PopCount(x, 2) == PopCount(x, 1) + (x / 2) % 2;
    assert PopCount(x, 3) == PopCount(x, 2) + (x / 4) % 2;
    assert PopCount(x, 4) == PopCount(x, 3) + (x / 8) % 2;
    assert PopCount(x, 5) == PopCount(x, 4) + (x / 16) % 2;
    assert PopCount(x, 6) == PopCount(x, 5) + (x / 32) % 2;
  }

  /** Bit k of x + 64m is bit k of x, for each data bit k (d = 2^k). */
  lemma BitStable(x: int, m: int, d: int)
    requires d > 0 && 64 % d == 0 && (64 / d) % 2 == 0
    ensures ((x + 64 * m) / d) % 2 == (x / d) % 2
  {
    var c := 64 / d;
    var q := x / d;
    assert 64 == c * d;
    DivMod(x, d);
    assert x + 64 * m == (q + c * m) * d + x % d;
    DivModOf(x + 64 * m, d, q + c * m, x % d);
    DivMod(q, 2);
    assert q + c * m == (q / 2 + (c / 2) * m) * 2 + q % 2;
    DivModOf(q + c * m, 2, q / 2 + (c / 2) * m, q % 2);
  }

  lemma SixBitsStable(x: int, m: int)
    ensures SixBits(x + 64 * m) == SixBits(x)
  {
    BitStable(x, m, 1);
    BitStable(x, m, 2);
    BitStable(x, m, 4);
    BitStable(x, m, 8);
    BitStable(x, m, 16);
    BitStable(x, m, 32);
  }

  /** Adding a multiple of 64 leaves the six data bits alone. */
  lemma DataBits(x: int, m: int)
    ensures PopCount(x + 64 * m, 6) == PopCount(x, 6)
  {
    PopSix(x);
    PopSix(x + 64 * m);
    SixBitsStable(x, m);
  }

  /** Bit 6 of x + 64 flips, and bit 6 of x - 64 flips too. */
  lemma FlipSix(x: int, d: int)
    requires d == 64 || d == -64
    ensures Bit(x + d, 6) == 1 - Bit(x, 6)
  {
    assert Pow(2, 6) == 64 by {
      assert Pow(2, 3) == 8;
    }
    assert (x + d) / 64 == x / 64 + d / 64;
  }

  lemma SixtyFour()
    ensures Pow(2, 6) == 64
  {
    assert Pow(2, 3) == 8;
  }

  /** Adding or removing the parity bit's weight flips the parity verdict and
      keeps the data bits. */
  lemma FlipVerdict(x: int, d: int)
    requires d == 64 || d == -64
    ensures ParityOk(x + d) <==> !ParityOk(x)
    ensures Low6(x + d) == Low6(x)
  {
    var m := if d == 64 then 1 else -1;
    assert x + 64 * m == x + d;
    Low6Shift(x, m);
    DataBits(x, m);
    FlipSix(x, d);
    var p := PopCount(x, 6);
    assert PopCount(x + d, 6) == p;
    assert Bit(x + d, 6) == 1 - Bit(x, 6);
  }

  lemma Low6Shift(x: int, m: int)
    ensures Low6(x + 64 * m) == Low6(x)
  {
    DivMod(x, 64);
    DivModOf(x + 64 * m, 64, x / 64 + m, x % 64);
  }

  /** Flipping the parity bit flips the verdict of the parity check. */
  function FlipParity(b: Int8): (r: Int8)
    ensures ParityOk(r) <==> !ParityOk(b)
    ensures Low6(r) == Low6(b)
  {
    SixtyFour();
    var d := if Bit(b, 6) == 1 then -64 else 64;
    FlipVerdict(b, d);
    b + d
  }

  /** The byte the recorder writes for six data bits: the bits themselves,
      the parity bit that makes the low seven bits odd, and a clear check bit. */
  function EncodeChunk(c: int): (b: Int8)
    requires 0 <= c < 64
    ensures Good(b)
    ensures Low6(b) == c
  {
    ChunkParity(c);
    if PopCount(c, 6) % 2 == 0 then c + 64 else c
  }

  lemma ChunkParity(c: int)
    requires 0 <= c < 64
    ensures !ParityOk(c) <==> PopCount(c, 6) % 2 == 0
    ensures ParityOk(c + 64) <==> PopCount(c, 6) % 2 == 0
    ensures PopCount(c, 6) % 2 == 1 ==> c > 0
    ensures Low6(c + 64) == c && Low6(c) == c
  {
    PopCountZero(6);
    SixtyFour();
    assert Bit(c, 6) == 0;
    FlipVerdict(c, 64);
  }

  /** A byte of the first generation together with its goodness. */
  datatype Tagged = Tagged(value: Int8, good: bool)

  /** `zip(bytes, (bytes > 0) & parity(bytes))`. */
  function ZipGoodness(bs: seq<Int8>): (ts: seq<Tagged>)
    ensures |ts| == |bs|
    ensures forall i :: 0 <= i < |bs| ==> ts[i].value == bs[i]
    ensures forall i :: 0 <= i < |bs| ==> ts[i].good == Good(bs[i])
    ensures forall i :: 0 <= i < |bs| ==> (ts[i].good <==> bs[i] >= 0 && PopCount(bs[i], 7) % 2 == 1)
  {
    if bs == [] then []
    else
      GoodIsParityAndSign(bs[0]);
      OddSeven(bs[0]);
      [Tagged(bs[0], Good(bs[0]))] + ZipGoodness(bs[1..])
  }
}

=== FILE: pyseq.dfy ===
/** Python's sequence indexing and slicing rules, which the decoder relies on
    when it cuts byte blocks and word lists: negative positions count from the
    end, and slice bounds are clamped to the sequence instead of failing. */
module PySeq {
  import opened Common
  import opened Bits

  /** A slice bound as Python resolves it against a sequence of length n. */
  function ClampBound(i: int, n: nat): (r: nat)
    ensures r <= n
    ensures 0 <= i <= n ==> r == i
    ensures i > n ==> r == n
    ensures i < 0 ==> r == Max(i + n, 0)
  {
    if i < 0 then (if i + n < 0 then 0 else i + n)
    else if i > n then n
    else i
  }

  /** `s[lo:hi]` with Python's rules. */
  function Slice<T>(s: seq<T>, lo: int, hi: int): (r: seq<T>)
    ensures 0 <= lo <= hi <= |s| ==> r == s[lo..hi]
    ensures |r| <= |s|
    ensures 0 <= lo && hi >= |s| ==> r == s[ClampBound(lo, |s|)..]
  {
    var a := ClampBound(lo, |s|);
    var b := ClampBound(hi, |s|);
    if a < b then s[a..b] else []
  }

  /** `s[lo:hi:2]` with Python's rules: every other element of the slice,
      starting with its first. */
  function Slice2<T>(s: seq<T>, lo: int, hi: int): (r: seq<T>)
    ensures |r| == (|Slice(s, lo, hi)| + 1) / 2
    ensures forall k :: 0 <= k < |r| ==> r[k] == Slice(s, lo, hi)[2 * k]
  {
    EveryOther(Slice(s, lo, hi))
  }

  function EveryOther<T>(s: seq<T>): (r: seq<T>)
    ensures |r| == (|s| + 1) / 2
    ensures forall k :: 0 <= k < |r| ==> r[k] == s[2 * k]
  {
    if |s| <= 1 then s else [s[0]] + EveryOther(s[2..])
  }

  /** `s[i]` with Python's rules: a negative index counts from the end, and
      an index outside the sequence either way is an IndexError (`None`). */
  function Get<T>(s: seq<T>, i: int): (r: Option<T>)
    ensures 0 <= i < |s| ==> r == Some(s[i])
    ensures r.Some? <==> -|s| <= i < |s|
  {
    if 0 <= i < |s| then Some(s[i])
    else if -|s| <= i < 0 then Some(s[|s| + i])
    else None
  }

  /** numpy's `a[idx]` for an index array: every index resolved by `Get`,
      failing as a whole if any index fails. */
  function Gather<T>(s: seq<T>, idx: seq<int>): (r: Option<seq<T>>)
    ensures (forall k :: 0 <= k < |idx| ==> 0 <= idx[k] < |s|) ==>
              r.Some? && |r.value| == |idx| &&
              forall k :: 0 <= k < |idx| ==> r.value[k] == s[idx[k]]
    ensures r.Some? ==> |r.value| == |idx|
  {
    if idx == [] then Some([])
    else
      match Get(s, idx[0])
      case None => None
      case Some(x) =>
        match Gather(s, idx[1..])
        case None => None
        case Some(rest) => Some([x] + rest)
  }

  /** The concatenation of a sequence of sequences, in order. */
  function Flatten<T>(xs: seq<seq<T>>): (r: seq<T>)
  {
    if xs == [] then [] else Flatten(xs[..|xs| - 1]) + xs[|xs| - 1]
  }

  lemma {:induction false} FlattenLength<T>(xs: seq<seq<T>>, n: nat)
    requires forall k :: 0 <= k < |xs| ==> |xs[k]| == n
    ensures |Flatten(xs)| == n * |xs|
    decreases |xs|
  {
    if xs != [] {
      FlattenLength(xs[..|xs| - 1], n);
      assert n * |xs| == n * (|xs| - 1) + n;
    }
  }

  /** When every part has length n, part i sits at positions n*i .. n*i+n. */
  lemma {:induction false} FlattenPart<T>(xs: seq<seq<T>>, n: nat, i: nat)
    requires forall k :: 0 <= k < |xs| ==> |xs[k]| == n
    requires i < |xs|
    ensures |Flatten(xs)| == n * |xs|
    ensures n * i + n <= n * |xs|
    ensures Flatten(xs)[n * i..n * i + n] == xs[i]
    decreases |xs|
  {
    FlattenLength(xs, n);
    StepBelow(n, i, |xs|);
    var init := xs[..|xs| - 1];
    var last := xs[|xs| - 1];
    var f := Flatten(init);
    FlattenLength(init, n);
    assert Flatten(xs) == f + last;
    if i < |xs| - 1 {
      FlattenPart(init, n, i);
      ConcatLeft(f, last, n * i, n * i + n);
    } else {
      assert n * i == |f|;
      ConcatRight(f, last);
    }
  }

  lemma StepBelow(n: nat, i: nat, m: nat)
    requires i < m
    ensures n * i + n <= n * m
  {
    MulLe(i + 1, m, n);
  }

  lemma ConcatLeft<T>(a: seq<T>, b: seq<T>, lo: nat, hi: nat)
    requires lo <= hi <= |a|
    ensures (a + b)[lo..hi] == a[lo..hi]
  {
  }

  lemma ConcatRight<T>(a: seq<T>, b: seq<T>)
    ensures (a + b)[|a|..|a| + |b|] == b
  {
  }

  lemma TakeSplit<T>(s: seq<T>, a: nat, b: nat)
    requires a <= b <= |s|
    ensures s[..b] == s[..a] + s[a..b]
  {
  }

  /** Window i of s is `s[i*w : i*w + w]` with Python's slice rules, for
      windows 0 .. count-1. */
  function Windows<T>(s: seq<T>, count: int, w: int): (r: seq<seq<T>>)
    ensures |r| == Max(count, 0)
  {
    seq(Max(count, 0), i requires 0 <= i < Max(count, 0) => Slice(s, i * w, i * w + w))
  }

  lemma WindowAt<T>(s: seq<T>, count: nat, w: nat, i: nat)
    requires count * w <= |s| && i < count
    ensures 0 <= i * w <= (i + 1) * w <= |s|
    ensures Windows(s, count, w)[i] == s[i * w..(i + 1) * w]
    ensures |Windows(s, count, w)[i]| == w
  {
    var a := i * w;
    MulNonneg(i, w);
    MulLe(i + 1, count, w);
    assert (i + 1) * w == a + w;
    assert Windows(s, count, w)[i] == Slice(s, a, a + w);
  }

  lemma WindowsAll<T>(s: seq<T>, count: nat, w: nat)
    requires count * w <= |s|
    ensures forall i {:trigger Windows(s, count, w)[i]} :: 0 <= i < count ==>
              0 <= i * w <= (i + 1) * w <= |s| &&
              Windows(s, count, w)[i] == s[i * w..(i + 1) * w] &&
              |Windows(s, count, w)[i]| == w
  {
    forall i {:trigger Windows(s, count, w)[i]} | 0 <= i < count
      ensures 0 <= i * w <= (i + 1) * w <= |s|
      ensures Windows(s, count, w)[i] == s[i * w..(i + 1) * w]
      ensures |Windows(s, count, w)[i]| == w
    {
      WindowAt(s, count, w, i);
    }
  }

  /** When s is long enough, the windows are consecutive and disjoint:
      together they are exactly its first count*w elements. */
  lemma {:induction false} WindowsTile<T>(s: seq<T>, count: nat, w: nat)
    requires count * w <= |s|
    ensures Flatten(Windows(s, count, w)) == s[..count * w]
  {
    if count > 0 {
      var n := count - 1;
      var a, b := n * w, count * w;
      assert a + w == b;
      var ws := Windows(s, count, w);
      assert ws[..n] == Windows(s, n, w);
      WindowsTile(s, n, w);
      WindowAt(s, count, w, n);
      TakeSplit(s, a, b);
    }
  }
}

=== FILE: records.dfy ===
/** The fields of the three record kinds read from their words: the orbit
    document, the data record and the swath. Scaled fields keep the sentinel;
    range-checked fields turn out-of-range values into the sentinel; the
    nadir angles carry their sign in bit 35; the flag word loses four unused
    bits; and a swath whose population is not a usable count is filled. */
module Records {
  import opened Common
  import opened Bits
  import opened PySeq
  import opened Interp

  /** A raw word divided by its scale factor (`w / 512.` and the like), the
      sentinel left as it is. For a word value the result is the sentinel
      exactly when the word is, and multiplying back gives the word. */
  function Scale(w: int, factor: nat): (r: real)
    requires factor > 0
    ensures w == Missing ==> r == MissingReal
    ensures IsWord(w) ==> (r == MissingReal <==> w == Missing)
    ensures IsWord(w) && w != Missing ==> r >= 0.0 && r * (factor as real) == w as real
  {
    if w != Missing then
      DivBack(w as real, factor as real);
      (w as real) / (factor as real)
    else MissingReal
  }

  lemma DivBack(x: real, f: real)
    requires f > 0.0
    ensures (x / f) * f == x
    ensures x >= 0.0 ==> x / f >= 0.0
  {
  }

  // ---------------------------------------------------------------------
  // Dates

  /** Days from 0001-01-01 to January 1st of year y in the proleptic
      Gregorian calendar, as the `datetime` module counts them. */
  function DaysBeforeYear(y: int): int
  {
    var p := y - 1;
    365 * p + p / 4 - p / 100 + p / 400
  }

  /** Days from 0001-01-01 to 1970-01-01. */
  const EpochDays: int := 719162

  predicate Leap(y: int)
  {
    y % 4 == 0 && (y % 100 != 0 || y % 400 == 0)
  }

  /** Consecutive year starts lie 366 days apart in a leap year and 365 days
      apart otherwise, and the epoch is 1970-01-01. */
  lemma YearLength(y: int)
    ensures DaysBeforeYear(y + 1) - DaysBeforeYear(y) == if Leap(y) then 366 else 365
    ensures DaysBeforeYear(1970) == EpochDays
  {
    StepDiv(y - 1, 4);
    StepDiv(y - 1, 100);
    StepDiv(y - 1, 400);
    ModFactor(y, 4, 25);
    ModFactor(y, 100, 4);
  }

  /** The quotient by d goes up by one exactly when the next number is a
      multiple of d. */
  lemma StepDiv(p: int, d: int)
    requires d > 0
    ensures (p + 1) / d - p / d == if (p + 1) % d == 0 then 1 else 0
  {
    DivMod(p, d);
    var q, r := p / d, p % d;
    if r == d - 1 {
      DivModOf(p + 1, d, q + 1, 0);
    } else {
      DivModOf(p + 1, d, q, r + 1);
    }
  }

  lemma ModFactor(y: int, a: int, b: int)
    requires a > 0 && b > 0
    ensures y % (a * b) == 0 ==> y % a == 0
  {
    if y % (a * b) == 0 {
      var q := y / (a * b);
      DivMod(y, a * b);
      assert y == (q * b) * a;
      DivModOf(y, a, q * b, 0);
    }
  }

  /** A start or end time as the orbit document builds it: the fallback
      tuple `(1970, 01, 01)` when a field is the sentinel, or a datetime,
      here in seconds since 1970-01-01. */
  datatype Stamp = Fallback | At(seconds: int)

  /** 0001-01-01 00:00:00 and 9999-12-31 23:59:59, the range of a datetime. */
  const FirstSecond: int := -EpochDays * 86400
  const LastSecond: int := (3652059 - EpochDays) * 86400 - 1

  /** Day nday of year (day 1 being January 1st) at h:m:s, in seconds since
      1970-01-01, every field free to run over into the next as a timedelta
      does. */
  function Seconds(year: int, nday: int, h: int, m: int, s: int): int
  {
    86400 * (DaysBeforeYear(year) - EpochDays + nday - 1) + 3600 * h + 60 * m + s
  }

  /** `make_start_datetime` / `make_end_datetime`: January 1st of the year
      plus a timedelta of nday - 1 days, h hours, m minutes and s seconds. A
      year or a result outside the datetime range raises. */
  function MakeStamp(year: int, nday: int, h: int, m: int, s: int): (r: Result<Stamp>)
    ensures r == Ok(Fallback) <==> nday == Missing || h == Missing || m == Missing || s == Missing
    ensures r.Ok? && r.value.At? ==> FirstSecond <= r.value.seconds <= LastSecond
    ensures r.Ok? && r.value.At? ==> r.value.seconds == Seconds(year, nday, h, m, s)
    ensures r.Err? ==> r.error == DateRange
    ensures nday != Missing && h != Missing && m != Missing && s != Missing && 1 <= year <= 9999 ==>
              FirstSecond <= Seconds(year, nday, h, m, s) <= LastSecond ==> r == Ok(At(Seconds(year, nday, h, m, s)))
    ensures nday != Missing && h != Missing && m != Missing && s != Missing ==>
              (r.Err? <==> !(1 <= year <= 9999) || !(FirstSecond <= Seconds(year, nday, h, m, s) <= LastSecond))
  {
    if nday == Missing || h == Missing || m == Missing || s == Missing then Ok(Fallback)
    else if !(1 <= year <= 9999) then Err(DateRange)
    else
      var t := Seconds(year, nday, h, m, s);
      if FirstSecond <= t <= LastSecond then Ok(At(t)) else Err(DateRange)
  }

  /** A stamp built from in-range fields gives them back: its day count from
      0001-01-01 is the year's first day plus nday - 1, and its time of day is
      h:m:s. */
  lemma StampFields(year: int, nday: int, h: int, m: int, s: int, t: int)
    requires 0 <= h < 24 && 0 <= m < 60 && 0 <= s < 60
    requires MakeStamp(year, nday, h, m, s) == Ok(At(t))
    ensures (t + 86400 * EpochDays) / 86400 == DaysBeforeYear(year) + nday - 1
    ensures (t + 86400 * EpochDays) % 86400 == 3600 * h + 60 * m + s
  {
    DivModOf(t + 86400 * EpochDays, 86400, DaysBeforeYear(year) + nday - 1, 3600 * h + 60 * m + s);
  }

  // ---------------------------------------------------------------------
  // Orbit document

  datatype OrbitDoc = OrbitDoc(
    dref: int,
    ndayStart: int, startHour: int, startMinute: int, startSecond: int, start: int,
    ndayEnd: int, endHour: int, endMinute: int, endSecond: int, end: int,
    mirrorRot: real, sampleFreq: int, orbitNo: int, stationCode: int,
    swathBlock: int, swathsPerRec: int, locatorNo: int,
    totalTime: int)

  /** `Orbit_Doc.__init__` from its words, in the order it reads them: a
      word list too short for the next field read is an IndexError, a date
      out of range raises while the stamp is built, and a fallback stamp
      makes the total time a tuple subtraction, which raises. */
  function ParseOrbitDoc(words: seq<int>, year: int): (r: Result<OrbitDoc>)
    ensures |words| < 6 ==> r == Err(ShortOrbitDoc)
    ensures r.Ok? ==> |words| >= 17
    ensures r.Ok? ==> r.value.start == Seconds(year, words[2], words[3], words[4], words[5])
    ensures r.Ok? ==> r.value.end == Seconds(year, words[6], words[7], words[8], words[9])
    ensures r.Ok? ==> r.value.mirrorRot == Scale(words[10], 512) && r.value.locatorNo == words[16]
    ensures r == Err(StampArithmetic) ==> exists k :: 2 <= k < 10 && k < |words| && words[k] == Missing
    ensures r.Ok? ==> forall k :: 2 <= k < 10 ==> words[k] != Missing
    ensures r.Err? ==> r.error in {ShortOrbitDoc, DateRange, StampArithmetic}
  {
    if |words| < 6 then Err(ShortOrbitDoc)
    else
      var start :- MakeStamp(year, words[2], words[3], words[4], words[5]);
      if |words| < 10 then Err(ShortOrbitDoc)
      else
        var end :- MakeStamp(year, words[6], words[7], words[8], words[9]);
        if |words| < 17 then Err(ShortOrbitDoc)
        else if start.Fallback? || end.Fallback? then
          assert words[2] == Missing || words[3] == Missing || words[4] == Missing || words[5] == Missing ||
                 words[6] == Missing || words[7] == Missing || words[8] == Missing || words[9] == Missing;
          Err(StampArithmetic)
        else
          Ok(OrbitDoc(
            words[0],
            words[2], words[3], words[4], words[5], start.seconds,
            words[6], words[7], words[8], words[9], end.seconds,
            Scale(words[10], 512), words[11], words[12], words[13],
            words[14], words[15], words[16],
            end.seconds - start.seconds))
  }

  /** The total time depends on the day and clock fields only, not on the
      year the file name supplies. */
  lemma TotalTimeSpan(words: seq<int>, year: int)
    requires ParseOrbitDoc(words, year).Ok?
    ensures var od := ParseOrbitDoc(words, year).value;
            od.totalTime == 86400 * (od.ndayEnd - od.ndayStart) + 3600 * (od.endHour - od.startHour)
                            + 60 * (od.endMinute - od.startMinute) + (od.endSecond - od.startSecond)
  {
  }

  // ---------------------------------------------------------------------
  // Data record

  /** 2^35, the sign bit of a nadir-angle word. */
  const NadirSignBit: int := 0x8_0000_0000

  /** `np.int32(w)`: w truncated to its low 32 bits, read as signed. */
  function Int32Of(w: int): (r: int)
    ensures -0x8000_0000 <= r < 0x8000_0000
    ensures -0x8000_0000 <= w < 0x8000_0000 ==> r == w
  {
    if -0x8000_0000 <= w < 0x8000_0000 then w
    else (w + 0x8000_0000) % 0x1_0000_0000 - 0x8000_0000
  }

  /** The nadir angle in 64ths of a degree as `set_nadir_angles` stores it:
      the truncated word, negated when bit 35 is set, and -64*999 for the
      sentinel or a magnitude beyond 4000. */
  function NadirRaw(w: int): (n: int)
    ensures -4000 <= n <= 4000 || n == -64 * 999
  {
    if w != Missing then
      var sign := if (w / NadirSignBit) % 2 == 1 then -1 else 1;
      var m := Int32Of(w) * sign;
      if m > 4000 || m < -4000 then -64 * 999 else m
    else -64 * 999
  }

  /** A nadir angle in degrees: within 62.5 degrees either side of nadir, or
      the sentinel exactly when the word is the sentinel or out of bounds. */
  function Nadir(w: int): (r: real)
    ensures r == MissingReal || -62.5 <= r <= 62.5
    ensures r == MissingReal <==> w == Missing || Int32Of(w) > 4000 || Int32Of(w) < -4000
  {
    NadirRaw(w) as real / 64.0
  }

  function Nadirs(ws: seq<int>): (r: seq<real>)
    ensures |r| == |ws|
    ensures forall k :: 0 <= k < |ws| ==> r[k] == Nadir(ws[k])
  {
    seq(|ws|, k requires 0 <= k < |ws| => Nadir(ws[k]))
  }

  /** The word the recorder writes for an angle of a/64 degrees: the
      magnitude, with bit 35 set for a negative angle. */
  function NadirWord(a: int): (w: int)
    requires -4000 <= a <= 4000
    ensures IsWord(w) && w != Missing
  {
    if a < 0 then NadirSignBit - a else a
  }

  /** Every angle the recorder can write reads back. */
  lemma NadirRoundTrip(a: int)
    requires -4000 <= a <= 4000
    ensures Nadir(NadirWord(a)) == a as real / 64.0
  {
    var w := NadirWord(a);
    if a < 0 {
      DivModOf(w, NadirSignBit, 1, -a);
      DivModOf(w + 0x8000_0000, 0x1_0000_0000, 8, 0x8000_0000 - a);
      assert Int32Of(w) == -a;
    } else {
      DivModOf(w, NadirSignBit, 0, a);
    }
  }

  datatype DataRec = DataRec(
    nday: int, hour: int, minute: int, second: int,
    rollError: real, pitchError: real, yawError: real,
    height: int, cellTemp: int, electroTemp: int,
    refA: int, refB: int, refC: int, refD: int,
    nadirs: seq<real>, swaths: seq<Swath>)

  /** `Data_Rec.__init__` from the record's words and its decoded swaths:
      the attitude errors are in eighths of a degree, and every word from 14
      on is a nadir angle. */
  function RecordOf(words: seq<int>, swaths: seq<Swath>): (r: DataRec)
    requires |words| >= 14
    ensures |r.nadirs| == |words| - 14
    ensures forall k :: 0 <= k < |r.nadirs| ==> r.nadirs[k] == Nadir(words[14 + k])
    ensures r.rollError == Scale(words[4], 8) && r.pitchError == Scale(words[5], 8) && r.yawError == Scale(words[6], 8)
    ensures r.swaths == swaths
  {
    DataRec(words[0], words[1], words[2], words[3],
            Scale(words[4], 8), Scale(words[5], 8), Scale(words[6], 8),
            words[7], words[8], words[9], words[10], words[11], words[12], words[13],
            Nadirs(words[14..]), swaths)
  }

  // ---------------------------------------------------------------------
  // Swath

  /** The bit numbers of the nine flags kept, in order. */
  const FlagBits: seq<nat> := [0, 1, 2, 3, 4, 5, 7, 8, 11]

  /** The thirteen flags before the unused ones are deleted. */
  function RawFlags(number: int): (fs: seq<int>)
    ensures |fs| == 13
  {
    seq(13, i requires 0 <= i < 13 => if number == Missing then Missing else if Bit(number, i) == 1 then 1 else 0)
  }

  /** Python's `del s[i]`. */
  function Delete(s: seq<int>, i: nat): (r: seq<int>)
    requires i < |s|
    ensures |r| == |s| - 1
    ensures forall k :: 0 <= k < i ==> r[k] == s[k]
    ensures forall k :: i <= k < |r| ==> r[k] == s[k + 1]
  {
    s[..i] + s[i + 1..]
  }

  /** `get_flags`: the thirteen flags with entries 12, 10, 9 and 6 deleted. */
  function Flags(number: int): (fs: seq<int>)
    ensures |fs| == 9
    ensures forall k :: 0 <= k < 9 ==> fs[k] == RawFlags(number)[FlagBits[k]]
  {
    Delete(Delete(Delete(Delete(RawFlags(number), 12), 10), 9), 6)
  }

  /** Flag k is bit `FlagBits[k]` of the word, or the sentinel for a
      sentinel word. */
  lemma FlagsMeaning(number: int)
    ensures number == Missing ==> forall k :: 0 <= k < 9 ==> Flags(number)[k] == Missing
    ensures number != Missing ==> forall k :: 0 <= k < 9 ==> Flags(number)[k] == Bit(number, FlagBits[k])
  {
  }

  /** An anchor latitude in degrees: kept when it scales into [0, 180],
      the sentinel otherwise. */
  function AnchorLat(w: int): (r: real)
    ensures r == MissingReal || 0.0 <= r <= 180.0
    ensures r != MissingReal <==> w != Missing && 0 <= w <= 180 * 64
    ensures r != MissingReal ==> r * 64.0 == w as real
  {
    if w != Missing then
      var r := w as real / 64.0;
      if r > 180.0 || r < 0.0 then MissingReal else r
    else MissingReal
  }

  /** An anchor longitude in degrees: kept when it scales into [0, 360],
      the sentinel otherwise. */
  function AnchorLon(w: int): (r: real)
    ensures r == MissingReal || 0.0 <= r <= 360.0
    ensures r != MissingReal <==> w != Missing && 0 <= w <= 360 * 64
    ensures r != MissingReal ==> r * 64.0 == w as real
  {
    if w != Missing then
      var r := w as real / 64.0;
      if r > 360.0 || r < 0.0 then MissingReal else r
    else w as real
  }

  /** A brightness sample: kept when it scales into [0, 400], the sentinel
      otherwise. */
  function Sample(w: int): (r: real)
    ensures r == MissingReal || 0.0 <= r <= 400.0
    ensures r != MissingReal <==> w != Missing && 0 <= w <= 400 * 8
    ensures r != MissingReal ==> r * 8.0 == w as real
  {
    if w != Missing then
      var r := w as real / 8.0;
      if r > 400.0 || r < 0.0 then MissingReal else r
    else MissingReal
  }

  function AnchorLats(ws: seq<int>): (r: seq<real>)
    ensures |r| == |ws|
    ensures forall k :: 0 <= k < |ws| ==> r[k] == AnchorLat(ws[k])
  {
    seq(|ws|, k requires 0 <= k < |ws| => AnchorLat(ws[k]))
  }

  function AnchorLons(ws: seq<int>): (r: seq<real>)
    ensures |r| == |ws|
    ensures forall k :: 0 <= k < |ws| ==> r[k] == AnchorLon(ws[k])
  {
    seq(|ws|, k requires 0 <= k < |ws| => AnchorLon(ws[k]))
  }

  /** `get_data`: exactly `pop` samples from the front of the words, none
      when fewer words than that remain, and a negative population is an
      array of negative size. */
  function GetData(words: seq<int>, pop: int): (r: Result<seq<real>>)
    ensures |words| < pop ==> r == Ok([])
    ensures pop < 0 ==> r == Err(NegativeDimension)
    ensures 0 <= pop <= |words| ==> r.Ok? && |r.value| == pop
    ensures 0 <= pop <= |words| ==> forall k :: 0 <= k < pop ==> r.value[k] == Sample(words[k])
  {
    if |words| < pop then Ok([])
    else if pop < 0 then Err(NegativeDimension)
    else Ok(seq(pop, k requires 0 <= k < pop => Sample(words[k])))
  }

  datatype Swath = Swath(
    seconds: real, dataPop: int, subsatLat: real, subsatLon: real,
    flags: seq<int>, anchorLats: seq<real>, anchorLons: seq<real>,
    data: seq<real>, fullLats: seq<real>, fullLons: seq<real>)

  /** The fill test as written: the swath is decoded when its population is
      nonzero and below 600, so a negative population is decoded too. */
  predicate FilledAsWritten(pop: int)
  {
    !(pop != 0 && pop < 600)
  }

  /** The fill test as intended: the swath is decoded only when its
      population is a count from 1 to 599. */
  predicate Filled(pop: int)
  {
    !(0 < pop < 600)
  }

  /** The two tests part only on negative populations. */
  lemma FillTestsDiffer(pop: int)
    ensures FilledAsWritten(pop) != Filled(pop) <==> pop < 0
  {
  }

  /** A filled swath: no samples and a sentinel everywhere else, with one
      anchor per locator (an array of that size, so a negative count
      raises). */
  function FilledSwath(locators: int): (r: Result<Swath>)
    ensures locators < 0 <==> r == Err(NegativeDimension)
    ensures r.Ok? ==> r.value.dataPop == 0 && r.value.seconds == MissingReal && r.value.data == []
    ensures r.Ok? ==> r.value.subsatLat == MissingReal && r.value.subsatLon == MissingReal
    ensures r.Ok? ==> |r.value.flags| == 9 && forall k :: 0 <= k < 9 ==> r.value.flags[k] == Missing
    ensures r.Ok? ==> |r.value.anchorLats| == locators && |r.value.anchorLons| == locators
    ensures r.Ok? ==> forall k :: 0 <= k < locators ==> r.value.anchorLats[k] == MissingReal && r.value.anchorLons[k] == MissingReal
    ensures r.Ok? ==> r.value.fullLats == [] && r.value.fullLons == []
  {
    if locators < 0 then Err(NegativeDimension)
    else
      var none := seq(locators, _ => MissingReal);
      Ok(Swath(MissingReal, 0, MissingReal, MissingReal, seq(9, _ => Missing), none, none, [], [], []))
  }

  /** The decoding branch of `Swath_Data.__init__`: seconds in 512ths,
      subsatellite point in 64ths of a degree, the flag word, the anchor
      latitudes and longitudes interleaved from word 5 on, the samples after
      them, and the interpolated coordinates. */
  function DecodedSwath(words: seq<int>, locators: int, nads: seq<real>): (r: Result<Swath>)
    requires |words| >= 5
    ensures r.Ok? ==> r.value.dataPop == words[1]
    ensures r.Ok? ==> |r.value.flags| == 9 && r.value.flags == Flags(words[4])
    ensures r.Ok? ==> |r.value.fullLats| == words[1] && |r.value.fullLons| == words[1]
    ensures r.Ok? ==> r.value.data == [] || |r.value.data| == words[1]
    ensures r.Ok? ==> r.value.seconds == Scale(words[0], 512)
    ensures r.Ok? ==> r.value.subsatLat == Scale(words[2], 64) && r.value.subsatLon == Scale(words[3], 64)
    ensures r.Ok? ==> Ok(r.value.data) == GetData(Slice(words, 5 + 2 * locators, |words|), words[1])
    ensures r.Ok? ==> r.value.anchorLats == AnchorLats(Slice2(words, 5, 5 + 2 * locators)) &&
                      r.value.anchorLons == AnchorLons(Slice2(words, 6, 6 + 2 * locators))
    ensures r.Ok? ==> FullCoords(nads, r.value.anchorLats, r.value.anchorLons, locators, words[1]) ==
                      Ok((r.value.fullLats, r.value.fullLons))
    ensures words[1] < 0 ==> r == Err(NegativeDimension)
  {
    var pop := words[1];
    var lats := AnchorLats(Slice2(words, 5, 5 + 2 * locators));
    var lons := AnchorLons(Slice2(words, 6, 6 + 2 * locators));
    var data :- GetData(Slice(words, 5 + 2 * locators, |words|), pop);
    var coords :- FullCoords(nads, lats, lons, locators, pop);
    Ok(Swath(Scale(words[0], 512), pop, Scale(words[2], 64), Scale(words[3], 64),
             Flags(words[4]), lats, lons, data, coords.0, coords.1))
  }

  /** `Swath_Data.__init__` with the source's fill test. */
  function SwathAsWritten(words: seq<int>, locators: int, nads: seq<real>): (r: Result<Swath>)
    requires |words| >= 5
    ensures FilledAsWritten(words[1]) ==> r == FilledSwath(locators)
    ensures !FilledAsWritten(words[1]) ==> r == DecodedSwath(words, locators, nads)
    ensures words[1] < 0 ==> r == Err(NegativeDimension)
    ensures r.Ok? ==> 0 <= r.value.dataPop < 600
  {
    if FilledAsWritten(words[1]) then FilledSwath(locators) else DecodedSwath(words, locators, nads)
  }

  /** A sentinel population passes the source's fill test and reaches an
      array of size -999. */
  lemma SentinelPopulationRaises(words: seq<int>, locators: int, nads: seq<real>)
    requires |words| >= 5 && words[1] == Missing
    ensures SwathAsWritten(words, locators, nads) == Err(NegativeDimension)
  {
  }

  /** `Swath_Data.__init__` with the intended fill test: every decoded swath
      has a population from 1 to 599 and that many coordinates, a filled one
      has population 0, and no population makes an array of negative size. */
  function ParseSwath(words: seq<int>, locators: int, nads: seq<real>): (r: Result<Swath>)
    requires |words| >= 5
    ensures r.Ok? ==> 0 <= r.value.dataPop < 600
    ensures r.Ok? ==> |r.value.fullLats| == r.value.dataPop && |r.value.fullLons| == r.value.dataPop
    ensures r.Ok? ==> r.value.data == [] || |r.value.data| == r.value.dataPop
    ensures r.Ok? ==> (r.value.dataPop == 0 <==> Filled(words[1]))
    ensures locators >= 0 ==> r != Err(NegativeDimension)
    ensures Filled(words[1]) && locators >= 0 ==> r.Ok? && r.value.seconds == MissingReal
  {
    if Filled(words[1]) then FilledSwath(locators) else DecodedSwath(words, locators, nads)
  }

  /** Which fill test a decoder applies: the source's own, or the intended
      one. */
  datatype FillTest = AsWritten | Intended

  /** One swath under the chosen fill test. */
  function SwathBy(test: FillTest, words: seq<int>, locators: int, nads: seq<real>): Result<Swath>
    requires |words| >= 5
  {
    match test
    case AsWritten => SwathAsWritten(words, locators, nads)
    case Intended => ParseSwath(words, locators, nads)
  }

  /** `set_swaths`: every swath of a record, in order; the first that raises
      stops the record. Under the source's fill test a swath with a negative
      population always raises. */
  function ParseSwaths(test: FillTest, wordLists: seq<seq<int>>, locators: int, nads: seq<real>): (r: Result<seq<Swath>>)
    requires forall k :: 0 <= k < |wordLists| ==> |wordLists[k]| >= 5
    ensures r.Ok? ==> |r.value| == |wordLists|
    ensures r.Ok? ==> forall k :: 0 <= k < |wordLists| ==> Ok(r.value[k]) == SwathBy(test, wordLists[k], locators, nads)
    ensures r.Err? <==> exists k :: 0 <= k < |wordLists| && SwathBy(test, wordLists[k], locators, nads).Err?
    ensures r.Ok? ==> forall k :: 0 <= k < |wordLists| ==> 0 <= r.value[k].dataPop < 600
    ensures test == AsWritten && (exists k :: 0 <= k < |wordLists| && wordLists[k][1] < 0) ==> r.Err?
  {
    if wordLists == [] then Ok([])
    else
      var first :- SwathBy(test, wordLists[0], locators, nads);
      var rest :- ParseSwaths(test, wordLists[1..], locators, nads);
      assert forall k :: 0 < k < |wordLists| ==> wordLists[1..][k - 1] == wordLists[k];
      Ok([first] + rest)
  }

  /** The intended test only turns the source's raises into fills: when the
      source's test decodes every swath, both tests give the same swaths, and
      when no population is negative they agree outright. */
  lemma {:induction false} FillTestsAgree(wordLists: seq<seq<int>>, locators: int, nads: seq<real>)
    requires forall k :: 0 <= k < |wordLists| ==> |wordLists[k]| >= 5
    ensures ParseSwaths(AsWritten, wordLists, locators, nads).Ok? ==>
              ParseSwaths(Intended, wordLists, locators, nads) == ParseSwaths(AsWritten, wordLists, locators, nads)
    ensures (forall k :: 0 <= k < |wordLists| ==> wordLists[k][1] >= 0) ==>
              ParseSwaths(Intended, wordLists, locators, nads) == ParseSwaths(AsWritten, wordLists, locators, nads)
  {
    if wordLists != [] {
      FillTestsAgree(wordLists[1..], locators, nads);
      var w := wordLists[0];
      FillTestsDiffer(w[1]);
      if w[1] >= 0 {
        assert SwathAsWritten(w, locators, nads) == ParseSwath(w, locators, nads);
      }
      assert forall k :: 0 < k < |wordLists| ==> wordLists[1..][k - 1] == wordLists[k];
    }
  }

  /** Where a decoded swath's anchors come from: anchor k's latitude is word
      5 + 2k and its longitude word 6 + 2k, when the words reach that far. */
  lemma SwathAnchorPlaces(words: seq<int>, locators: nat, nads: seq<real>)
    requires |words| >= 6 + 2 * locators
    requires DecodedSwath(words, locators, nads).Ok?
    ensures var s := DecodedSwath(words, locators, nads).value;
            |s.anchorLats| == locators && |s.anchorLons| == locators &&
            forall k :: 0 <= k < locators ==> s.anchorLats[k] == AnchorLat(words[5 + 2 * k]) && s.anchorLons[k] == AnchorLon(words[6 + 2 * k])
  {
    var a := Slice(words, 5, 5 + 2 * locators);
    var b := Slice(words, 6, 6 + 2 * locators);
    assert a == words[5..5 + 2 * locators];
    assert b == words[6..6 + 2 * locators];
  }

  /** With five or more anchors, as many nadir angles and anchor words, and
      a population that is not negative, the decoding branch succeeds. */
  lemma DecodedOk(words: seq<int>, locators: nat, nads: seq<real>)
    requires |words| >= 6 + 2 * locators && locators >= 5
    requires |nads| == locators && words[1] >= 0
    ensures DecodedSwath(words, locators, nads).Ok?
  {
    var lats := AnchorLats(Slice2(words, 5, 5 + 2 * locators));
    var lons := AnchorLons(Slice2(words, 6, 6 + 2 * locators));
    assert |Slice(words, 5, 5 + 2 * locators)| == 2 * locators;
    assert |Slice(words, 6, 6 + 2 * locators)| == 2 * locators;
    FullCoordsDefined(nads, lats, lons, locators, words[1]);
  }

  /** A swath decoded against five or more distinct nadir angles starts on
      the anchor with the smallest angle: its first latitude is that anchor's
      latitude word in 64ths of a degree, up to the final clamp. */
  lemma DecodedFirstSample(words: seq<int>, locators: nat, nads: seq<real>)
    requires |words| >= 6 + 2 * locators && locators >= 5
    requires |nads| == locators && Distinct(nads) && words[1] >= 1
    ensures var r := DecodedSwath(words, locators, nads);
            var i := Nearest(nads, SeqMin(nads));
            r.Ok? && nads[i] == SeqMin(nads) && r.value.fullLats[0] == ClampLat(AnchorLat(words[5 + 2 * i]))
  {
    DecodedOk(words, locators, nads);
    SwathAnchorPlaces(words, locators, nads);
    var s := DecodedSwath(words, locators, nads).value;
    FirstOfCoords(nads, s.anchorLats, s.anchorLons, locators, words[1], s.fullLats, s.fullLons);
  }

  lemma FirstOfCoords(nads: seq<real>, lats: seq<real>, lons: seq<real>, locators: int, pop: nat,
                      fullLats: seq<real>, fullLons: seq<real>)
    requires locators >= 5 && |nads| == locators && |lats| == locators && |lons| == locators
    requires Distinct(nads) && pop >= 1
    requires FullCoords(nads, lats, lons, locators, pop) == Ok((fullLats, fullLons))
    ensures var i := Nearest(nads, SeqMin(nads));
            nads[i] == SeqMin(nads) && |fullLats| == pop && fullLats[0] == ClampLat(lats[i])
  {
    FirstSampleOnAnchor(nads, lats, lons, locators, pop);
  }
}

=== FILE: wordsa.dfy ===
/** Word assembly for the first tape generation. Six bytes give one 36-bit
    word: the six data bits of each byte, most significant byte first. A single
    bad byte turns the whole word into the sentinel. A 36-bit word is further
    split into two 18-bit half words. */
module WordsA {
  import opened Common
  import opened Bits
  import opened Parity

  predicate AllGood(ts: seq<Tagged>)
  {
    forall i :: 0 <= i < |ts| ==> ts[i].good
  }

  /** The data bits of every byte, in order. */
  function DataOf(ts: seq<Tagged>): (ds: seq<int>)
    ensures |ds| == |ts|
    ensures forall i :: 0 <= i < |ts| ==> ds[i] == Low6(ts[i].value)
    ensures IsDigits(ds, 64)
  {
    if ts == [] then [] else [Low6(ts[0].value)] + DataOf(ts[1..])
  }

  /** The assembler loop from an accumulated `acc`: shift in six bits per
      good byte, and stop with the sentinel at the first bad byte. */
  function Accumulate(acc: int, ts: seq<Tagged>): int
    decreases |ts|
  {
    if ts == [] then acc
    else if !ts[0].good then Missing
    else Accumulate(acc * 64 + Low6(ts[0].value), ts[1..])
  }

  lemma {:induction false} AccumulateGood(acc: int, ts: seq<Tagged>)
    requires AllGood(ts)
    ensures Accumulate(acc, ts) == ShiftIn(acc, DataOf(ts), 64)
    decreases |ts|
  {
    if ts != [] {
      assert DataOf(ts)[1..] == DataOf(ts[1..]);
      AccumulateGood(acc * 64 + Low6(ts[0].value), ts[1..]);
    }
  }

  lemma {:induction false} AccumulateBad(acc: int, ts: seq<Tagged>)
    requires !AllGood(ts)
    ensures Accumulate(acc, ts) == Missing
    decreases |ts|
  {
    if ts[0].good {
      var k :| 0 <= k < |ts| && !ts[k].good;
      assert !ts[1..][k - 1].good;
      AccumulateBad(acc * 64 + Low6(ts[0].value), ts[1..]);
    }
  }

  /** One word read from a slice of tagged bytes (`read_word`, and the
      identical `read_full_word` of the record and swath readers): the sentinel
      exactly when some byte is bad, and otherwise the big-endian value of the
      data bits, which is below 64^n for n bytes and so never the sentinel.
      An empty slice reads as 0. */
  function ReadWord(ts: seq<Tagged>): (w: int)
    ensures w == Missing <==> !AllGood(ts)
    ensures AllGood(ts) ==> w == Value(DataOf(ts), 64)
    ensures AllGood(ts) ==> 0 <= w < Pow(64, |ts|)
  {
    if AllGood(ts) then
      AccumulateGood(0, ts);
      ShiftInValue(0, DataOf(ts), 64);
      ValueBounds(DataOf(ts), 64);
      Accumulate(0, ts)
    else
      AccumulateBad(0, ts);
      Accumulate(0, ts)
  }

  lemma SixBytes()
    ensures Pow(64, 6) == WordLimit
  {
    assert Pow(64, 2) == 4096;
    assert Pow(64, 4) == 64 * (64 * Pow(64, 2));
  }

  /** Six bytes, or fewer, always read as a word value or the sentinel. */
  lemma ReadWordIsWord(ts: seq<Tagged>)
    requires |ts| <= 6
    ensures IsWord(ReadWord(ts))
  {
    if AllGood(ts) {
      SixBytes();
      PowMono(64, |ts|, 6);
    }
  }

  lemma {:induction false} PowMono(b: nat, m: nat, n: nat)
    requires b > 0 && m <= n
    ensures Pow(b, m) <= Pow(b, n)
    decreases n
  {
    if m < n {
      PowMono(b, m, n - 1);
      MulLe(1, b, Pow(b, n - 1));
    }
  }

  /** The bytes the recorder writes for an n-chunk word: each six-bit chunk,
      most significant first, with its parity bit. */
  function EncodeWord(v: nat, n: nat): (bs: seq<Int8>)
    requires v < Pow(64, n)
    ensures |bs| == n
    ensures forall i :: 0 <= i < n ==> Good(bs[i]) && Low6(bs[i]) == Digits(v, n, 64)[i]
  {
    var ds := Digits(v, n, 64);
    seq(n, i requires 0 <= i < n => EncodeChunk(ds[i]))
  }

  /** Reading back the bytes written for a word gives the word. */
  lemma WordRoundTrip(v: nat, n: nat)
    requires v < Pow(64, n)
    ensures ReadWord(ZipGoodness(EncodeWord(v, n))) == v
  {
    var ts := ZipGoodness(EncodeWord(v, n));
    assert AllGood(ts);
    assert DataOf(ts) == Digits(v, n, 64);
    DigitsValue(v, n, 64);
  }

  /** The two 18-bit halves of a word, high half (D) first as the record
      readers append them; the sentinel splits into two sentinels. */
  function Halves(w: int): (h: (int, int))
    ensures w == Missing ==> h == (Missing, Missing)
    ensures w != Missing ==> h.0 * HalfLimit + h.1 == w && 0 <= h.1 < HalfLimit
    ensures 0 <= w < WordLimit ==> 0 <= h.0 < HalfLimit
  {
    if w == Missing then (Missing, Missing) else (w / HalfLimit, w % HalfLimit)
  }

  /** Joining two halves and splitting them again gives them back. */
  lemma HalvesJoin(d: int, a: int)
    requires 0 <= d < HalfLimit && 0 <= a < HalfLimit
    ensures Halves(d * HalfLimit + a) == (d, a)
  {
    DivModOf(d * HalfLimit + a, HalfLimit, d, a);
  }

  /** Every half of a word value or sentinel is a half-word value or sentinel. */
  lemma HalvesAreWords(w: int)
    requires IsWord(w)
    ensures IsWord(Halves(w).0) && IsWord(Halves(w).1)
    ensures Halves(w).0 != Missing ==> Halves(w).0 < HalfLimit
    ensures Halves(w).1 != Missing ==> Halves(w).1 < HalfLimit
  {
  }
}

=== FILE: wordsb.dfy ===
/** Word assembly for the second tape generation, where every bit of a byte
    carries data and nine bytes (72 bits) hold two 36-bit words back to back.
    The decoder has three textually different copies of the pair reader; all
    three agree with one reference split. */
module WordsB {
  import opened Common
  import opened Bits
  import opened PySeq

  /** 2^32 and 2^40: the weights of four and five whole bytes. */
  const Two32: int := 0x1_0000_0000
  const Two40: int := 0x100_0000_0000

  lemma BytePowers()
    ensures Pow(256, 4) == Two32
    ensures Pow(256, 5) == Two40
    ensures Pow(256, 9) == WordLimit * WordLimit
  {
    assert Pow(256, 2) == 65536;
    assert Pow(256, 4) == 256 * (256 * Pow(256, 2));
    PowAdd(256, 4, 5);
  }

  /** `b & 0b11111111` of every byte: the stored byte values. */
  function Unsigned8(bs: seq<Int8>): (us: seq<int>)
    ensures |us| == |bs|
    ensures forall i :: 0 <= i < |bs| ==> us[i] == Unsigned(bs[i])
    ensures IsDigits(us, 256)
  {
    seq(|bs|, i requires 0 <= i < |bs| => Unsigned(bs[i]) as int)
  }

  /** The reference reading of nine bytes: their 72-bit big-endian value
      split at bit 36; any other length gives two sentinels. */
  function Split72(bs: seq<Int8>): (p: (int, int))
    ensures |bs| != 9 ==> p == (Missing, Missing)
    ensures |bs| == 9 ==> 0 <= p.0 < WordLimit && 0 <= p.1 < WordLimit
    ensures |bs| == 9 ==> p.0 * WordLimit + p.1 == Value(Unsigned8(bs), 256)
  {
    if |bs| != 9 then (Missing, Missing)
    else
      var v := Value(Unsigned8(bs), 256);
      ValueBounds(Unsigned8(bs), 256);
      BytePowers();
      DivBelow(v, WordLimit, WordLimit);
      (v / WordLimit, v % WordLimit)
  }

  /** `Orbit_Doc2.read_word`: the first five bytes shifted right by four bits,
      and bytes 4 to 8 cut to their low 36 bits. */
  function ReadPairOrbit(bs: seq<Int8>): (int, int)
  {
    if |bs| != 9 then (Missing, Missing)
    else
      var u := Unsigned8(bs);
      (ShiftIn(0, u[..5], 256) / 16, ShiftIn(0, u[4..], 256) % WordLimit)
  }

  /** `Data_Rec2.read_full_word`: the second word starts from the low four
      bits of byte 4 (the loop variable as the first loop leaves it) and
      shifts in bytes 5 to 8. */
  function ReadPairRecord(bs: seq<Int8>): (int, int)
  {
    if |bs| != 9 then (Missing, Missing)
    else
      var u := Unsigned8(bs);
      (ShiftIn(0, u[..5], 256) / 16, ShiftIn(bs[4] % 16, u[5..], 256) % WordLimit)
  }

  /** `Swath_Data2.read_full_word`: the second word starts from the low four
      bits of byte 4 and then shifts in bytes 4 to 8, byte 4 a second time. */
  function ReadPairSwath(bs: seq<Int8>): (int, int)
  {
    if |bs| != 9 then (Missing, Missing)
    else
      var u := Unsigned8(bs);
      (ShiftIn(0, u[..5], 256) / 16, ShiftIn(bs[4] % 16, u[4..], 256) % WordLimit)
  }

  /** The parts of nine stored bytes the copies work on: bytes 0-3 as a value
      `a`, byte 4 as its high and low nibble, and bytes 5-8 as a value `c`. */
  datatype Parts = Parts(a: int, high: int, low: int, c: int)

  predicate PartsOf(bs: seq<Int8>, p: Parts)
    requires |bs| == 9
  {
    var u := Unsigned8(bs);
    && 0 <= p.a < Two32 && 0 <= p.high < 16 && 0 <= p.low < 16 && 0 <= p.c < Two32
    && bs[4] % 16 == p.low
    && ShiftIn(0, u[..5], 256) == p.a * 256 + p.high * 16 + p.low
    && ShiftIn(0, u[4..], 256) == (p.high * 16 + p.low) * Two32 + p.c
    && ShiftIn(p.low, u[5..], 256) == p.low * Two32 + p.c
    && ShiftIn(p.low, u[4..], 256) == p.low * Two40 + (p.high * 16 + p.low) * Two32 + p.c
    && Value(u, 256) == (p.a * 256 + p.high * 16 + p.low) * Two32 + p.c
  }

  lemma LowNibble(b: Int8)
    ensures Unsigned(b) % 16 == b % 16
  {
    var q := b / 256;
    DivMod(b, 256);
    var u := Unsigned(b) as int;
    DivMod(u, 16);
    assert b == (16 * q + u / 16) * 16 + u % 16;
    DivModOf(b, 16, 16 * q + u / 16, u % 16);
  }

  /** Bytes 0-4: their value as the copies' first loop builds it, and the
      value of all nine bytes. */
  lemma HeadParts(u: seq<int>, a: int, b4: int, c: int)
    requires |u| == 9 && a == Value(u[..4], 256) && b4 == u[4] && c == Value(u[5..], 256)
    ensures ShiftIn(0, u[..5], 256) == a * 256 + b4
    ensures Value(u, 256) == (a * 256 + b4) * Two32 + c
  {
    BytePowers();
    assert u[..5][..4] == u[..4];
    assert Value(u[..5], 256) == a * 256 + b4;
    ShiftInValue(0, u[..5], 256);
    ValueConcat(u[..5], u[5..], 256);
    assert u[..5] + u[5..] == u;
  }

  /** Bytes 4-8 and 5-8 shifted in after a start value, as the second loops
      of the copies do. */
  lemma TailParts(u: seq<int>, b4: int, c: int, low: int)
    requires |u| == 9 && b4 == u[4] && c == Value(u[5..], 256)
    ensures ShiftIn(0, u[4..], 256) == b4 * Two32 + c
    ensures ShiftIn(low, u[5..], 256) == low * Two32 + c
    ensures ShiftIn(low, u[4..], 256) == low * Two40 + b4 * Two32 + c
  {
    BytePowers();
    ValueConcat([b4], u[5..], 256);
    assert [b4] + u[5..] == u[4..];
    assert Value([b4], 256) == b4 by {
      assert [b4][..0] == [];
    }
    ShiftInValue(0, u[4..], 256);
    ShiftInValue(low, u[5..], 256);
    ShiftInValue(low, u[4..], 256);
  }

  /** Every nine bytes split into the parts the copies work on. */
  lemma Decompose(bs: seq<Int8>) returns (p: Parts)
    requires |bs| == 9
    ensures PartsOf(bs, p)
  {
    var u := Unsigned8(bs);
    BytePowers();
    var a := Value(u[..4], 256);
    var c := Value(u[5..], 256);
    ValueBounds(u[..4], 256);
    ValueBounds(u[5..], 256);
    var b4 := u[4];
    LowNibble(bs[4]);
    DivMod(b4, 16);
    p := Parts(a, b4 / 16, b4 % 16, c);
    HeadParts(u, a, b4, c);
    TailParts(u, b4, c, p.low);
  }

  /** The arithmetic behind the three copies: with V = (a*256 + b4)*2^32 + c,
      the reference words are (a*16 + high, low*2^32 + c), and each copy's
      formula yields the same two numbers. */
  lemma PartsArithmetic(p: Parts)
    requires 0 <= p.a < Two32 && 0 <= p.high < 16 && 0 <= p.low < 16 && 0 <= p.c < Two32
    ensures var v := (p.a * 256 + p.high * 16 + p.low) * Two32 + p.c;
            && v / WordLimit == p.a * 16 + p.high
            && v % WordLimit == p.low * Two32 + p.c
            && (p.a * 256 + p.high * 16 + p.low) / 16 == p.a * 16 + p.high
            && ((p.high * 16 + p.low) * Two32 + p.c) % WordLimit == p.low * Two32 + p.c
            && (p.low * Two32 + p.c) % WordLimit == p.low * Two32 + p.c
            && (p.low * Two40 + (p.high * 16 + p.low) * Two32 + p.c) % WordLimit == p.low * Two32 + p.c
  {
    var r := p.low * Two32 + p.c;
    assert 0 <= r < WordLimit;
    var v := (p.a * 256 + p.high * 16 + p.low) * Two32 + p.c;
    assert v == (p.a * 16 + p.high) * WordLimit + r;
    DivModOf(v, WordLimit, p.a * 16 + p.high, r);
    DivModOf(p.a * 256 + p.high * 16 + p.low, 16, p.a * 16 + p.high, p.low);
    assert (p.high * 16 + p.low) * Two32 + p.c == p.high * WordLimit + r;
    DivModOf((p.high * 16 + p.low) * Two32 + p.c, WordLimit, p.high, r);
    DivModOf(r, WordLimit, 0, r);
    assert p.low * Two40 + (p.high * 16 + p.low) * Two32 + p.c == (p.low * 16 + p.high) * WordLimit + r;
    DivModOf(p.low * Two40 + (p.high * 16 + p.low) * Two32 + p.c, WordLimit, p.low * 16 + p.high, r);
  }

  /** The orbit document's copy is the reference split. */
  lemma OrbitCopyAgrees(bs: seq<Int8>)
    ensures ReadPairOrbit(bs) == Split72(bs)
  {
    if |bs| == 9 {
      var p := Decompose(bs);
      PartsArithmetic(p);
    }
  }

  /** The data record's copy is the reference split. */
  lemma RecordCopyAgrees(bs: seq<Int8>)
    ensures ReadPairRecord(bs) == Split72(bs)
  {
    if |bs| == 9 {
      var p := Decompose(bs);
      PartsArithmetic(p);
    }
  }

  /** The swath's copy is the reference split. */
  lemma SwathCopyAgrees(bs: seq<Int8>)
    ensures ReadPairSwath(bs) == Split72(bs)
  {
    if |bs| == 9 {
      var p := Decompose(bs);
      PartsArithmetic(p);
    }
  }

  /** Stored byte values as the signed bytes numpy reads. */
  function SignedBytes(ds: seq<int>): (bs: seq<Int8>)
    requires IsDigits(ds, 256)
    ensures |bs| == |ds|
    ensures Unsigned8(bs) == ds
  {
    var bs := seq(|ds|, i requires 0 <= i < |ds| => Signed(ds[i]));
    assert forall i :: 0 <= i < |ds| ==> Unsigned(bs[i]) == ds[i];
    bs
  }

  /** The nine bytes the recorder writes for two 36-bit words. */
  function Encode72(w1: int, w2: int): (bs: seq<Int8>)
    requires 0 <= w1 < WordLimit && 0 <= w2 < WordLimit
    ensures |bs| == 9
  {
    SignedBytes(Digits(w1 * WordLimit + w2, 9, 256))
  }

  lemma PairBound(w1: int, w2: int)
    requires 0 <= w1 < WordLimit && 0 <= w2 < WordLimit
    ensures 0 <= w1 * WordLimit + w2 < Pow(256, 9)
  {
    BytePowers();
    MulLe(w1, WordLimit - 1, WordLimit);
  }

  lemma EncodedDigits(w1: int, w2: int)
    requires 0 <= w1 < WordLimit && 0 <= w2 < WordLimit
    ensures Unsigned8(Encode72(w1, w2)) == Digits(w1 * WordLimit + w2, 9, 256)
  {
  }

  lemma EncodedValue(w1: int, w2: int)
    requires 0 <= w1 < WordLimit && 0 <= w2 < WordLimit
    ensures Value(Unsigned8(Encode72(w1, w2)), 256) == w1 * WordLimit + w2
  {
    PairBound(w1, w2);
    EncodedDigits(w1, w2);
    DigitsOf(Unsigned8(Encode72(w1, w2)), w1 * WordLimit + w2, 9, 256);
  }

  /** Two words below 2^36 are determined by their 72-bit join. */
  lemma PairUnique(a: int, b: int, c: int, d: int)
    requires 0 <= b < WordLimit && 0 <= d < WordLimit
    requires a * WordLimit + b == c * WordLimit + d
    ensures a == c && b == d
  {
    DivModOf(a * WordLimit + b, WordLimit, a, b);
    DivModOf(c * WordLimit + d, WordLimit, c, d);
  }

  /** Reading back the bytes written for two words gives the two words. */
  lemma PairRoundTrip(w1: int, w2: int)
    requires 0 <= w1 < WordLimit && 0 <= w2 < WordLimit
    ensures Split72(Encode72(w1, w2)) == (w1, w2)
  {
    EncodedValue(w1, w2);
    var p := Split72(Encode72(w1, w2));
    PairUnique(p.0, p.1, w1, w2);
  }

  /** The `while len % 9 != 0` loop of `Orbit_Doc2.make_words`: append zero
      bytes until the length is a multiple of nine. */
  function PadNine(bs: seq<Int8>): (r: seq<Int8>)
    ensures |r| % 9 == 0
    ensures |bs| <= |r| < |bs| + 9
    ensures r[..|bs|] == bs
    ensures forall i :: |bs| <= i < |r| ==> r[i] == 0
  {
    bs + seq((9 - |bs| % 9) % 9, _ => 0)
  }

  /** Two words for each nine-byte group of `bs`, read by `read`; bytes
      after the last whole group are not read. */
  function PairWords(bs: seq<Int8>, read: seq<Int8> -> (int, int)): (ws: seq<int>)
    ensures |ws| == 2 * (|bs| / 9)
  {
    seq(2 * (|bs| / 9), k requires 0 <= k < 2 * (|bs| / 9) =>
      var pair := read(bs[9 * (k / 2)..9 * (k / 2) + 9]);
      if k % 2 == 0 then pair.0 else pair.1)
  }

  /** Group i's pair sits at positions 2i and 2i+1. */
  lemma PairWordsAt(bs: seq<Int8>, read: seq<Int8> -> (int, int), i: nat)
    requires i < |bs| / 9
    ensures PairWords(bs, read)[2 * i] == read(bs[9 * i..9 * i + 9]).0
    ensures PairWords(bs, read)[2 * i + 1] == read(bs[9 * i..9 * i + 9]).1
  {
    assert (2 * i) / 2 == i && (2 * i + 1) / 2 == i;
  }

  /** `Orbit_Doc2.make_words`: pad, then two words per nine-byte group. */
  function OrbitDocWordsB(bs: seq<Int8>): (ws: seq<int>)
  {
    PairWords(PadNine(bs), ReadPairOrbit)
  }

  /** Two words for every started nine-byte group, each pair the reference
      split of its group, with the last group padded by zero bytes. */
  lemma OrbitDocWordsBLayout(bs: seq<Int8>)
    ensures |OrbitDocWordsB(bs)| == 2 * ((|bs| + 8) / 9)
    ensures var p := PadNine(bs);
            forall i :: 0 <= i < |p| / 9 ==>
              OrbitDocWordsB(bs)[2 * i] == Split72(p[9 * i..9 * i + 9]).0 &&
              OrbitDocWordsB(bs)[2 * i + 1] == Split72(p[9 * i..9 * i + 9]).1
  {
    var p := PadNine(bs);
    assert |p| / 9 == (|bs| + 8) / 9;
    forall i | 0 <= i < |p| / 9
      ensures OrbitDocWordsB(bs)[2 * i] == Split72(p[9 * i..9 * i + 9]).0
      ensures OrbitDocWordsB(bs)[2 * i + 1] == Split72(p[9 * i..9 * i + 9]).1
    {
      PairWordsAt(p, ReadPairOrbit, i);
      OrbitCopyAgrees(p[9 * i..9 * i + 9]);
    }
  }
}
